=== FILE: README.md ===
# flolang core, modelled in Dafny

flolang is a small indentation-structured scripting language with a Python
implementation. Its pipeline is:

- the lexer (`tokenize`) turns source text into tokens;
- the recursive-descent parser builds a syntax tree from the tokens;
- a tree-walking interpreter evaluates the tree over a chain of scopes.

Around the pipeline sit three small helpers:

- the positioned error messages of `error.py`;
- two command-line splitters, `ArgumentParser` and `console.parse_arguments`;
- two pure helpers of the compiler driver, `file_ending` and `switch`.

This project models each of these as pure Dafny functions over immutable
datatypes, and proves properties of the model.

The modules follow the source files:

- `Wrappers` and `Strings`: `Option`/`Result`, and the `str` operations the
  source relies on (prefix and suffix tests, string order, digit strings).
- `Diagnostics` (`error.py`): the symbols tuple, the message text of `error`,
  and a line-by-line reading of that text.
- `Tokens`, `Lexer` and `LexerProperties` (`lexer.py`).
  - The candidate lists are sorted and reversed as `tokenize` builds them.
  - Each line is stripped of comments and measured for indentation.
  - Tokens are matched in the source's rule order.
  - Block tokens are emitted on every change of indentation, and the
    end-of-line `return` mark is set.
  - The properties cover:
    - balanced block tokens and a single EOF;
    - the `return` mark, when and only when the `return` ends its line;
    - maximal munch for operators, and word-boundary keywords;
    - the shapes of identifiers, numerals and string literals.
- `Ast`, `Parser` and `ParserProperties` (`abstract_source_tree.py`).
  - Every parse function returns the node and the position after it, or
    the reason and place it failed.
  - The properties cover:
    - a program is the chain of its statements;
    - each of the eleven binary levels is a left fold, and tighter levels
      bind first;
    - assignment nests to the right;
    - the prefix/postfix increment, member, call and declaration rules.
- `Values`, `Environment`, `Interpreter`, `InterpreterFrame`,
  `InterpreterProperties` and `ProgramProperties` (`interpreter.py`).
  - Runtime values and Python's operators on them: floor division,
    two's-complement bit operations, shifts and comparisons.
  - The scope chain, with `declare`, `assign`, `lookup` and `_resolve`.
  - Every `interpret_*` function, run on a fuel budget.
  - The properties cover:
    - what every evaluation may do to the scope chain (the frame lemmas);
    - declaration, increment and assignment;
    - blocks, loops and `break`/`return`;
    - argument binding and dynamic scoping;
    - the two-pass order of `interpret_program`.
- `ArgumentParsing`, `Console` and `MainCompiler`: the helpers.

The interpreter is written against the syntax nodes the parser produces,
plus the `if`, `while`, `for`, block, `break` and `unreachable` nodes.
`interpreter.py` evaluates these nodes, but `abstract_source_tree.py` does
not define their classes. The model follows what `interpreter.py` reads off
them:

- `condition` and `positiveCase`/`negativeCase` for an `if`;
- `condition` and `body` for a `while`;
- `loopVariable` with `quantityMin`/`quantityMax` for a `for`;
- `body` for a block.

## Model

| member | source | states |
|---|---|---|
| Strings.LexLessTransitive | flolang/lexer.py:191-196 | Python's string order, which sorts the candidate lists, is transitive |
| Strings.ProperPrefixIsLess | flolang/lexer.py:191-196 | a proper prefix sorts before the longer string |
| Strings.LexLessIrreflexive | flolang/lexer.py:191-196 | no string sorts before itself |
| Strings.LexLessTotal | flolang/lexer.py:191-196 | of two different strings one sorts first |
| Strings.PrefixesAreComparable | flolang/lexer.py:222-234 | two candidates that both start the source are prefixes of one another |
| Strings.DigitChar | flolang/abstract_source_tree.py:144-153 | the digit character of a value below 16 reads back as that value |
| Strings.NatToDigits | flolang/abstract_source_tree.py:144-153 | the digit string of a number is non-empty and uses only digits of the base |
| Strings.DigitsRoundTrip | flolang/abstract_source_tree.py:144-153 | reading the digit string of `n` in a base back gives `n` |
| Strings.DecimalRoundTrip | flolang/error.py:20 | the `%d` text of an integer, sign included, reads back as the integer |
| Strings.Repeat | flolang/error.py:16 | `" " * n` has `n` characters, none for a negative count, all equal to the repeated one |
| Diagnostics.Indicator | flolang/error.py:16 | the caret line is `line_pos` spaces followed by a single `^` |
| Diagnostics.FileLabel | flolang/error.py:17-19 | the header shows `None` without a file, otherwise the file name in double quotes |
| Diagnostics.Error | flolang/error.py:4-7 | `error` never returns: it raises the diagnostic with the given comment and symbols |
| Diagnostics.SplitNewlines | flolang/error.py:20 | splitting a message at newlines always yields at least one line |
| Diagnostics.FirstNewline | flolang/error.py:20 | the first newline of a text is found, and no newline comes before it |
| Diagnostics.FirstNewlineAfterLine | flolang/error.py:20 | in `a + "\n" + b` with a newline-free `a`, the first newline is the one after `a` |
| Diagnostics.SplitAfterLine | flolang/error.py:20 | a line followed by a newline splits off as the first piece |
| Diagnostics.DecimalHasNoNewline | flolang/error.py:20 | the `%d` line number contains no newline |
| Diagnostics.HeaderHasNoNewline | flolang/error.py:20 | the `File ..., line N.` header is one line whenever the file name is |
| Diagnostics.ErrorTextLines | flolang/error.py:15-21 | a message read back line by line gives the header, the source line, the caret line, and then the lines of the comment |
| Diagnostics.ThreeLines | flolang/error.py:20 | three newline-free lines in front of a text split off as three pieces |
| Tokens.Insert | flolang/lexer.py:191-196 | inserting into an ascending list adds exactly that element and keeps the list ascending |
| Tokens.Reverse | flolang/lexer.py:193 | the reversed list holds the same elements in the opposite positions |
| Tokens.SortedReversed | flolang/lexer.py:191-196 | `sort()` then `reverse()` gives a descending permutation of the list |
| Tokens.RearrangedMembers | flolang/lexer.py:191-196 | a permutation of two word lists has only words that were good in them |
| Tokens.StringTokensGood | flolang/lexer.py:41-72 | every multi-character operator is a non-empty word of operator characters |
| Tokens.SmallTokensGood | flolang/lexer.py:74-99 | every single-character operator is a non-empty word of operator characters |
| Tokens.KeywordTokensGood | flolang/lexer.py:101-120 | every keyword is a non-empty word of letters and digits |
| Tokens.VariableTokensGood | flolang/lexer.py:122-124 | every builtin type name is a non-empty word of letters and digits |
| Tokens.SymbolicCandidatesNonEmpty | flolang/lexer.py:191-193 | a rearranged symbolic list has no empty candidate, so every match consumes input |
| Tokens.AlphanumericCandidatesAlnum | flolang/lexer.py:194-196 | a rearranged keyword list has only non-empty alphanumeric candidates |
| Lexer.LineLength | flolang/lexer.py:197 | the first line ends at the first line boundary `splitlines` recognises, or at the end of the text |
| Lexer.SplitLines | flolang/lexer.py:197 | no line contains a line boundary, and only the empty text has no lines |
| Lexer.SplitJoinLines | flolang/lexer.py:197 | lines without boundaries, each followed by `\n`, split back into exactly those lines |
| Lexer.LineBreakAfterLine | flolang/lexer.py:197 | a boundary-free line followed by `\n` has exactly its own length |
| Lexer.RunEnd | flolang/lexer.py:257-290 | a run of a character class is the longest run of its characters from the start point |
| Lexer.RunEndOfPrefix | flolang/lexer.py:257-290 | a run ends at the same place in any prefix that still holds the character stopping it |
| Lexer.RunEndIsExact | flolang/lexer.py:257-290 | a stretch of class characters stopped by a non-class character or by the end is the run |
| Lexer.CommentSearch | flolang/lexer.py:177-181 | the search finds the leftmost comment start at or after the position, or the end of the line |
| Lexer.RemoveComments | flolang/lexer.py:177-181 | the result is the part of the line before the first comment start, or the whole line |
| Lexer.RemoveCommentsIdempotent | flolang/lexer.py:177-181 | removing comments from a line already stripped of them changes nothing |
| Lexer.NoCommentInPrefix | flolang/lexer.py:177-181 | a comment start of a shortened line is a comment start of the full line |
| Lexer.CountLeadingSpaces | flolang/lexer.py:127-133 | the count is the number of spaces the line opens with, and the next character is not a space |
| Lexer.CountIdents | flolang/lexer.py:135-139 | the level is a quarter of the leading spaces, or the positioned error when their count is not a multiple of four |
| Lexer.CountIdentsExact | flolang/lexer.py:135-139 | the level is `n` if and only if the line opens with exactly `4 * n` spaces |
| Lexer.ConsumeIdents | flolang/lexer.py:141-142 | `4 * ident` characters are dropped from the front, or all of them when the line is shorter |
| Lexer.FirstMatch | flolang/lexer.py:222-234 | the first accepted candidate at or after an index, or none when no later candidate is accepted |
| Lexer.NameLength | flolang/lexer.py:257-263 | the identifier pattern matches when a letter or `_` comes first, and runs to the first non-name character |
| Lexer.HexLength | flolang/lexer.py:266-273 | the hex pattern matches `0x` followed by at least one hex digit, and covers only hex digits |
| Lexer.NumeralLength | flolang/lexer.py:276-290 | the numeral pattern matches exactly when the source opens with a digit or a dot |
| Lexer.ClosingQuote | flolang/lexer.py:293-299 | a closing-quote index found lies at or after the scan start and holds a quote |
| Lexer.MatchCandidate | flolang/lexer.py:222-254 | the chosen candidate is in the list and accepted; when none is chosen, no candidate is accepted |
| Lexer.CandidateStep | flolang/lexer.py:230-234 | a matched candidate is emitted as a scanned token over its whole width |
| Lexer.LiteralStep | flolang/lexer.py:257-309 | a literal rule that emits consumes a non-empty part of the source and gives a scanned token |
| Lexer.SymbolicCandidates | flolang/lexer.py:191-193 | the symbolic list is descending in string order, and holds non-empty operator words |
| Lexer.AlphanumericCandidates | flolang/lexer.py:194-196 | the keyword list is descending in string order, and holds non-empty alphanumeric words |
| Lexer.SourceCandidates | flolang/lexer.py:191-196 | both lists are built in the source's order and are valid for the matching rules |
| Lexer.NextStep | flolang/lexer.py:214-309 | every emitted token consumes at least one character and no more than the source holds |
| Lexer.ScanLine | flolang/lexer.py:214-309 | every token of a line is positioned on that line; an unknown character fails with its line number |
| Lexer.Synthetic | flolang/lexer.py:205-212 | `n` block or EOF tokens at the line's symbols, and nothing else |
| Lexer.MarkReturn | flolang/lexer.py:311-314 | only the last token changes, and it gets the end-of-line mark when it is a `return` |
| Lexer.Tokenize | flolang/lexer.py:189-327 | builds the candidate lists in the source's order and returns the token list lexed with them |
| LexerProperties.BalanceAppend | flolang/lexer.py:205-212 | the block balance of two token lists adds up |
| LexerProperties.ConstantWeight | flolang/lexer.py:205-212 | a run of tokens of one weight weighs that much per token |
| LexerProperties.NeverNegativeAppend | flolang/lexer.py:205-212 | appending a list whose every prefix stays non-negative keeps every prefix non-negative |
| LexerProperties.AppendRun | flolang/lexer.py:205-212 | appending block starts or ends changes the balance by their number |
| LexerProperties.SameKindsBalance | flolang/lexer.py:311-314 | changing token values, as the `return` mark does, leaves every balance unchanged |
| LexerProperties.SameKindsNeverNegative | flolang/lexer.py:311-314 | changing token values keeps every prefix balance non-negative |
| LexerProperties.IndentTokensCount | flolang/lexer.py:205-212 | an indentation change emits one block token per level of difference, in its direction |
| LexerProperties.EarlierLinesAppend | flolang/lexer.py:199-315 | tokens from lines before `k` stay so when such tokens are appended |
| LexerProperties.ScannedWeightless | flolang/lexer.py:214-309 | the tokens scanned from a line are neither block nor EOF tokens |
| LexerProperties.IndentStep | flolang/lexer.py:205-212 | after the block tokens of a line, the balance equals the new indentation level |
| LexerProperties.LexLineKeeps | flolang/lexer.py:199-315 | lexing one line keeps the invariant: balance equals the open level and never drops below zero |
| LexerProperties.AppendLineKeeps | flolang/lexer.py:199-315 | appending a line's block and scanned tokens keeps the between-lines invariant |
| LexerProperties.AppendLineBalance | flolang/lexer.py:199-315 | appending a line's tokens leaves a balance equal to the new level |
| LexerProperties.AppendLineEarlier | flolang/lexer.py:199-315 | after a line, every scanned token comes from that line or an earlier one |
| LexerProperties.LexLinesKeep | flolang/lexer.py:199-315 | the line loop keeps the between-lines invariant over any number of lines |
| LexerProperties.LexLinesFromStart | flolang/lexer.py:197-315 | a successful run from the initial state ends in a state that keeps the invariant |
| LexerProperties.ClosingBalanced | flolang/lexer.py:318-326 | the closing block ends bring the balance to zero, and exactly one EOF follows |
| LexerProperties.ClosingMarked | flolang/lexer.py:318-326 | the closing tokens keep the `return` marking intact |
| LexerProperties.TokenizeBalanced | flolang/lexer.py:189-327 | the token list closes every block it opens, never closes one not opened, and ends with its only EOF |
| LexerProperties.TokenizeReturnsMarked | flolang/lexer.py:311-314 | a `return` carries the end-of-line mark if and only if no later token comes from its line |
| LexerProperties.MarkedAppend | flolang/lexer.py:311-314 | the marking survives appending tokens from later lines |
| LexerProperties.MarkReturnCompletes | flolang/lexer.py:311-314 | the end-of-line pass marks the `return` that ends a line's tokens |
| LexerProperties.Unmarked | flolang/lexer.py:214-309 | freshly scanned tokens carry no end-of-line mark |
| LexerProperties.ScannedMarked | flolang/lexer.py:214-314 | within a line, each `return` but the last is followed by a token of the same line |
| LexerProperties.AppendLineMarked | flolang/lexer.py:199-315 | one line keeps the marking, given that earlier tokens come from earlier lines |
| LexerProperties.LaterIsNotShorter | flolang/lexer.py:222-234 | of two operators that both start the source, the one sorting later is at least as long |
| LexerProperties.FirstPrefixIsLongest | flolang/lexer.py:222-234 | in a descending list, the first candidate that starts the source is the longest one that does |
| LexerProperties.SymbolicMaximalMunch | flolang/lexer.py:222-234 | the symbolic rule emits the longest operator starting the source, with that operator as the token kind |
| LexerProperties.NoOperatorNoSymbolic | flolang/lexer.py:222-234 | a source not opening with an operator character never matches the symbolic rule |
| LexerProperties.WordMatchUnique | flolang/lexer.py:183-187 | two keywords matching on a word boundary at the same place are the same word |
| LexerProperties.KeywordRule | flolang/lexer.py:242-254 | past the operators, a keyword is emitted exactly when it starts the source and no letter or digit follows it |
| LexerProperties.IdentifierRule | flolang/lexer.py:257-263 | a name starting with a letter or `_` is an identifier over the longest name run |
| LexerProperties.NumeralRule | flolang/lexer.py:266-290 | a hex numeral is a NUMBER; otherwise the numeral is a FLOAT when it has a `.` or `E`, and a NUMBER when not |
| LexerProperties.NumeralDigits | flolang/lexer.py:276-290 | a numeral without `.` or `E` is all decimal digits |
| LexerProperties.ClosingQuoteBody | flolang/lexer.py:293-299 | what the closing-quote scan passes over is a well-formed literal body |
| LexerProperties.ClosingQuoteAfterBody | flolang/lexer.py:293-299 | the scan stops at the quote right after a literal body |
| LexerProperties.StringRule | flolang/lexer.py:293-299 | a quoted literal body gives a STRING token whose value is the body, consuming it and both quotes |
| LexerProperties.StringTokenOnly | flolang/lexer.py:222-299 | a source opening with a quote is handled by the literal rules, not by a candidate list |
| LexerProperties.ReachesLiterals | flolang/lexer.py:222-309 | without an operator or keyword match, the literal rules decide the token |
| LexerProperties.NoWordMatch | flolang/lexer.py:183-187 | a source not opening with a letter or digit matches no keyword |
| LexerProperties.StringTokenShape | flolang/lexer.py:293-299 | any STRING token came from a literal body between two quotes |
| LexerProperties.WhitespaceAndUnknown | flolang/lexer.py:302-309 | whitespace is skipped; any other character the rules do not cover is the unknown-token error |
| Ast.NumericValue | flolang/abstract_source_tree.py:144-153 | the text converts when it is `0x` with hex digits or all decimal digits, and the value is never negative |
| Ast.DecimalNumeral | flolang/abstract_source_tree.py:144-153 | the decimal digits of `n` convert back to `n` |
| Ast.HexNumeral | flolang/abstract_source_tree.py:144-153 | `0x` and the hex digits of `n` convert back to `n` |
| Ast.ExponentMark | flolang/abstract_source_tree.py:155-161 | the first `E` or `e` of the text, with none before it, or the end |
| Ast.Points | flolang/abstract_source_tree.py:155-161 | the number of decimal points, zero exactly when the text has none |
| Ast.PointsAppend | flolang/abstract_source_tree.py:155-161 | decimal points add up over a concatenation |
| Ast.PointNumeral | flolang/abstract_source_tree.py:155-161 | for all digit strings `a` and `b`, `float()` accepts `a.b` exactly when one of them is non-empty |
| Ast.AcceptedFloats | flolang/abstract_source_tree.py:155-161 | `float()` converts `1.5`, `1E5` and `.5` |
| Ast.RejectedFloats | flolang/abstract_source_tree.py:155-161 | `float()` rejects `1.2.3`, `1..2`, `.` and `.E3`, which the lexer reads as FLOAT |
| Parser.Fail | flolang/abstract_source_tree.py:204-210 | a parse failure carries its reason and the symbols of the token where it happened |
| Parser.EatExpect | flolang/abstract_source_tree.py:204-210 | the token is consumed when it has the expected kind; otherwise the failure points at it |
| Parser.ParseNextType | flolang/abstract_source_tree.py:320-325 | an identifier or builtin-type token is read as a type and consumed; nothing else is consumed |
| Parser.ParseProgram | flolang/abstract_source_tree.py:219-226 | a successful parse is a program node |
| Parser.ParseStatements | flolang/abstract_source_tree.py:219-226 | the loop stops at EOF and extends the statements already read |
| Parser.ParseStatement | flolang/abstract_source_tree.py:228-236 | a statement consumes at least one token |
| Parser.ParseVarDeclaration | flolang/abstract_source_tree.py:242-268 | a declaration is constant exactly after `const`, a constant has an initializer, and the type token must be a type |
| Parser.ParseFunctionDeclaration | flolang/abstract_source_tree.py:272-289 | a function declaration consumes its tokens and yields a function node |
| Parser.ParseBody | flolang/abstract_source_tree.py:282-287 | the body stops at EOF or a block end and extends the statements already read |
| Parser.ParseParameterList | flolang/abstract_source_tree.py:294-318 | a parameter list consumes at least its parentheses |
| Parser.ParseParameters | flolang/abstract_source_tree.py:294-318 | the parameter loop never moves backwards |
| Parser.ParseDefault | flolang/abstract_source_tree.py:304-308 | without `=`, no default is read and nothing is consumed |
| Parser.ParseSeparator | flolang/abstract_source_tree.py:310-313 | succeeds exactly at the closing token, which is left unconsumed, or at a `,`, which is consumed |
| Parser.ParseReturn | flolang/abstract_source_tree.py:327-338 | a `return` has a value exactly when its token lacks the end-of-line mark |
| Parser.ParseExpression | flolang/abstract_source_tree.py:342-360 | an expression consumes at least one token |
| Parser.ParseObject | flolang/abstract_source_tree.py:366-398 | an object or binary expression consumes at least one token |
| Parser.ParseProperties | flolang/abstract_source_tree.py:366-398 | the property loop never moves backwards |
| Parser.ParseBinary | flolang/abstract_source_tree.py:401-513 | every binary level consumes at least one token |
| Parser.ParseOperand | flolang/abstract_source_tree.py:401-513 | an operand consumes at least one token |
| Parser.BinaryLoop | flolang/abstract_source_tree.py:401-513 | the operator loop of a level never moves backwards |
| Parser.ParsePrefix | flolang/abstract_source_tree.py:521-534 | a prefix expression consumes at least one token |
| Parser.ParsePostfix | flolang/abstract_source_tree.py:538-546 | a postfix expression starts with a token that can start a primary |
| Parser.ParseCallMember | flolang/abstract_source_tree.py:555-569 | a call or member expression starts with a token that can start a primary |
| Parser.ParseCall | flolang/abstract_source_tree.py:575-582 | applying argument lists yields a call node |
| Parser.ParseCallArguments | flolang/abstract_source_tree.py:587-596 | an argument list consumes at least its parentheses |
| Parser.ParseArgumentList | flolang/abstract_source_tree.py:601-609 | a non-empty argument list consumes at least one token |
| Parser.ArgumentLoop | flolang/abstract_source_tree.py:601-609 | the argument loop never moves backwards |
| Parser.ParseMember | flolang/abstract_source_tree.py:617-639 | a member expression starts with a token that can start a primary |
| Parser.MemberLoop | flolang/abstract_source_tree.py:617-639 | the member loop never moves backwards |
| Parser.ParsePrimary | flolang/abstract_source_tree.py:645-661 | a primary starts with an identifier, literal or `(` token and consumes it; a FLOAT token parses exactly when `float()` accepts its text, as `FloatLiteral` converts it while the tree is built |
| ParserProperties.StatementsAreChain | flolang/abstract_source_tree.py:219-226 | the statement loop returns exactly the chain of consecutive statement parses up to EOF |
| ParserProperties.ProgramIsStatementChain | flolang/abstract_source_tree.py:219-236 | a parsed program's body is the chain of `parse_statement` results, from the first token to EOF |
| ParserProperties.TokenizedIsWellEnded | flolang/lexer.py:322-326 | the lexer's successful output is a valid parser input: it ends with its only EOF |
| ParserProperties.NumberTextConverts | flolang/abstract_source_tree.py:144-153 | the text of every NUMBER token the lexer makes converts to an integer |
| ParserProperties.FoldLeft | flolang/abstract_source_tree.py:401-513 | the reference meaning of a binary level: the last operand and operator end up at the root, the earlier ones nested on the left |
| ParserProperties.LoopFolds | flolang/abstract_source_tree.py:401-513 | over a chain of operators and operands, the level's loop returns their left fold |
| ParserProperties.LoopIsChain | flolang/abstract_source_tree.py:401-513 | every successful loop result is the left fold of some chain ending where the loop stops |
| ParserProperties.BinaryIsLeftFold | flolang/abstract_source_tree.py:401-513 | every binary level, from `or` to `**`, is left-associative: its result is the left fold of its operands |
| ParserProperties.BinaryStops | flolang/abstract_source_tree.py:401-513 | a level's expression stops before any operator of that level or a tighter one |
| ParserProperties.LoopStops | flolang/abstract_source_tree.py:401-513 | a level's loop stops only before a token that is no operator of the level |
| ParserProperties.OperandAbsorbsTighter | flolang/abstract_source_tree.py:401-513 | an operand of a level runs until no tighter operator follows |
| ParserProperties.PrefixAtLevel | flolang/abstract_source_tree.py:401-534 | a prefix expression followed by no operator of the level or above is that level's whole expression |
| ParserProperties.NoAssignmentOperator | flolang/abstract_source_tree.py:347-360 | without an assignment operator after it, the binary expression is the whole expression |
| ParserProperties.AssignmentRightAssociative | flolang/abstract_source_tree.py:347-360 | `a = b += c` parses as `a = (b += c)` |
| ParserProperties.PrefixNeedsPrimary | flolang/abstract_source_tree.py:521-546 | a prefix operator's operand must start with a primary token |
| ParserProperties.PrefixIncrementNeedsIdentifier | flolang/abstract_source_tree.py:521-534 | `++`/`--` before anything but an identifier fails at the token after the operator |
| ParserProperties.PostfixIncrementNeedsIdentifier | flolang/abstract_source_tree.py:538-546 | `++`/`--` after anything but an identifier fails at the operator |
| ParserProperties.CallsNest | flolang/abstract_source_tree.py:575-582 | `f(..)(..)` nests the first call inside the second |
| ParserProperties.EmptyArguments | flolang/abstract_source_tree.py:587-596 | `()` is the empty argument list |
| ParserProperties.DotMember | flolang/abstract_source_tree.py:617-639 | `.` must be followed by an identifier, which makes a non-computed member |
| ParserProperties.IndexMember | flolang/abstract_source_tree.py:617-639 | `[e]` is a computed member and needs its closing `]` |
| ParserProperties.VarWithoutInitializer | flolang/abstract_source_tree.py:242-268 | `var T x` without `=` declares with no initializer |
| ParserProperties.ConstNeedsInitializer | flolang/abstract_source_tree.py:242-268 | `const T x` without `=` fails |
| ParserProperties.NumberIsPrefix | flolang/abstract_source_tree.py:521-661 | a NUMBER token not followed by a member, call or increment is a numeric literal prefix expression |
| ParserProperties.NumberIsOperand | flolang/abstract_source_tree.py:401-661 | such a number followed by no tighter operator is an operand of the level |
| ParserProperties.LooserLevelsPass | flolang/abstract_source_tree.py:401-513 | an expression followed by no operator of a looser level is the result of every looser level |
| ParserProperties.BinaryIsExpression | flolang/abstract_source_tree.py:342-360 | a binary expression followed by no assignment operator is the whole expression |
| ParserProperties.FoldTwo | flolang/abstract_source_tree.py:401-513 | the left fold of three operands is `(a op1 b) op2 c` |
| ParserProperties.ChainEnd | flolang/abstract_source_tree.py:401-513 | with no operator of the level at the position, the chain is empty |
| ParserProperties.ChainStep | flolang/abstract_source_tree.py:401-513 | an operator of the level and an operand extend a chain by one link |
| ParserProperties.OperandThenChain | flolang/abstract_source_tree.py:401-513 | a first operand followed by a chain folds to the left |
| ParserProperties.OneOperation | flolang/abstract_source_tree.py:401-513 | `a op b` with nothing of the level after it is one binary node |
| ParserProperties.TighterOnTheRight | flolang/abstract_source_tree.py:401-513 | `a op1 b op2 c` with `op2` tighter than `op1` parses as `a op1 (b op2 c)` |
| ParserProperties.TightOperand | flolang/abstract_source_tree.py:401-513 | the right operand `b op2 c` of the looser level |
| ParserProperties.SameLevelFoldsLeft | flolang/abstract_source_tree.py:401-513 | `a op1 b op2 c` with both operators of one level parses as `(a op1 b) op2 c` |
| ParserProperties.SameLevelBinary | flolang/abstract_source_tree.py:401-513 | the binary level of the operators returns the left fold of the three numbers |
| ParserProperties.SameLevelChain | flolang/abstract_source_tree.py:401-513 | `op1 b op2 c` is a chain of the level ending before EOF |
| ParserProperties.MiddleLink | flolang/abstract_source_tree.py:401-513 | the link `op1 b` in front of the rest of the chain |
| ParserProperties.NumberLink | flolang/abstract_source_tree.py:401-513 | an operator of the level and a number in front of a chain make a longer chain |
| ParserProperties.LastLink | flolang/abstract_source_tree.py:401-513 | the last link `op2 c` of the chain, ending at EOF |
| ParserProperties.NumberThenEnd | flolang/abstract_source_tree.py:401-513 | an operator of the level followed by a number at the end of input is a one-link chain |
| ParserProperties.SmallNumerals | flolang/abstract_source_tree.py:144-153 | the numerals of the concrete examples convert to their values |
| ParserProperties.ProductBindsTighter | flolang/abstract_source_tree.py:483-503 | `3 + 4 * 2` parses as `3 + (4 * 2)` |
| ParserProperties.ComparisonBindsTighterThanBitOr | flolang/abstract_source_tree.py:419-467 | `6 \| 2 > 4` parses as `6 \| (2 > 4)` |
| ParserProperties.SubtractionLeftAssociative | flolang/abstract_source_tree.py:483-490 | `4 - 3 - 2` parses as `(4 - 3) - 2` |
| ParserProperties.PowerLeftAssociative | flolang/abstract_source_tree.py:506-513 | `4 ** 3 ** 2` parses as `(4 ** 3) ** 2`, unlike Python |
| Values.PayloadOf | flolang/interpreter.py:5-53 | the `.value` of a number or boolean is its payload; only functions and internal signals have none |
| Values.TruthyIsNonZero | flolang/interpreter.py:150-153 | a number or boolean is true exactly when it is non-zero |
| Values.PayloadEqIsEquivalence | flolang/interpreter.py:160-163 | Python `==` between payloads is reflexive, symmetric and transitive |
| Values.FloorMod | flolang/interpreter.py:184-185 | `%` is the remainder of floor division, with the sign of the divisor |
| Values.FloorDivUnique | flolang/interpreter.py:184-187 | any quotient and remainder with those bounds are Python's `//` and `%` |
| Values.ShiftLeft | flolang/interpreter.py:174-175 | `a << n` is `a` times two to the `n` |
| Values.ShiftRight | flolang/interpreter.py:172-173 | `a >> n` is the floor quotient of `a` by two to the `n` |
| Values.ShiftRoundTrip | flolang/interpreter.py:172-175 | shifting left and back right returns the number |
| Values.ShiftRightShrinks | flolang/interpreter.py:172-173 | shifting a non-negative number right never grows it |
| Values.Invert | flolang/interpreter.py:197-198 | `~a` is `-a - 1` |
| Values.OrPlusAnd | flolang/interpreter.py:154-159 | `a \| b` plus `a & b` is `a + b` on two's-complement integers |
| Values.XorIsOrMinusAnd | flolang/interpreter.py:154-159 | `a ^ b` is `(a \| b) - (a & b)` |
| Values.XorSelf | flolang/interpreter.py:156-157 | `a ^ a` is 0 |
| Values.AndSelf | flolang/interpreter.py:154-159 | `a & a` and `a \| a` are `a` |
| Values.XorAllOnes | flolang/interpreter.py:156-157 | `a ^ -1` is `~a` |
| Values.AndBounded | flolang/interpreter.py:158-159 | `a & b` with a non-negative `a` lies between 0 and `a` |
| Values.Compare | flolang/interpreter.py:166-171 | ordering compares two numbers or two strings and fails with a type error on any other pair |
| Values.ApplyBinary | flolang/interpreter.py:147-191 | a function on the left has no `.value` and fails; one on the right fails unless a true left decides `or` or a false left decides `and`, which give true and false; arithmetic gives a number and the other operators a boolean |
| Values.ApplyUnary | flolang/interpreter.py:193-204 | `+` returns the operand itself, `not` gives a boolean, `~` and `-` give a number |
| Values.CompoundBase | flolang/interpreter.py:229-254 | a compound operator is an arithmetic operator followed by `=` |
| Values.Step | flolang/interpreter.py:206-227 | stepping succeeds exactly on a number or boolean, giving the number plus the step |
| Values.StepIsAddition | flolang/interpreter.py:206-227 | `++` is `+ 1` and `--` is `- 1`, failing exactly as those do |
| Values.IntegerArithmetic | flolang/interpreter.py:176-181 | `+` and `*` on numbers are integer sum and product |
| Values.IntegerDivision | flolang/interpreter.py:184-187 | `//` and `%` are floor quotient and remainder, and fail on a zero divisor |
| Values.IntegerComparisons | flolang/interpreter.py:160-173 | comparisons give booleans, and a negative shift count fails |
| Values.ShortCircuitOnValues | flolang/interpreter.py:150-153 | for every pair of operands, a true left payload makes `or` true and a false one makes `and` false without reading the right payload; otherwise the result is the truth of the right payload, and a right operand without one fails |
| Values.FunctionOperands | flolang/interpreter.py:150-153 | with a function `f`, `1 or f` and `0 and f` succeed, while `0 or f`, `1 and f` and `f or 1` fail |
| Values.InvertTwice | flolang/interpreter.py:197-198 | `~x` is `-x - 1`, and `~~x` is `x` |
| Environment.Push | flolang/interpreter.py:55-59 | a new environment is an empty scope in front of its parent chain |
| Environment.Resolve | flolang/interpreter.py:84-89 | the nearest scope binding the name, or none exactly when no scope binds it |
| Environment.Declare | flolang/interpreter.py:61-67 | a declaration fails exactly when the innermost scope binds the name, and only that scope changes |
| Environment.Lookup | flolang/interpreter.py:78-82 | a lookup succeeds exactly when some scope binds the name, with a value bound there |
| Environment.Assign | flolang/interpreter.py:69-76 | an assignment fails when the name is unbound or constant where it resolves, and keeps the chain's depth |
| Environment.DeclareThenLookup | flolang/interpreter.py:61-82 | a declared name reads back as its value, and is constant as declared |
| Environment.DeclareKeepsOthers | flolang/interpreter.py:61-89 | a declaration changes no other name's lookup or resolution |
| Environment.ResolveSameKeys | flolang/interpreter.py:84-89 | chains whose scopes bind the same names resolve every name alike |
| Environment.Shadowing | flolang/interpreter.py:61-82 | an inner declaration shadows an outer binding and leaves it intact beneath |
| Environment.DeclareTwice | flolang/interpreter.py:61-67 | a second declaration of a name in one scope fails |
| Environment.AssignThenLookup | flolang/interpreter.py:69-82 | an assigned name reads back as the assigned value |
| Environment.AssignOnlyNearest | flolang/interpreter.py:69-76 | an assignment changes only the one binding in the resolving scope |
| Environment.ConstantRejectsAssign | flolang/interpreter.py:61-76 | assigning to a name declared constant fails |
| Environment.PushKeepsLookups | flolang/interpreter.py:55-59 | a fresh inner scope changes no lookup |
| Environment.FrameReflexive | flolang/interpreter.py:55-89 | leaving the chain alone is a frame |
| Environment.FrameTransitive | flolang/interpreter.py:55-89 | a frame of a frame is a frame |
| Environment.PopKeeps | flolang/interpreter.py:371-383 | dropping the innermost scope of a frame leaves outer scopes that declared nothing |
| Environment.ExtendFrame | flolang/interpreter.py:279-326 | a grown inner scope above caller scopes that declared nothing is a frame |
| Environment.DeclareFrame | flolang/interpreter.py:61-67 | a declaration is a frame |
| Environment.AssignFrame | flolang/interpreter.py:69-76 | an assignment declares nothing |
| Environment.AssignBelowPush | flolang/interpreter.py:69-76 | assigning through a fresh inner scope assigns in the chain beneath it |
| Environment.AssignKeepsStatus | flolang/interpreter.py:69-76 | an assignment keeps every name bound and constant exactly as before |
| Environment.KeepsBound | flolang/interpreter.py:84-89 | a chain that declared nothing binds the same names |
| Environment.AssignKeepsOthers | flolang/interpreter.py:69-82 | an assignment leaves every other name's value as it was |
| Environment.LookupBelow | flolang/interpreter.py:78-89 | a name the innermost scope does not bind is looked up, and is constant or not, beneath it |
| Interpreter.BodyOf | flolang/interpreter.py:371-383 | only programs, blocks and function declarations have a statement list |
| Interpreter.Eval | flolang/interpreter.py:92-136 | a successful evaluation gives back a chain of the same depth; an exhausted budget fails |
| Interpreter.EvalVarDeclaration | flolang/interpreter.py:138-145 | a type other than the builtin `int` fails before the initializer is read, including an `int` read as an identifier |
| Interpreter.EvalBinary | flolang/interpreter.py:147-191 | both operands evaluated leave a chain of the same depth |
| Interpreter.EvalUnaryBefore | flolang/interpreter.py:193-204 | a prefix operator leaves a chain of the same depth |
| Interpreter.IncrementBefore | flolang/interpreter.py:206-215 | `++x`/`--x` stores the result, which then reads back as `x`; other operators fail |
| Interpreter.IncrementAfter | flolang/interpreter.py:217-227 | `x++`/`x--` returns the value `x` had before; other operators fail |
| Interpreter.EvalAssignment | flolang/interpreter.py:229-254 | only an identifier can be assigned to |
| Interpreter.EvalCall | flolang/interpreter.py:279-326 | a call leaves the caller's chain of the same depth |
| Interpreter.CallFunction | flolang/interpreter.py:296-326 | the callee's scope is dropped again: the chain keeps its depth |
| Interpreter.BindArguments | flolang/interpreter.py:297-316 | an argument without a parameter fails with too few parameters; a parameter whose type is not the builtin `int` fails with its type's name |
| Interpreter.RunBody | flolang/interpreter.py:318-324 | a function body keeps the chain's depth |
| Interpreter.ReturnValue | flolang/interpreter.py:385-388 | a `return` without a value gives none and changes nothing |
| Interpreter.RunBlock | flolang/interpreter.py:371-383 | a block drops its scope, and its exit code says how it ended |
| Interpreter.BlockStatements | flolang/interpreter.py:371-383 | the block's statement loop keeps the depth and gives a well-formed exit |
| Interpreter.EvalIf | flolang/interpreter.py:328-338 | an `if` keeps the chain's depth |
| Interpreter.WhileLoop | flolang/interpreter.py:340-349 | a `while` keeps the chain's depth |
| Interpreter.EvalFor | flolang/interpreter.py:351-369 | a `for` drops the scope of its loop variable again |
| Interpreter.ForLoop | flolang/interpreter.py:358-369 | past the upper bound the loop ends with none and changes nothing |
| Interpreter.RunProgram | flolang/interpreter.py:257-274 | a program keeps the chain's depth |
| Interpreter.FirstPass | flolang/interpreter.py:257-270 | the first pass keeps the chain's depth |
| Interpreter.RunSequence | flolang/interpreter.py:270-274 | an empty remainder gives the last value and changes nothing |
| InterpreterFrame.EvalFrame | flolang/interpreter.py:92-136 | an evaluation only declares in the innermost scope and rebinds non-constants; it never removes or unbinds |
| InterpreterFrame.OperatorFrame | flolang/interpreter.py:147-326 | operators, assignments, calls and `return` keep the frame |
| InterpreterFrame.FlowFrame | flolang/interpreter.py:257-383 | programs, blocks, `if`, `while` and `for` keep the frame |
| InterpreterFrame.VarDeclarationFrame | flolang/interpreter.py:138-145 | a variable or function declaration is a frame |
| InterpreterFrame.BinaryFrame | flolang/interpreter.py:147-191 | a binary expression keeps the frame |
| InterpreterFrame.UnaryBeforeFrame | flolang/interpreter.py:193-204 | a prefix operator keeps the frame |
| InterpreterFrame.IncrementFrame | flolang/interpreter.py:206-227 | `++` and `--` only reassign: they declare nothing |
| InterpreterFrame.AssignmentFrame | flolang/interpreter.py:229-254 | an assignment keeps the frame |
| InterpreterFrame.CallFrame | flolang/interpreter.py:279-326 | a call expression keeps the frame |
| InterpreterFrame.CallFunctionFrame | flolang/interpreter.py:296-326 | a call leaves the caller's chain as a frame: the callee's scope is dropped |
| InterpreterFrame.BindArgumentsFrame | flolang/interpreter.py:297-316 | binding grows only the callee's scope and keeps the caller's chain a frame |
| InterpreterFrame.RunBodyFrame | flolang/interpreter.py:318-324 | a function body keeps the frame |
| InterpreterFrame.ReturnValueFrame | flolang/interpreter.py:385-388 | a `return` keeps the frame |
| InterpreterFrame.RunBlockKeeps | flolang/interpreter.py:371-383 | a block declares nothing outside itself |
| InterpreterFrame.BlockStatementsFrame | flolang/interpreter.py:371-383 | the statements of a block keep the frame of its scope chain |
| InterpreterFrame.IfFrame | flolang/interpreter.py:328-338 | an `if` keeps the frame |
| InterpreterFrame.IfOutcome | flolang/interpreter.py:328-338 | a successful `if` leaves the environment of its condition, its positive block or its negative case |
| InterpreterFrame.IfBranchesFrame | flolang/interpreter.py:328-338 | whichever branch runs keeps the frame left by the condition |
| InterpreterFrame.WhileFrame | flolang/interpreter.py:340-349 | a `while` keeps the frame |
| InterpreterFrame.IterationFrame | flolang/interpreter.py:340-349 | an iteration and the iterations after it keep the frame |
| InterpreterFrame.ForFrame | flolang/interpreter.py:351-369 | a `for` keeps the frame of the chain it started from |
| InterpreterFrame.ForOutcome | flolang/interpreter.py:351-369 | a successful `for` read both bounds as integers and leaves the environment its iterations left, minus the loop scope |
| InterpreterFrame.ForLoopFrame | flolang/interpreter.py:358-369 | the iterations of a `for` keep the frame |
| InterpreterFrame.ForStepFrame | flolang/interpreter.py:358-369 | one iteration reassigns the loop variable and runs the body inside the frame |
| InterpreterFrame.RunProgramFrame | flolang/interpreter.py:257-274 | a program keeps the frame |
| InterpreterFrame.FirstPassFrame | flolang/interpreter.py:257-270 | the first pass keeps the frame |
| InterpreterFrame.RunSequenceFrame | flolang/interpreter.py:270-274 | a sequence of statements keeps the frame |
| InterpreterProperties.VarDefaultsToZero | flolang/interpreter.py:138-145 | `var int x` without an initializer binds 0 |
| InterpreterProperties.VarNeedsInt | flolang/interpreter.py:138-145 | only variables of the builtin `int` type can be declared; other types fail with that type's name |
| InterpreterProperties.VarRejectsIdentifierInt | flolang/interpreter.py:138-139 | `var int x` whose `int` is an identifier token fails, since `is lexer.INT` holds only for the builtin token |
| InterpreterProperties.VarRedeclared | flolang/interpreter.py:61-67 | declaring a name the innermost scope binds fails |
| InterpreterProperties.FunctionIsConstant | flolang/interpreter.py:276-277 | a function declaration binds a constant, so assigning to its name fails |
| InterpreterProperties.PrefixStepStores | flolang/interpreter.py:206-215 | `++x`/`--x` store the stepped number and evaluate to it |
| InterpreterProperties.PostfixStepStores | flolang/interpreter.py:217-227 | `x++`/`x--` store the stepped number and evaluate to the original |
| InterpreterProperties.IncrementAfterStores | flolang/interpreter.py:217-227 | on a non-constant number `n`, `x++`/`x--` stores `n ± 1` and returns `n` |
| InterpreterProperties.StepRejectsConstant | flolang/interpreter.py:69-76 | incrementing a constant fails |
| InterpreterProperties.CompoundStores | flolang/interpreter.py:229-254 | `x op= e` stores and returns `x op e` |
| InterpreterProperties.AssignStores | flolang/interpreter.py:229-254 | `x = e` stores and returns the value of `e` |
| InterpreterProperties.AssignNeedsIdentifier | flolang/interpreter.py:230-231 | only an identifier can be assigned to; the right side is not evaluated |
| InterpreterProperties.NoShortCircuit | flolang/interpreter.py:148-149 | both operands are evaluated, left first, whatever the operator |
| InterpreterProperties.OrSkipsRightPayload | flolang/interpreter.py:148-151 | with `f` bound to a function, `1 or f` evaluates to true and `0 or f` fails on the missing `.value` |
| InterpreterProperties.OrEvaluatesRight | flolang/interpreter.py:148-151 | `1 or y` with `y` unbound fails although the left side is true |
| InterpreterProperties.BlockDoesNotLeak | flolang/interpreter.py:371-383 | a block's declarations are gone after it |
| InterpreterProperties.OneIsTrue | flolang/interpreter.py:328-338 | the literal `1` is a true condition |
| InterpreterProperties.IfBlockShadows | flolang/interpreter.py:328-383 | a declaration in an `if` branch shadows an outer name only inside the branch |
| InterpreterProperties.BlockStopsAtReturn | flolang/interpreter.py:371-388 | a block stops at its first `return` and hands out the value |
| InterpreterProperties.BlockStopsAtBreak | flolang/interpreter.py:371-391 | a block stops at its first `break` |
| InterpreterProperties.BreakInIfIsLost | flolang/interpreter.py:328-338 | `if 1 { break }` ends only its branch block |
| InterpreterProperties.BreakInIfNeverEndsWhile | flolang/interpreter.py:340-349 | hence `while 1 { if 1 { break } }` never ends, whatever the budget |
| InterpreterProperties.WhileReturns | flolang/interpreter.py:340-349 | a `return` in a loop body ends the loop with the returned value |
| InterpreterProperties.WhileFalse | flolang/interpreter.py:340-349 | a false condition ends the loop with none |
| InterpreterProperties.ForZeroIterations | flolang/interpreter.py:351-369 | `for v in lo..hi` with `hi <= lo` runs no iteration and changes nothing |
| InterpreterProperties.WhileUnrolls | flolang/interpreter.py:340-349 | an iteration whose body runs off its end continues with the next one |
| InterpreterProperties.ForUnrolls | flolang/interpreter.py:358-369 | a `for` iteration whose body runs off its end continues with the next index |
| InterpreterProperties.PostfixBelowPush | flolang/interpreter.py:217-227 | `c++` under a fresh inner scope steps the `c` beneath it |
| InterpreterProperties.IncrementInBlock | flolang/interpreter.py:371-383 | `{ c++ }` steps `c` and changes nothing else |
| InterpreterProperties.LessThan | flolang/interpreter.py:170-171 | `c < n` between numbers is their comparison |
| InterpreterProperties.WhileCountStep | flolang/interpreter.py:340-349 | one iteration of `while c < n { c++ }` steps `c` by one |
| InterpreterProperties.WhileCounts | flolang/interpreter.py:340-349 | `while c < n { c++ }` from `c == k <= n` ends with `c == n` |
| InterpreterProperties.ForCountStep | flolang/interpreter.py:358-369 | one iteration of `for v in i..max { c++ }` steps `c` by one |
| InterpreterProperties.ForLoopCounts | flolang/interpreter.py:358-369 | the iterations of `for v in i..max { c++ }` add `max - i` to `c` |
| InterpreterProperties.ForEntry | flolang/interpreter.py:351-357 | a `for` runs in its own scope binding only the loop variable |
| InterpreterProperties.ForCounts | flolang/interpreter.py:351-369 | `for v in lo..hi { c++ }` with `lo <= hi` adds `hi - lo` to an outer `c` |
| InterpreterProperties.ForCountsBelow | flolang/interpreter.py:351-369 | in its own scope, the loop leaves `c` beneath that scope at `k + hi - lo` |
| InterpreterProperties.BindNeedsParameters | flolang/interpreter.py:297-316 | binding succeeds only with no more arguments than parameters, every parameter of the builtin `int` type, and a default for each missing one |
| InterpreterProperties.CallNeedsParameters | flolang/interpreter.py:297-316 | a call with too many arguments, or without a value for a parameter, fails |
| InterpreterProperties.NoReturnIsNone | flolang/interpreter.py:318-326 | a body that reaches no top-level `return` evaluates to none |
| InterpreterProperties.CallReturnsFirst | flolang/interpreter.py:318-324 | `fn f() { return k; ... }` evaluates to `k`, and the rest never runs |
| InterpreterProperties.BreakInFunctionFails | flolang/interpreter.py:318-324 | a `break` at the top of a function body fails |
| InterpreterProperties.ReturnInIfIsLost | flolang/interpreter.py:318-338 | `fn f() { if 1 { return k } }` evaluates to none |
| InterpreterProperties.CalleeMustBeFunction | flolang/interpreter.py:279-292 | a call to an unbound name fails with `Undefined` and one to a bound non-function with `NotCallable`, before any argument is evaluated |
| InterpreterProperties.CalleeSeesCaller | flolang/interpreter.py:296 | the callee's scope sits on the caller's chain: dynamic scoping |
| InterpreterProperties.BindOne | flolang/interpreter.py:297-316 | one `int` parameter is bound to its argument in the callee's scope |
| InterpreterProperties.BindDefault | flolang/interpreter.py:304-312 | a missing argument takes its default, evaluated in the caller's chain |
| InterpreterProperties.ArgumentIsBound | flolang/interpreter.py:279-326 | `fn f(int x) { return x }` called with `k` evaluates to `k` |
| InterpreterProperties.DefaultReadsCaller | flolang/interpreter.py:279-326 | `fn f(int x = g) { return x }` called without an argument evaluates to the caller's `g` |
| ProgramProperties.NonCalls | flolang/interpreter.py:259-266 | the statements run by the first pass are no calls and no more than the program holds; with `PassesPartition`, they are exactly its non-call statements |
| ProgramProperties.Calls | flolang/interpreter.py:259-266 | the deferred statements are all calls and no more than the program holds; with `PassesPartition`, they are exactly its calls |
| ProgramProperties.PassesPartition | flolang/interpreter.py:259-274 | every statement of a program runs in exactly one of the two passes |
| ProgramProperties.SequenceShift | flolang/interpreter.py:267-274 | running statements from index `i` is running the suffix from the start |
| ProgramProperties.SequenceCons | flolang/interpreter.py:267-274 | the first statement runs, then the rest in the environment it left |
| ProgramProperties.SequenceAppend | flolang/interpreter.py:267-274 | running `a + b` is running `a`, then `b` in what `a` left |
| ProgramProperties.FirstPassRuns | flolang/interpreter.py:259-266 | the first pass runs the non-call statements in order and defers the calls |
| ProgramProperties.CallsRunLast | flolang/interpreter.py:257-274 | a program runs like its non-call statements followed by its calls |
| ProgramProperties.CallBeforeDeclaration | flolang/interpreter.py:257-277 | `f(); fn f() { return k }` evaluates to `k`: a call may precede the declaration |
| ArgumentParsing.ClusterToggles | flolang/argument_parser.py:25-29 | the characters of a cluster that name toggles become switches, and nothing else does |
| ArgumentParsing.Positional | flolang/argument_parser.py:30-32 | the positional arguments are argument-vector entries without a dash |
| ArgumentParsing.Parse | flolang/argument_parser.py:8-34 | every switch is a toggle, every bound key a key, and every argument a dashless entry of the input |
| ArgumentParsing.New | flolang/argument_parser.py:2-6 | with no argument beyond the program name everything is empty |
| ArgumentParsing.ProgramNameIgnored | flolang/argument_parser.py:2-3 | the outcome does not depend on the program name |
| ArgumentParsing.ToggleConsumesOne | flolang/argument_parser.py:15-19 | `--t` for a toggle `t` makes `t` a switch and consumes one entry |
| ArgumentParsing.KeyConsumesTwo | flolang/argument_parser.py:20-22 | `--k v` for a key binds `k` to `v`, unless a later binding replaces it, and consumes two entries |
| ArgumentParsing.KeyWithoutValue | flolang/argument_parser.py:20-22 | a key as the last entry has no value and fails |
| ArgumentParsing.UnknownLongSwitch | flolang/argument_parser.py:23-24 | `--x` naming neither a toggle nor a key fails with that argument |
| ArgumentParsing.ClusterConsumesOne | flolang/argument_parser.py:25-29 | `-abc` adds the toggles among its characters, in order, and consumes one entry |
| ArgumentParsing.PositionalInOrder | flolang/argument_parser.py:8-34 | without keys the positional arguments are exactly the dashless entries, in order |
| ArgumentParsing.Switch | flolang/argument_parser.py:36-40 | `switch(s)` holds exactly when `s` or its first character was parsed as a switch |
| ArgumentParsing.Key | flolang/argument_parser.py:45-48 | `key(k)` is the bound value, or none exactly when `k` was not given |
| ArgumentParsing.ToggleIsSwitched | flolang/argument_parser.py:2-40 | after `prog --t` with a toggle `t`, `switch(t)` holds |
| ArgumentParsing.KeyIsFound | flolang/argument_parser.py:2-48 | after `prog --k v` with a key `k`, `key(k)` is `v` |
| Console.Chars | flolang/console.py:17 | `list(s)` has every character as a string of its own, in order |
| Console.SplitSwitches | flolang/console.py:11-21 | the remaining arguments are a suffix starting with no dash, and everything before it started with a dash |
| Console.ParseArguments | flolang/console.py:5-21 | with no argument beyond the program name, both results are empty |
| Console.ProgramNameDropped | flolang/console.py:9 | the outcome does not depend on the program name |
| Console.LongSwitchVerbatim | flolang/console.py:13-15 | a `--name` argument is kept whole, dashes included |
| Console.ShortSwitchesSplit | flolang/console.py:16-18 | `-abc` contributes `a`, `b` and `c` as separate switches |
| Console.StopsAtFirstArgument | flolang/console.py:19-21 | scanning stops at the first argument without a dash, which and all after it are returned |
| MainCompiler.FileEnding | flolang/main_compiler.py:27-30 | the result ends with the extension, which is added only when missing |
| MainCompiler.FileEndingIdempotent | flolang/main_compiler.py:27-30 | adding the extension a second time changes nothing |
| MainCompiler.Switch | flolang/main_compiler.py:16-17 | holds exactly when `--name` or the first character of the name is among the switches |

## Left out

- Floating point: `/`, `/=`, float literals and `**` with a negative exponent give `FloatNotModelled` instead of a Python float.
- String operators: `+`, `*` and `%` on strings give `Unmodelled`; comparisons and `==` between strings are modelled.
- `or` and `and` yield the truth of the Python expression as a boolean, reading the right payload only when the left one does not decide. Python's `or`/`and` would return one operand's payload, which `BooleanValue` then wraps.
- Bitwise operators on booleans are modelled through their integer values (`True` is 1). The Python `bool` result of `True & True` is not distinguished.
- Native functions (`native.py`) are not part of this model and are not in the environment: calling one fails with `Undefined` when its name is looked up, before any argument is evaluated. Python evaluates the arguments and hands them to the callback. Any other callee value that is not a function fails with `NotCallable`, also before its arguments are evaluated.
- Object literals, arrays and member access evaluate to `CannotInterpret` in the interpreter, as in `interpret`'s final branch. The parser models them fully.
- The interpreter runs on a fuel budget that every evaluation step and every loop iteration consumes. A program that runs out fails with `OutOfFuel`; programs that do not terminate cannot be told apart from ones needing more fuel.
- Interpreter.IncrementBefore: an operator other than `++`/`--` falls off the end of the Python function, which returns `None`. The model reports `InvalidOperator` instead; the parser never builds such a node.
- Interpreter.Eval: its own contract states only the depth of the chain and the out-of-fuel case. What evaluation does to the scopes is stated by the `InterpreterFrame` lemmas, and its results by the `InterpreterProperties` and `ProgramProperties` lemmas.
- Parser: the failure reasons are an enumeration, not the exact text of each message. The `unimplemented` and `warning` paths, which print and go on, are not modelled.
- Ast.FloatText: only the decimal forms are accepted. The whitespace, leading signs, underscores and `inf`/`nan` spellings that `float()` also reads are not modelled; the lexer never emits them.
- Ast.NumericValue: only numerals the lexer emits as NUMBER are converted. The surrounding whitespace, signs and underscores that `int()` also reads are not modelled.
- Parser.ValueText: a token without a value reads as the empty text. The parser only asks for the text of tokens the lexer gives a value.
- The `last == None` development check of `interpret_program` is not modelled, because it only guards against an internal slip.
- Printing and I/O: `warning` printing, `print_exception`, `set_pretty_print`, `compile`, `auto_filename`, `declare_arguments` and the file handling of the drivers.
- `isalnum` is restricted to ASCII letters and digits.
- Diagnostics: `error` is modelled as a failure value carrying the comment and symbols; the message is `ErrorText`.

=== FILE: argument_parser.dfy ===
/** `ArgumentParser` of flolang/argument_parser.py: toggles (`--name` or a
    cluster `-abc`), key/value pairs (`--key value`) and positional arguments. */
module ArgumentParsing {
  import opened Wrappers
  import opened Strings

  /** The parsed state; its fields are what `switches()`, `keyvalues()` and
      `args()` return. */
  datatype ArgumentParser = ArgumentParser(switches: seq<string>, keyvalues: map<string, string>, arguments: seq<string>)

  /** The two ways `parse` raises: `ValueError` for an unknown `--name` and
      `IndexError` for a key with no value after it. */
  datatype ArgumentFault = UnknownSwitch(arg: string) | MissingValue(key: string)

  /** The toggles named by the characters of a `-abc` cluster, in order;
      characters that are not toggles are skipped. */
  function ClusterToggles(cs: string, toggles: seq<string>): (r: seq<string>)
    ensures forall s :: s in r ==> s in toggles && |s| == 1 && s[0] in cs
    ensures forall i :: 0 <= i < |cs| && [cs[i]] in toggles ==> [cs[i]] in r
  {
    if |cs| == 0 then []
    else
      var rest := ClusterToggles(cs[1..], toggles);
      assert forall i :: 1 <= i < |cs| ==> cs[i] == cs[1..][i - 1];
      (if [cs[0]] in toggles then [[cs[0]]] else []) + rest
  }

  /** The arguments that do not start with a dash, in their original order. */
  function Positional(argv: seq<string>): (r: seq<string>)
    ensures forall a :: a in r ==> a in argv && !StartsWith(a, "-")
  {
    if |argv| == 0 then []
    else (if StartsWith(argv[0], "-") then [] else [argv[0]]) + Positional(argv[1..])
  }

  /** The loop of `parse` over `argv[1:]`. */
  function Parse(argv: seq<string>, toggles: seq<string>, keys: seq<string>): (r: Result<ArgumentParser, ArgumentFault>)
    ensures r.Success? ==> forall s :: s in r.value.switches ==> s in toggles
    ensures r.Success? ==> forall k :: k in r.value.keyvalues ==> k in keys
    ensures r.Success? ==> forall a :: a in r.value.arguments ==> a in argv && !StartsWith(a, "-")
  {
    if |argv| == 0 then Success(ArgumentParser([], map[], []))
    else
      var arg := argv[0];
      if StartsWith(arg, "--") then
        var stripped := arg[2..];
        if stripped in toggles then
          var rest :- Parse(argv[1..], toggles, keys);
          Success(rest.(switches := [stripped] + rest.switches))
        else if stripped in keys then
          if |argv| < 2 then Failure(MissingValue(stripped))
          else
            var rest :- Parse(argv[2..], toggles, keys);
            assert forall a :: a in argv[2..] ==> a in argv;
            Success(rest.(keyvalues := map[stripped := argv[1]] + rest.keyvalues))
        else Failure(UnknownSwitch(arg))
      else if StartsWith(arg, "-") then
        var rest :- Parse(argv[1..], toggles, keys);
        Success(rest.(switches := ClusterToggles(arg[1..], toggles) + rest.switches))
      else
        var rest :- Parse(argv[1..], toggles, keys);
        Success(rest.(arguments := [arg] + rest.arguments))
  }

  /** `ArgumentParser(argv, toggles, keys)`: `argv[0]` is ignored. */
  function New(argv: seq<string>, toggles: seq<string>, keys: seq<string>): (r: Result<ArgumentParser, ArgumentFault>)
    ensures |argv| <= 1 ==> r == Success(ArgumentParser([], map[], []))
  {
    Parse(if |argv| == 0 then [] else argv[1..], toggles, keys)
  }

  lemma ProgramNameIgnored(p: string, q: string, rest: seq<string>, toggles: seq<string>, keys: seq<string>)
    ensures New([p] + rest, toggles, keys) == New([q] + rest, toggles, keys)
  {
    assert ([p] + rest)[1..] == rest == ([q] + rest)[1..];
  }

  /** `--t` for a toggle `t` puts `t` first among the switches and consumes one
      argument. */
  lemma ToggleConsumesOne(t: string, rest: seq<string>, toggles: seq<string>, keys: seq<string>)
    requires t in toggles
    ensures Parse(["--" + t] + rest, toggles, keys)
         == (var p :- Parse(rest, toggles, keys); Success(p.(switches := [t] + p.switches)))
  {
    var a := ["--" + t] + rest;
    assert a[0][..2] == "--" && a[0][2..] == t;
    assert a[1..] == rest;
  }

  /** `--k v` for a key `k` (not also a toggle) binds `k` to `v` unless a later
      pair binds it again, and consumes two arguments. */
  lemma KeyConsumesTwo(k: string, v: string, rest: seq<string>, toggles: seq<string>, keys: seq<string>)
    requires k !in toggles && k in keys
    ensures Parse(["--" + k, v] + rest, toggles, keys)
         == (var p :- Parse(rest, toggles, keys); Success(p.(keyvalues := map[k := v] + p.keyvalues)))
  {
    var a := ["--" + k, v] + rest;
    assert a[0][..2] == "--" && a[0][2..] == k;
    assert a[2..] == rest;
  }

  /** A key as the last argument has no value: `IndexError`. */
  lemma KeyWithoutValue(k: string, toggles: seq<string>, keys: seq<string>)
    requires k !in toggles && k in keys
    ensures Parse(["--" + k], toggles, keys) == Failure(MissingValue(k))
  {
    var a := ["--" + k];
    assert a[0][..2] == "--" && a[0][2..] == k;
  }

  /** `--x` naming neither a toggle nor a key: `ValueError`. */
  lemma UnknownLongSwitch(x: string, rest: seq<string>, toggles: seq<string>, keys: seq<string>)
    requires x !in toggles && x !in keys
    ensures Parse(["--" + x] + rest, toggles, keys) == Failure(UnknownSwitch("--" + x))
  {
    var a := ["--" + x] + rest;
    assert a[0][..2] == "--" && a[0][2..] == x;
  }

  /** `-abc` adds the toggles among `a`, `b`, `c` and consumes one argument. */
  lemma ClusterConsumesOne(cs: string, rest: seq<string>, toggles: seq<string>, keys: seq<string>)
    requires !StartsWith(cs, "-")
    ensures Parse(["-" + cs] + rest, toggles, keys)
         == (var p :- Parse(rest, toggles, keys); Success(p.(switches := ClusterToggles(cs, toggles) + p.switches)))
  {
    var a := ["-" + cs] + rest;
    assert a[0][..1] == "-" && a[0][1..] == cs;
    if |cs| > 0 {
      assert a[0][..2] == "-" + [cs[0]];
    }
    assert a[1..] == rest;
  }

  /** Without keys nothing is consumed as a value, so the positional arguments
      are exactly the dash-free arguments in their original order, wherever
      they occur. */
  lemma {:induction false} PositionalInOrder(argv: seq<string>, toggles: seq<string>)
    requires Parse(argv, toggles, []).Success?
    ensures Parse(argv, toggles, []).value.arguments == Positional(argv)
  {
    if |argv| > 0 {
      var rest := Parse(argv[1..], toggles, []);
      assert rest.Success? by {
        assert !(StartsWith(argv[0], "--") && argv[0][2..] !in toggles);
      }
      PositionalInOrder(argv[1..], toggles);
      if StartsWith(argv[0], "-") {
        assert Positional(argv) == Positional(argv[1..]);
      } else {
        assert Positional(argv) == [argv[0]] + rest.value.arguments;
      }
    }
  }

  /** `switch(s)`: `s` itself or its first character was parsed as a switch.
      `None` stands for the `IndexError` of `switch[0]` on an empty name. */
  function Switch(p: ArgumentParser, name: string): (r: Option<bool>)
    ensures r.None? <==> name !in p.switches && |name| == 0
    ensures r.Some? ==> (r.value <==> name in p.switches || (|name| > 0 && [name[0]] in p.switches))
  {
    if name in p.switches then Some(true)
    else if |name| == 0 then None
    else Some([name[0]] in p.switches)
  }

  /** `key(k)`: the bound value, or `None` when `k` was not given. */
  function Key(p: ArgumentParser, k: string): (r: Option<string>)
    ensures r.Some? <==> k in p.keyvalues
    ensures r.Some? ==> r.value == p.keyvalues[k]
  {
    if k in p.keyvalues then Some(p.keyvalues[k]) else None
  }

  /** After `prog --t` with `t` a toggle, `switch(t)` holds. */
  lemma ToggleIsSwitched(prog: string, t: string, toggles: seq<string>, keys: seq<string>)
    requires t in toggles
    ensures New([prog, "--" + t], toggles, keys).Success?
    ensures Switch(New([prog, "--" + t], toggles, keys).value, t) == Some(true)
  {
    assert [prog, "--" + t][1..] == ["--" + t] + [];
    ToggleConsumesOne(t, [], toggles, keys);
  }

  /** After `prog --k v` with `k` a key, `key(k)` is `v`. */
  lemma KeyIsFound(prog: string, k: string, v: string, toggles: seq<string>, keys: seq<string>)
    requires k !in toggles && k in keys
    ensures New([prog, "--" + k, v], toggles, keys).Success?
    ensures Key(New([prog, "--" + k, v], toggles, keys).value, k) == Some(v)
  {
    assert [prog, "--" + k, v][1..] == ["--" + k, v] + [];
    KeyConsumesTwo(k, v, [], toggles, keys);
  }
}

=== FILE: ast.dfy ===
/** The syntax tree of flolang/abstract_source_tree.py, plus the control-flow
    nodes flolang/interpreter.py reads but no parser builds (`IfExpression`,
    `WhileExpression`, `ForExpression`, `BlockExpression`, `BreakExpression`,
    `UnreachableExpression`). */
module Ast {
  import opened Wrappers
  import opened Strings
  import opened Tokens

  /** `Type(type, is_builtin)`: a declared type name and whether it was a
      builtin type word. */
  datatype Type = Type(name: string, builtin: bool)

  /** `type.type is lexer.INT`, an identity test: only the value of a
      BUILTINTYPE token is the `lexer.INT` object itself. An `int` the lexer
      read as an IDENTIFIER (one that ends its line) is a fresh string, so its
      `Type("int", False)` fails the test. */
  predicate IsInt(t: Type) {
    t.builtin && t.name == "int"
  }

  /** A function parameter; `identifier` is the IDENTIFIER token itself, as the
      parser stores it. */
  datatype Parameter = Parameter(paramType: Type, identifier: Token, default: Option<Node>)

  /** `ObjectProperty(key, value)`; a shorthand property has no value. */
  datatype Property = Property(key: string, value: Option<Node>)

  datatype Node =
    | Program(body: seq<Node>)
    | VarDeclaration(constant: bool, varType: Type, identifier: string, initializer: Option<Node>)
    | FunctionDeclaration(parameters: seq<Parameter>, result: Option<Type>, identifier: string, body: seq<Node>)
    | Return(returned: Option<Node>)
    | Assignment(assignee: Node, value: Node, operator: string)
    | Binary(left: Node, right: Node, operator: string)
    | UnaryBefore(expr: Node, operator: string)
    | UnaryIdentifierBefore(identifier: string, operator: string)
    | UnaryIdentifierAfter(identifier: string, operator: string)
    | Call(caller: Node, arguments: seq<Node>)
    | Member(object: Node, property: Node, computed: bool)
    | Identifier(symbol: string)
    | NumericLiteral(number: int, raw: string)
    | FloatLiteral(raw: string)
    | StringLiteral(text: string)
    | ObjectLiteral(properties: seq<Property>)
    // read by the interpreter only
    | If(condition: Node, positiveCase: Node, negativeCase: Option<Node>)
    | While(condition: Node, loopBody: Node)
    | For(loopVariable: string, quantityMin: Node, quantityMax: Node, loopBody: Node)
    | BlockExpression(body: seq<Node>)
    | Break
    | Unreachable

  /** The value `NumericLiteral(value_raw)` computes: `int(value_raw, base=16)`
      when the text starts with `0x`, otherwise `int(value_raw)`; `None` where
      Python raises `ValueError`. Only plain digit strings are accepted. */
  function NumericValue(raw: string): (r: Option<int>)
    ensures r.Some? ==> r.value >= 0
    ensures StartsWith(raw, "0x") ==> (r.Some? <==> |raw| > 2 && AllDigits(raw[2..], 16))
    ensures !StartsWith(raw, "0x") ==> (r.Some? <==> |raw| > 0 && AllDigits(raw, 10))
  {
    if StartsWith(raw, "0x") then
      if |raw| > 2 && AllDigits(raw[2..], 16) then Some(DigitsValue(raw[2..], 16)) else None
    else if |raw| > 0 && AllDigits(raw, 10) then Some(DigitsValue(raw, 10))
    else None
  }

  /** The index of the first exponent mark `E` or `e` in `s`, or `|s|`. */
  function ExponentMark(s: string): (i: nat)
    ensures i <= |s|
    ensures forall j :: 0 <= j < i ==> s[j] != 'E' && s[j] != 'e'
    ensures i < |s| ==> s[i] == 'E' || s[i] == 'e'
  {
    if |s| == 0 || s[0] == 'E' || s[0] == 'e' then 0 else 1 + ExponentMark(s[1..])
  }

  /** The number of decimal points in `s`. */
  function Points(s: string): (n: nat)
    ensures n <= |s|
    ensures n == 0 <==> forall j :: 0 <= j < |s| ==> s[j] != '.'
  {
    if |s| == 0 then 0 else (if s[0] == '.' then 1 else 0) + Points(s[1..])
  }

  /** Digits with at most one decimal point, and at least one digit. */
  predicate Mantissa(m: string) {
    (forall i :: 0 <= i < |m| ==> IsDigit(m[i]) || m[i] == '.')
    && Points(m) <= 1
    && exists i :: 0 <= i < |m| && IsDigit(m[i])
  }

  /** An optional sign, then at least one digit. */
  predicate ExponentDigits(x: string) {
    var d := if |x| > 0 && (x[0] == '+' || x[0] == '-') then x[1..] else x;
    |d| > 0 && AllDigits(d, 10)
  }

  /** `FloatLiteral(value_raw)` calls `float(value_raw)`, which raises
      `ValueError` unless the text is a decimal mantissa, optionally followed
      by an exponent mark and its digits. */
  predicate FloatText(raw: string) {
    var e := ExponentMark(raw);
    Mantissa(raw[..e]) && (e == |raw| || ExponentDigits(raw[e + 1..]))
  }

  /** Decimal points add up over a concatenation. */
  lemma {:induction false} PointsAppend(a: string, b: string)
    ensures Points(a + b) == Points(a) + Points(b)
  {
    if |a| > 0 {
      assert (a + b)[0] == a[0] && (a + b)[1..] == a[1..] + b;
      PointsAppend(a[1..], b);
    } else {
      assert a + b == b;
    }
  }

  /** Digits, a point and digits are a float numeral exactly when there is at
      least one digit: `1.5`, `1.` and `.5` convert, a lone `.` does not. */
  lemma PointNumeral(a: string, b: string)
    requires AllDigits(a, 10) && AllDigits(b, 10)
    ensures FloatText(a + "." + b) <==> |a| + |b| > 0
  {
    var s := a + "." + b;
    assert forall j :: 0 <= j < |s| ==> s[j] != 'E' && s[j] != 'e' by {
      forall j | 0 <= j < |s| ensures s[j] != 'E' && s[j] != 'e' {
        if j < |a| { assert s[j] == a[j]; } else if j > |a| { assert s[j] == b[j - |a| - 1]; }
      }
    }
    assert ExponentMark(s) == |s|;
    assert s[..|s|] == s;
    PointsAppend(a, ".");
    PointsAppend(a + ".", b);
    assert Points(".") == 1;
    if |a| > 0 {
      assert IsDigit(s[0]);
    } else if |b| > 0 {
      assert IsDigit(s[|a| + 1]);
    } else {
      assert s == ".";
    }
  }

  /** Numerals `float()` converts: a point with a digit on either side, or
      digits with an exponent. */
  lemma AcceptedFloats()
    ensures FloatText("1.5") && FloatText("1E5") && FloatText(".5")
  {
    assert FloatText("1.5") by {
      assert ExponentMark("1.5") == 3 && "1.5"[..3] == "1.5" && Points("1.5") == 1 && IsDigit("1.5"[0]);
    }
    assert FloatText("1E5") by {
      assert ExponentMark("1E5") == 1 && "1E5"[..1] == "1" && "1E5"[2..] == "5" && IsDigit("1"[0]);
    }
    assert FloatText(".5") by {
      assert ExponentMark(".5") == 2 && ".5"[..2] == ".5" && Points(".5") == 1 && IsDigit(".5"[1]);
    }
  }

  /** Numerals the lexer reads as FLOAT but `float()` rejects: more than one
      point, or no digit before the exponent. */
  lemma RejectedFloats()
    ensures !FloatText("1.2.3") && !FloatText("1..2") && !FloatText(".") && !FloatText(".E3")
  {
    assert !FloatText("1.2.3") by {
      assert ExponentMark("1.2.3") == 5 && "1.2.3"[..5] == "1.2.3" && Points("1.2.3") == 2;
    }
    assert !FloatText("1..2") by {
      assert ExponentMark("1..2") == 4 && "1..2"[..4] == "1..2" && Points("1..2") == 2;
    }
    assert !FloatText(".") by {
      assert ExponentMark(".") == 1 && "."[..1] == ".";
    }
    assert !FloatText(".E3") by {
      assert ExponentMark(".E3") == 1 && ".E3"[..1] == ".";
    }
  }

  /** The decimal digits of `n` read back as `n`. */
  lemma DecimalNumeral(n: nat)
    ensures NumericValue(NatToDigits(n, 10)) == Some(n)
  {
    var s := NatToDigits(n, 10);
    assert !IsHexDigit('x');
    assert !StartsWith(s, "0x") by {
      if |s| >= 2 { assert IsDigit(s[1]); }
    }
    DigitsRoundTrip(n, 10);
  }

  /** `0x` and the hex digits of `n` read back as `n`. */
  lemma HexNumeral(n: nat)
    ensures NumericValue("0x" + NatToDigits(n, 16)) == Some(n)
  {
    var s := "0x" + NatToDigits(n, 16);
    assert s[..2] == "0x";
    assert s[2..] == NatToDigits(n, 16);
    DigitsRoundTrip(n, 16);
  }
}

=== FILE: console.dfy ===
/** `parse_arguments` of flolang/console.py: the older splitter that takes the
    leading dash arguments as switches and leaves the rest as arguments. */
module Console {
  import opened Strings

  datatype ConsoleArgs = ConsoleArgs(switches: seq<string>, args: seq<string>)

  /** `list(s)`: every character as a string of its own. */
  function Chars(s: string): (r: seq<string>)
    ensures |r| == |s| && forall i :: 0 <= i < |s| ==> r[i] == [s[i]]
  {
    seq(|s|, i requires 0 <= i < |s| => [s[i]])
  }

  /** The contribution of one dash argument to the switches. */
  function DashSwitches(arg: string): seq<string>
    requires StartsWith(arg, "-")
  {
    if StartsWith(arg, "--") then [arg] else Chars(arg[1..])
  }

  /** The loop of `parse_arguments` over `argv[1:]`. */
  function SplitSwitches(a: seq<string>): (r: ConsoleArgs)
    ensures |r.args| <= |a| && r.args == a[|a| - |r.args|..]
    ensures forall i :: 0 <= i < |a| - |r.args| ==> StartsWith(a[i], "-")
    ensures |r.args| > 0 ==> !StartsWith(r.args[0], "-")
  {
    if |a| == 0 || !StartsWith(a[0], "-") then ConsoleArgs([], a)
    else
      var rest := SplitSwitches(a[1..]);
      ConsoleArgs(DashSwitches(a[0]) + rest.switches, rest.args)
  }

  /** `parse_arguments(argv)`: `argv[0]` is dropped first. */
  function ParseArguments(argv: seq<string>): (r: ConsoleArgs)
    ensures |argv| <= 1 ==> r == ConsoleArgs([], [])
  {
    SplitSwitches(if |argv| == 0 then [] else argv[1..])
  }

  /** Whatever `argv[0]` is, the outcome is the same. */
  lemma ProgramNameDropped(p: string, q: string, rest: seq<string>)
    ensures ParseArguments([p] + rest) == ParseArguments([q] + rest)
  {
    assert ([p] + rest)[1..] == rest == ([q] + rest)[1..];
  }

  /** A `--name` argument is kept whole, dashes included. */
  lemma LongSwitchVerbatim(name: string, rest: seq<string>)
    ensures SplitSwitches(["--" + name] + rest)
         == ConsoleArgs(["--" + name] + SplitSwitches(rest).switches, SplitSwitches(rest).args)
  {
    var a := ["--" + name] + rest;
    assert a[0][..2] == "--";
    assert a[1..] == rest;
  }

  /** `-abc` contributes `a`, `b` and `c` as separate switches. */
  lemma ShortSwitchesSplit(cs: string, rest: seq<string>)
    requires !StartsWith(cs, "-")
    ensures SplitSwitches(["-" + cs] + rest)
         == ConsoleArgs(Chars(cs) + SplitSwitches(rest).switches, SplitSwitches(rest).args)
  {
    var a := ["-" + cs] + rest;
    assert a[0][..1] == "-";
    assert a[0][1..] == cs;
    if |cs| > 0 {
      assert a[0][..2] == "-" + [cs[0]];
    }
    assert a[1..] == rest;
  }

  /** Scanning stops at the first argument without a dash: it and everything
      after it, dashes or not, are returned as arguments. */
  lemma StopsAtFirstArgument(arg: string, rest: seq<string>)
    requires !StartsWith(arg, "-")
    ensures SplitSwitches([arg] + rest) == ConsoleArgs([], [arg] + rest)
  {
  }
}

=== FILE: diagnostics.dfy ===
/** Positioned error messages (flolang/error.py): the symbols tuple every token
    carries, the text `error_text` renders from it, and `error`, which always
    raises. */
module Diagnostics {
  import opened Wrappers
  import opened Strings

  /** The `(filename, line_nr, line_pos, full_line)` tuple attached to tokens. */
  datatype Symbols = Symbols(filename: Option<string>, lineNr: int, linePos: int, fullLine: string)

  /** The exception `error` raises: its comment and the symbols it points at. */
  datatype Diagnostic = Diagnostic(comment: string, symbols: Symbols)

  predicate NoNewline(s: string) {
    forall i :: 0 <= i < |s| ==> s[i] != '\n'
  }

  /** The caret line: `line_pos` spaces and one `^`. */
  function Indicator(linePos: int): (r: string)
    ensures |r| == (if linePos < 0 then 0 else linePos) + 1
    ensures r[|r| - 1] == '^'
    ensures forall i :: 0 <= i < |r| - 1 ==> r[i] == ' '
  {
    Repeat(' ', linePos) + "^"
  }

  /** How the file name appears in the header: `None`, or the name in double quotes. */
  function FileLabel(file: Option<string>): (r: string)
    ensures file.None? ==> r == "None"
    ensures file.Some? ==> |r| == |file.value| + 2 && r[0] == '"' && r[|r| - 1] == '"'
                           && r[1..|r| - 1] == file.value
  {
    match file
    case None => "None"
    case Some(f) => "\"" + f + "\""
  }

  function Header(file: Option<string>, lineNr: int): string {
    "File " + FileLabel(file) + ", line " + IntToDecimal(lineNr) + "."
  }

  /** `a` followed by a newline and `rest`. */
  function ThenLine(a: string, rest: string): string {
    a + "\n" + rest
  }

  /** `error_text`: header, source line, caret line and comment, one per line. */
  function ErrorText(comment: string, fullLine: string, file: Option<string>, lineNr: int, linePos: int): string {
    ThenLine(Header(file, lineNr), ThenLine(fullLine, ThenLine(Indicator(linePos), comment)))
  }

  /** The message of a raised diagnostic. */
  function Message(d: Diagnostic): string {
    ErrorText(d.comment, d.symbols.fullLine, d.symbols.filename, d.symbols.lineNr, d.symbols.linePos)
  }

  /** `error`: never returns a value; it always raises the positioned diagnostic. */
  function Error<T>(comment: string, symbols: Symbols): (r: Result<T, Diagnostic>)
    ensures r.Failure? && r.error.comment == comment && r.error.symbols == symbols
  {
    Failure(Diagnostic(comment, symbols))
  }

  /** `s.split("\n")`. */
  function SplitNewlines(s: string): (r: seq<string>)
    ensures |r| > 0
    decreases |s|
  {
    if NoNewline(s) then [s]
    else
      var i := FirstNewline(s);
      [s[..i]] + SplitNewlines(s[i + 1..])
  }

  function FirstNewline(s: string): (i: nat)
    requires !NoNewline(s)
    ensures i < |s| && s[i] == '\n' && NoNewline(s[..i])
    decreases |s|
  {
    if s[0] == '\n' then 0 else FirstNewline(s[1..]) + 1
  }

  lemma {:induction false} FirstNewlineAfterLine(a: string, b: string)
    requires NoNewline(a)
    ensures !NoNewline(a + "\n" + b) && FirstNewline(a + "\n" + b) == |a|
    decreases |a|
  {
    var s := a + "\n" + b;
    assert s[|a|] == '\n';
    if |a| > 0 {
      assert s[1..] == a[1..] + "\n" + b;
      FirstNewlineAfterLine(a[1..], b);
    }
  }

  lemma SplitAfterLine(a: string, b: string)
    requires NoNewline(a)
    ensures SplitNewlines(ThenLine(a, b)) == [a] + SplitNewlines(b)
  {
    var s := a + "\n" + b;
    FirstNewlineAfterLine(a, b);
    assert s[..|a|] == a;
    assert s[|a| + 1..] == b;
  }

  lemma DecimalHasNoNewline(i: int)
    ensures NoNewline(IntToDecimal(i))
  {
    var digits := NatToDigits(if i < 0 then -i else i, 10);
    assert NoNewline(digits);
    if i < 0 {
      assert IntToDecimal(i) == "-" + digits;
    }
  }

  lemma ConcatNoNewline(a: string, b: string)
    requires NoNewline(a) && NoNewline(b)
    ensures NoNewline(a + b)
  {
    assert forall i :: |a| <= i < |a + b| ==> (a + b)[i] == b[i - |a|];
  }

  lemma HeaderHasNoNewline(file: Option<string>, lineNr: int)
    requires file.Some? ==> NoNewline(file.value)
    ensures NoNewline(Header(file, lineNr))
  {
    var shown := FileLabel(file);
    if file.Some? {
      ConcatNoNewline("\"", file.value);
      ConcatNoNewline("\"" + file.value, "\"");
    }
    DecimalHasNoNewline(lineNr);
    ConcatNoNewline("File ", shown);
    ConcatNoNewline("File " + shown, ", line ");
    ConcatNoNewline("File " + shown + ", line ", IntToDecimal(lineNr));
    ConcatNoNewline("File " + shown + ", line " + IntToDecimal(lineNr), ".");
  }

  /** Reading the message back line by line yields the header, the source line,
      the caret line and then the lines of the comment. */
  lemma ErrorTextLines(comment: string, fullLine: string, file: Option<string>, lineNr: int, linePos: int)
    requires file.Some? ==> NoNewline(file.value)
    requires NoNewline(fullLine)
    ensures SplitNewlines(ErrorText(comment, fullLine, file, lineNr, linePos))
         == [Header(file, lineNr), fullLine, Indicator(linePos)] + SplitNewlines(comment)
  {
    HeaderHasNoNewline(file, lineNr);
    ThreeLines(Header(file, lineNr), fullLine, Indicator(linePos), comment);
  }

  lemma ThreeLines(a: string, b: string, c: string, rest: string)
    requires NoNewline(a) && NoNewline(b) && NoNewline(c)
    ensures SplitNewlines(ThenLine(a, ThenLine(b, ThenLine(c, rest)))) == [a, b, c] + SplitNewlines(rest)
  {
    var t3 := ThenLine(c, rest);
    var t2 := ThenLine(b, t3);
    SplitAfterLine(c, rest);
    SplitAfterLine(b, t3);
    SplitAfterLine(a, t2);
    ConsThree(a, b, c, SplitNewlines(rest), SplitNewlines(t3), SplitNewlines(t2),
              SplitNewlines(ThenLine(a, t2)));
  }

  lemma ConsThree(a: string, b: string, c: string, tail: seq<string>, s3: seq<string>, s2: seq<string>, s1: seq<string>)
    requires s3 == [c] + tail && s2 == [b] + s3 && s1 == [a] + s2
    ensures s1 == [a, b, c] + tail
  {
  }
}

=== FILE: environment.dfy ===
/** The `Environment` class of flolang/interpreter.py: a chain of scopes from
    the innermost outwards, each with its bindings and the names declared
    constant in it. The chain is a sequence whose element 0 is the scope an
    operation is called on and whose later elements are its parents. */
module Environment {
  import opened Wrappers
  import opened Values

  datatype Scope = Scope(vars: map<string, Value>, constants: set<string>)

  type Env = seq<Scope>

  const EmptyScope: Scope := Scope(map[], {})

  /** A fresh `Environment(env)`: a new empty scope in front of the chain. */
  function Push(env: Env): (r: Env)
    ensures |r| == |env| + 1 && r[0] == EmptyScope && r[1..] == env
  {
    [EmptyScope] + env
  }

  /** Some scope of the chain binds `name`. */
  predicate Bound(env: Env, name: string) {
    exists k :: 0 <= k < |env| && name in env[k].vars
  }

  /** `_resolve`: the index of the nearest scope binding `name`. */
  function Resolve(env: Env, name: string): (r: Option<nat>)
    ensures r.Some? ==> r.value < |env| && name in env[r.value].vars
                        && forall k :: 0 <= k < r.value ==> name !in env[k].vars
    ensures r.None? <==> !Bound(env, name)
    decreases |env|
  {
    if |env| == 0 then None
    else if name in env[0].vars then Some(0)
    else
      var rest := Resolve(env[1..], name);
      if rest.Some? then Some(rest.value + 1)
      else
        assert forall k :: 1 <= k < |env| ==> name !in env[k].vars by {
          forall k | 1 <= k < |env| ensures name !in env[k].vars {
            assert env[1..][k - 1] == env[k];
          }
        }
        None
  }

  /** The name is constant in the scope that resolves it. */
  predicate IsConstantIn(env: Env, name: string) {
    var k := Resolve(env, name);
    k.Some? && name in env[k.value].constants
  }

  /** `declare`: binds `name` in the innermost scope, unless that scope already
      binds it (every runtime value is truthy, so `scope.get` is a membership
      test). The declared value is returned. */
  function Declare(env: Env, name: string, value: Value, constant: bool): (r: Result<Env, Fault>)
    requires |env| > 0
    ensures r.Failure? <==> name in env[0].vars
    ensures r.Failure? ==> r.error == AlreadyDefined(name)
    ensures r.Success? ==> |r.value| == |env| && r.value[1..] == env[1..]
  {
    if name in env[0].vars then Failure(AlreadyDefined(name))
    else
      var constants := if constant then env[0].constants + {name} else env[0].constants;
      Success([Scope(env[0].vars[name := value], constants)] + env[1..])
  }

  /** `lookup`: the value in the nearest scope binding `name`. */
  function Lookup(env: Env, name: string): (r: Result<Value, Fault>)
    ensures r.Success? <==> Bound(env, name)
    ensures r.Failure? ==> r.error == Undefined(name)
    ensures r.Success? ==> exists k :: 0 <= k < |env| && name in env[k].vars && r.value == env[k].vars[name]
  {
    var k := Resolve(env, name);
    if k.Some? then Success(env[k.value].vars[name]) else Failure(Undefined(name))
  }

  /** `assign`: rebinds `name` in the nearest scope binding it; fails when the
      name is constant there or bound nowhere. */
  function Assign(env: Env, name: string, value: Value): (r: Result<Env, Fault>)
    ensures r.Failure? <==> !Bound(env, name) || IsConstantIn(env, name)
    ensures !Bound(env, name) ==> r == Failure(Undefined(name))
    ensures Bound(env, name) && IsConstantIn(env, name) ==> r == Failure(IsConstant(name))
    ensures r.Success? ==> |r.value| == |env|
  {
    var k := Resolve(env, name);
    if k.None? then Failure(Undefined(name))
    else if name in env[k.value].constants then Failure(IsConstant(name))
    else Success(env[k.value := Scope(env[k.value].vars[name := value], env[k.value].constants)])
  }

  // ---------------------------------------------------------------------------
  // Properties

  /** After a declaration the name reads back as the declared value, and it is
      constant exactly when declared so. */
  lemma DeclareThenLookup(env: Env, name: string, value: Value, constant: bool)
    requires |env| > 0 && name !in env[0].vars
    ensures Lookup(Declare(env, name, value, constant).value, name) == Success(value)
    ensures IsConstantIn(Declare(env, name, value, constant).value, name) == (constant || name in env[0].constants)
  {
  }

  /** Declaring one name does not change what any other name reads as. */
  lemma {:induction false} DeclareKeepsOthers(env: Env, name: string, value: Value, constant: bool, other: string)
    requires |env| > 0 && name !in env[0].vars && other != name
    ensures Lookup(Declare(env, name, value, constant).value, other) == Lookup(env, other)
    ensures Resolve(Declare(env, name, value, constant).value, other) == Resolve(env, other)
  {
    var env' := Declare(env, name, value, constant).value;
    ResolveSameKeys(env, env', other);
  }

  /** Two chains whose scopes bind the same names resolve every name alike. */
  lemma {:induction false} ResolveSameKeys(env: Env, env': Env, name: string)
    requires |env| == |env'|
    requires forall k :: 0 <= k < |env| ==> (name in env[k].vars <==> name in env'[k].vars)
    ensures Resolve(env, name) == Resolve(env', name)
    decreases |env|
  {
    if |env| > 0 && name !in env[0].vars {
      ResolveSameKeys(env[1..], env'[1..], name);
    }
  }

  /** A name bound only in an outer scope may be declared again in the inner
      one; the outer binding stays as it was and the inner one hides it. */
  lemma Shadowing(env: Env, name: string, value: Value, constant: bool)
    requires |env| > 1 && name !in env[0].vars && name in env[1].vars
    ensures Declare(env, name, value, constant).Success?
    ensures Declare(env, name, value, constant).value[1] == env[1]
    ensures Lookup(Declare(env, name, value, constant).value, name) == Success(value)
    ensures Lookup(Declare(env, name, value, constant).value[1..], name) == Success(env[1].vars[name])
  {
    var env' := Declare(env, name, value, constant).value;
    assert env'[1..][0] == env[1];
  }

  /** A second declaration of a name in the same scope fails. */
  lemma DeclareTwice(env: Env, name: string, v: Value, c: bool, w: Value, d: bool)
    requires |env| > 0 && name !in env[0].vars
    ensures Declare(Declare(env, name, v, c).value, name, w, d) == Failure(AlreadyDefined(name))
  {
  }

  /** An assignment reads back as the assigned value. */
  lemma AssignThenLookup(env: Env, name: string, value: Value)
    requires Assign(env, name, value).Success?
    ensures Lookup(Assign(env, name, value).value, name) == Success(value)
  {
    var k := Resolve(env, name).value;
    var env' := Assign(env, name, value).value;
    assert forall j :: 0 <= j < k ==> env'[j] == env[j];
    ResolveSameKeys(env, env', name);
  }

  /** An assignment changes one binding of the nearest scope binding the name
      and nothing else: every other scope, every other name of that scope and
      every scope's constants stay as they were. */
  lemma AssignOnlyNearest(env: Env, name: string, value: Value)
    requires Assign(env, name, value).Success?
    ensures var env' := Assign(env, name, value).value;
            var k := Resolve(env, name).value;
            |env'| == |env|
            && (forall j :: 0 <= j < |env| && j != k ==> env'[j] == env[j])
            && env'[k].constants == env[k].constants
            && env'[k].vars.Keys == env[k].vars.Keys
            && (forall n :: n in env[k].vars && n != name ==> env'[k].vars[n] == env[k].vars[n])
  {
  }

  /** Assigning to a name declared constant in the scope that resolves it fails. */
  lemma ConstantRejectsAssign(env: Env, name: string, value: Value, constant: Value)
    requires |env| > 0 && name !in env[0].vars
    ensures Assign(Declare(env, name, constant, true).value, name, value) == Failure(IsConstant(name))
  {
    DeclareThenLookup(env, name, constant, true);
  }

  /** A fresh inner scope changes no lookup. */
  lemma PushKeepsLookups(env: Env, name: string)
    ensures Lookup(Push(env), name) == Lookup(env, name)
  {
    var env' := Push(env);
    if name !in env'[0].vars {
      assert env'[1..] == env;
    }
  }

  // ---------------------------------------------------------------------------
  // How interpretation may change a chain

  /** A scope after interpretation: it binds at least its names and constants,
      and its constant bindings still hold the same values. */
  predicate Grows(s: Scope, s': Scope) {
    s.vars.Keys <= s'.vars.Keys && s.constants <= s'.constants
    && forall n :: n in s.constants && n in s.vars ==> s'.vars[n] == s.vars[n]
  }

  predicate SameNames(s: Scope, s': Scope) {
    s'.vars.Keys == s.vars.Keys && s'.constants == s.constants
  }

  /** What interpreting a statement in `env` may do to it: declare in the
      innermost scope only, and reassign only non-constant bindings. */
  predicate Frame(env: Env, env': Env) {
    |env'| == |env|
    && (forall k :: 0 <= k < |env| ==> Grows(env[k], env'[k]))
    && (forall k :: 1 <= k < |env| ==> SameNames(env[k], env'[k]))
  }

  /** A frame that declares nothing, not even in the innermost scope. */
  predicate Keeps(env: Env, env': Env) {
    Frame(env, env') && forall k :: 0 <= k < |env| ==> SameNames(env[k], env'[k])
  }

  lemma FrameReflexive(env: Env)
    ensures Frame(env, env)
  {
  }

  lemma FrameTransitive(a: Env, b: Env, c: Env)
    requires Frame(a, b) && Frame(b, c)
    ensures Frame(a, c)
  {
    forall k | 0 <= k < |a| ensures Grows(a[k], c[k]) {
      assert Grows(a[k], b[k]) && Grows(b[k], c[k]);
    }
  }

  /** Dropping the innermost scope of a frame leaves a chain whose every scope
      binds exactly the names it bound before: the dropped scope's
      declarations do not leak. */
  lemma PopKeeps(s: Env, s': Env)
    requires |s| > 0 && Frame(s, s')
    ensures Keeps(s[1..], s'[1..])
  {
    forall k | 0 <= k < |s| - 1 ensures Grows(s[1..][k], s'[1..][k]) && SameNames(s[1..][k], s'[1..][k]) {
      assert s[1..][k] == s[k + 1] && s'[1..][k] == s'[k + 1];
    }
  }

  /** The caller's part of a chain grows as a frame while the innermost scope
      grows too: the chain as a whole is a frame. */
  lemma ExtendFrame(s: Scope, s': Scope, env: Env, env': Env)
    requires Grows(s, s') && Keeps(env, env')
    ensures Frame([s] + env, [s'] + env')
  {
    var a, b := [s] + env, [s'] + env';
    forall k | 1 <= k < |a| ensures Grows(a[k], b[k]) && SameNames(a[k], b[k]) {
      assert a[k] == env[k - 1] && b[k] == env'[k - 1];
    }
  }

  lemma DeclareFrame(env: Env, name: string, value: Value, constant: bool)
    requires |env| > 0 && Declare(env, name, value, constant).Success?
    ensures Frame(env, Declare(env, name, value, constant).value)
  {
    var env' := Declare(env, name, value, constant).value;
    forall k | 1 <= k < |env| ensures env'[k] == env[k] {
      assert env'[1..][k - 1] == env[1..][k - 1];
    }
  }

  lemma AssignFrame(env: Env, name: string, value: Value)
    requires Assign(env, name, value).Success?
    ensures Keeps(env, Assign(env, name, value).value)
  {
    AssignOnlyNearest(env, name, value);
  }

  /** Assigning through a fresh inner scope assigns in the chain beneath it. */
  lemma AssignBelowPush(env: Env, name: string, value: Value)
    requires Bound(env, name)
    ensures Assign(Push(env), name, value).Success? == Assign(env, name, value).Success?
    ensures Assign(env, name, value).Success? ==> Assign(Push(env), name, value).value == Push(Assign(env, name, value).value)
  {
    var p := Push(env);
    assert p[1..] == env;
    var k := Resolve(env, name).value;
    assert Resolve(p, name) == Some(k + 1);
    if Assign(env, name, value).Success? {
      var e' := Assign(env, name, value).value;
      var p' := Assign(p, name, value).value;
      assert p' == [EmptyScope] + e' by {
        assert |p'| == |[EmptyScope] + e'|;
        forall j | 0 <= j < |p'| ensures p'[j] == ([EmptyScope] + e')[j] {
          if j > 0 {
            assert p[j] == env[j - 1];
          }
        }
      }
    }
  }

  /** An assignment leaves every name bound and constant exactly as before. */
  lemma AssignKeepsStatus(env: Env, name: string, value: Value, other: string)
    requires Assign(env, name, value).Success?
    ensures var env' := Assign(env, name, value).value;
            (Bound(env', other) <==> Bound(env, other)) && (IsConstantIn(env', other) <==> IsConstantIn(env, other))
  {
    var env' := Assign(env, name, value).value;
    AssignOnlyNearest(env, name, value);
    ResolveSameKeys(env, env', other);
    var k := Resolve(env, other);
    if k.Some? {
      assert other in env'[k.value].vars;
    }
  }

  /** A chain that declares nothing binds the same names. */
  lemma KeepsBound(env: Env, env': Env, name: string)
    requires Keeps(env, env')
    ensures Bound(env', name) <==> Bound(env, name)
  {
    if Bound(env, name) {
      var k :| 0 <= k < |env| && name in env[k].vars;
      assert SameNames(env[k], env'[k]);
    }
    if Bound(env', name) {
      var k :| 0 <= k < |env'| && name in env'[k].vars;
      assert SameNames(env[k], env'[k]);
    }
  }

  /** An assignment leaves the value of every other name as it was. */
  lemma AssignKeepsOthers(env: Env, name: string, value: Value, other: string)
    requires Assign(env, name, value).Success? && other != name
    ensures Lookup(Assign(env, name, value).value, other) == Lookup(env, other)
  {
    var env' := Assign(env, name, value).value;
    AssignOnlyNearest(env, name, value);
    ResolveSameKeys(env, env', other);
  }

  /** A name the innermost scope does not bind is looked up beneath it. */
  lemma LookupBelow(env: Env, name: string)
    requires |env| > 0 && name !in env[0].vars
    ensures Lookup(env, name) == Lookup(env[1..], name)
    ensures IsConstantIn(env, name) == IsConstantIn(env[1..], name)
  {
    if Resolve(env[1..], name).Some? {
      var k := Resolve(env[1..], name).value;
      assert env[1..][k] == env[k + 1];
    }
  }
}

=== FILE: interpreter.dfy ===
/** The tree-walking interpreter of flolang/interpreter.py over integer,
    boolean, string and function values. Every evaluation takes a `fuel`
    budget that each nested evaluation and each loop iteration spends, and
    ends in `OutOfFuel` when it runs out. */
module Interpreter {
  import opened Wrappers
  import opened Tokens
  import opened Ast
  import opened Parser
  import opened Values
  import opened Environment

  /** A value and the environment after producing it. */
  datatype Done = Done(value: Value, env: Env)

  /** How a block ended: `code` 0 ran off the end, 1 met `return` (with the
      returned value), 2 met `break`. */
  datatype Exit = Exit(code: nat, carried: Option<Value>, env: Env)

  /** The first pass of `interpret_program`: the last value, the environment
      and the calls deferred so far. */
  datatype Pass = Pass(last: Value, env: Env, deferred: seq<Node>)

  predicate WellFormedExit(x: Exit) {
    x.code <= 2 && (x.code == 1 <==> x.carried.Some?)
  }

  /** `stmt.body` read as a statement list. */
  function BodyOf(n: Node): (r: Result<seq<Node>, Fault>)
    ensures r.Failure? <==> !(n.BlockExpression? || n.Program? || n.FunctionDeclaration?)
  {
    match n
    case BlockExpression(body) => Success(body)
    case Program(body) => Success(body)
    case FunctionDeclaration(_, _, _, body) => Success(body)
    case _ => Failure(NotABlock)
  }

  /** `interpret`: dispatches on the node kind in the order the source tests them. */
  function Eval(n: Node, env: Env, fuel: nat): (r: Result<Done, Fault>)
    requires |env| > 0
    ensures r.Success? ==> |r.value.env| == |env|
    ensures fuel == 0 ==> r == Failure(OutOfFuel)
    decreases fuel, 0, 0
  {
    if fuel == 0 then Failure(OutOfFuel)
    else
      match n
      case VarDeclaration(constant, varType, identifier, initializer) =>
        EvalVarDeclaration(constant, varType, identifier, initializer, env, fuel - 1)
      case Binary(left, right, operator) => EvalBinary(left, right, operator, env, fuel - 1)
      case UnaryBefore(expr, operator) => EvalUnaryBefore(expr, operator, env, fuel - 1)
      case UnaryIdentifierBefore(identifier, operator) => IncrementBefore(identifier, operator, env)
      case UnaryIdentifierAfter(identifier, operator) => IncrementAfter(identifier, operator, env)
      case Assignment(assignee, value, operator) => EvalAssignment(assignee, value, operator, env, fuel - 1)
      case NumericLiteral(number, _) => Success(Done(NumberValue(number), env))
      case FloatLiteral(_) => Failure(FloatNotModelled)
      case StringLiteral(text) => Success(Done(StringValue(text), env))
      case Identifier(symbol) =>
        var v :- Lookup(env, symbol);
        Success(Done(v, env))
      case Program(body) => RunProgram(body, env, fuel - 1)
      case FunctionDeclaration(parameters, _, identifier, body) =>
        var f := FunctionValue(identifier, parameters, body);
        var env' :- Declare(env, identifier, f, true);
        Success(Done(f, env'))
      case Call(caller, arguments) => EvalCall(caller, arguments, env, fuel - 1)
      case If(condition, positiveCase, negativeCase) => EvalIf(condition, positiveCase, negativeCase, env, fuel - 1)
      case While(condition, loopBody) => WhileLoop(condition, loopBody, env, fuel - 1)
      case For(loopVariable, quantityMin, quantityMax, loopBody) =>
        EvalFor(loopVariable, quantityMin, quantityMax, loopBody, env, fuel - 1)
      case BlockExpression(body) =>
        var x :- RunBlock(body, env, fuel - 1);
        Success(Done(Signal(x.code, x.carried), x.env))
      case Return(returned) => ReturnValue(returned, env, fuel - 1)
      case Break => Success(Done(NoneValue, env))
      case Unreachable => Failure(ReachedUnreachable)
      case Member(_, _, _) => Failure(CannotInterpret)
      case ObjectLiteral(_) => Failure(CannotInterpret)
  }

  /** `interpret_var_declaration`: only the builtin `int` type is accepted (not
      an `int` that was read as an identifier); the initializer defaults to 0. */
  function EvalVarDeclaration(constant: bool, varType: Type, identifier: string, initializer: Option<Node>,
                              env: Env, fuel: nat): (r: Result<Done, Fault>)
    requires |env| > 0
    ensures r.Success? ==> |r.value.env| == |env|
    ensures !IsInt(varType) ==> r == Failure(TypeNotImplemented(varType.name))
    decreases fuel, 5, 0
  {
    if !IsInt(varType) then Failure(TypeNotImplemented(varType.name))
    else
      var init :- if initializer.Some? then Eval(initializer.value, env, fuel)
                  else Success(Done(NumberValue(0), env));
      var env' :- Declare(init.env, identifier, init.value, constant);
      Success(Done(init.value, env'))
  }

  /** `interpret_binary_expression`: both operands, left first, then the operator. */
  function EvalBinary(left: Node, right: Node, operator: string, env: Env, fuel: nat): (r: Result<Done, Fault>)
    requires |env| > 0
    ensures r.Success? ==> |r.value.env| == |env|
    decreases fuel, 5, 0
  {
    var a :- Eval(left, env, fuel);
    var b :- Eval(right, a.env, fuel);
    var v :- ApplyBinary(operator, a.value, b.value);
    Success(Done(v, b.env))
  }

  function EvalUnaryBefore(expr: Node, operator: string, env: Env, fuel: nat): (r: Result<Done, Fault>)
    requires |env| > 0
    ensures r.Success? ==> |r.value.env| == |env|
    decreases fuel, 5, 0
  {
    var a :- Eval(expr, env, fuel);
    var v :- ApplyUnary(operator, a.value);
    Success(Done(v, a.env))
  }

  /** The increment of `++` and `--`. */
  function Delta(operator: string): (d: int)
    requires operator == "++" || operator == "--"
    ensures d == 1 || d == -1
  {
    if operator == "++" then 1 else -1
  }

  /** Prefix `++x` / `--x`: stores the stepped value and returns it. Any other
      operator makes the source fall off the end of the function, returning no
      runtime value; that is reported as an invalid operator. */
  function IncrementBefore(identifier: string, operator: string, env: Env): (r: Result<Done, Fault>)
    requires |env| > 0
    ensures r.Success? ==> |r.value.env| == |env| && Lookup(r.value.env, identifier) == Success(r.value.value)
    ensures !(operator == "++" || operator == "--") ==> r.Failure?
    decreases 0, 5, 0
  {
    var original :- Lookup(env, identifier);
    if operator == "++" || operator == "--" then
      var stepped :- Step(original, Delta(operator));
      var env' :- Assign(env, identifier, stepped);
      AssignThenLookup(env, identifier, stepped);
      Success(Done(stepped, env'))
    else Failure(InvalidOperator(operator))
  }

  /** Postfix `x++` / `x--`: stores the stepped value and returns the original. */
  function IncrementAfter(identifier: string, operator: string, env: Env): (r: Result<Done, Fault>)
    requires |env| > 0
    ensures r.Success? ==> |r.value.env| == |env| && Lookup(env, identifier) == Success(r.value.value)
    ensures !(operator == "++" || operator == "--") ==> r.Failure?
    decreases 0, 5, 0
  {
    var original :- Lookup(env, identifier);
    if operator == "++" || operator == "--" then
      var stepped :- Step(original, Delta(operator));
      var env' :- Assign(env, identifier, stepped);
      Success(Done(original, env'))
    else Failure(InvalidOperator(operator))
  }

  /** `interpret_assignment_expression`: the assignee must be an identifier; the
      right side is evaluated first; a compound operator reads the old value
      and stores `old op right`. */
  function EvalAssignment(assignee: Node, value: Node, operator: string, env: Env, fuel: nat): (r: Result<Done, Fault>)
    requires |env| > 0
    ensures r.Success? ==> |r.value.env| == |env|
    ensures !assignee.Identifier? ==> r == Failure(NotAssignable)
    decreases fuel, 5, 0
  {
    if !assignee.Identifier? then Failure(NotAssignable)
    else
      var name := assignee.symbol;
      var right :- Eval(value, env, fuel);
      var stored :- if operator == "=" then Success(right.value)
                    else
                      var left :- Lookup(right.env, name);
                      var base := CompoundBase(operator);
                      if base.None? then Failure(InvalidOperator(operator))
                      else ApplyBinary(base.value, left, right.value);
      var env' :- Assign(right.env, name, stored);
      Success(Done(stored, env'))
  }

  /** `interpret_call_expression` for the callee value. */
  function EvalCall(caller: Node, arguments: seq<Node>, env: Env, fuel: nat): (r: Result<Done, Fault>)
    requires |env| > 0
    ensures r.Success? ==> |r.value.env| == |env|
    decreases fuel, 5, 0
  {
    var f :- Eval(caller, env, fuel);
    if f.value.FunctionValue? then
      var c :- CallFunction(f.value, arguments, f.env, fuel);
      Success(c)
    else Failure(NotCallable)
  }

  /** Calls a runtime function: a new scope under the caller's environment
      binds the parameters, then the body runs in it. */
  function CallFunction(f: Value, arguments: seq<Node>, env: Env, fuel: nat): (r: Result<Done, Fault>)
    requires f.FunctionValue? && |env| > 0
    ensures r.Success? ==> |r.value.env| == |env|
    decreases fuel, 4, 0
  {
    var stack :- BindArguments(f.parameters, arguments, 0, Push(env), fuel);
    var result :- RunBody(f.body, 0, stack, fuel);
    Success(Done(result.value, result.env[1..]))
  }

  /** The `zip_longest` loop over parameters and arguments: each parameter takes
      its argument, else its default, both evaluated in the caller's
      environment, and is declared in the callee's scope. */
  function BindArguments(parameters: seq<Parameter>, arguments: seq<Node>, i: nat, stack: Env, fuel: nat)
    : (r: Result<Env, Fault>)
    requires |stack| > 1
    ensures r.Success? ==> |r.value| == |stack|
    ensures i < |arguments| && i >= |parameters| ==> r == Failure(NotEnoughParameters)
    ensures i < |parameters| && !IsInt(parameters[i].paramType)
            ==> r == Failure(TypeNotImplemented(parameters[i].paramType.name))
    decreases fuel, 2, |parameters| + |arguments| - i
  {
    if i >= |parameters| && i >= |arguments| then
      Success(stack)
    else if i >= |parameters| then Failure(NotEnoughParameters)
    else
      var p := parameters[i];
      if !IsInt(p.paramType) then Failure(TypeNotImplemented(p.paramType.name))
      else
        var v :- if i < |arguments| then Eval(arguments[i], stack[1..], fuel)
                 else if p.default.Some? then Eval(p.default.value, stack[1..], fuel)
                 else Failure(MissingArgument);
        var stack' :- Declare([stack[0]] + v.env, ValueText(p.identifier.value), v.value, false);
        assert stack'[1..] == v.env;
        var r :- BindArguments(parameters, arguments, i + 1, stack', fuel);
        Success(r)
  }

  /** The statement loop of a function body: a top-level `return` ends the call
      with its value, a top-level `break` is an error, and running off the end
      yields `NoneValue`. */
  function RunBody(body: seq<Node>, i: nat, env: Env, fuel: nat): (r: Result<Done, Fault>)
    requires |env| > 0 && i <= |body|
    ensures r.Success? ==> |r.value.env| == |env|
    decreases fuel, 1, |body| - i
  {
    if i == |body| then
      Success(Done(NoneValue, env))
    else if body[i].Return? then ReturnValue(body[i].returned, env, fuel)
    else if body[i].Break? then Failure(BreakInFunction)
    else
      var x :- Eval(body[i], env, fuel);
      var r :- RunBody(body, i + 1, x.env, fuel);
      Success(r)
  }

  /** `interpret_return_expression`. */
  function ReturnValue(returned: Option<Node>, env: Env, fuel: nat): (r: Result<Done, Fault>)
    requires |env| > 0
    ensures r.Success? ==> |r.value.env| == |env|
    ensures returned.None? ==> r == Success(Done(NoneValue, env))
    decreases fuel, 1, 0
  {
    if returned.Some? then Eval(returned.value, env, fuel)
    else Success(Done(NoneValue, env))
  }

  /** `interpret_block_expression`: the statements run in a new scope, which is
      dropped afterwards. */
  function RunBlock(body: seq<Node>, env: Env, fuel: nat): (r: Result<Exit, Fault>)
    requires |env| > 0
    ensures r.Success? ==> |r.value.env| == |env| && WellFormedExit(r.value)
    decreases fuel, 2, 0
  {
    var x :- BlockStatements(body, 0, Push(env), fuel);
    Success(Exit(x.code, x.carried, x.env[1..]))
  }

  function BlockStatements(body: seq<Node>, i: nat, env: Env, fuel: nat): (r: Result<Exit, Fault>)
    requires |env| > 0 && i <= |body|
    ensures r.Success? ==> |r.value.env| == |env| && WellFormedExit(r.value)
    decreases fuel, 1, |body| - i
  {
    if i == |body| then
      Success(Exit(0, None, env))
    else if body[i].Return? then
      var x :- ReturnValue(body[i].returned, env, fuel);
      Success(Exit(1, Some(x.value), x.env))
    else if body[i].Break? then
      Success(Exit(2, None, env))
    else
      var x :- Eval(body[i], env, fuel);
      var r :- BlockStatements(body, i + 1, x.env, fuel);
      Success(r)
  }

  /** `interpret_if_expression`: a true condition runs the positive block and
      passes on only a `return`; the negative case's result is dropped. */
  function EvalIf(condition: Node, positiveCase: Node, negativeCase: Option<Node>, env: Env, fuel: nat)
    : (r: Result<Done, Fault>)
    requires |env| > 0
    ensures r.Success? ==> |r.value.env| == |env|
    decreases fuel, 5, 0
  {
    var c :- Eval(condition, env, fuel);
    var p :- PayloadOf(c.value);
    if Truthy(p) then
      var body :- BodyOf(positiveCase);
      var x :- RunBlock(body, c.env, fuel);
      Success(Done(if x.code == 1 then x.carried.value else NoneValue, x.env))
    else if negativeCase.Some? then
      var x :- Eval(negativeCase.value, c.env, fuel);
      Success(Done(NoneValue, x.env))
    else Success(Done(NoneValue, c.env))
  }

  /** `interpret_while_expression`: the condition is evaluated before every
      iteration; `break` ends the loop and `return` hands its value out. */
  function WhileLoop(condition: Node, loopBody: Node, env: Env, fuel: nat): (r: Result<Done, Fault>)
    requires |env| > 0
    ensures r.Success? ==> |r.value.env| == |env|
    decreases fuel, 3, 0
  {
    var c :- Eval(condition, env, fuel);
    var p :- PayloadOf(c.value);
    if !Truthy(p) then Success(Done(NoneValue, c.env))
    else
      var body :- BodyOf(loopBody);
      var x :- RunBlock(body, c.env, fuel);
      if x.code == 2 then Success(Done(NoneValue, x.env))
      else if x.code == 1 then Success(Done(x.carried.value, x.env))
      else if fuel == 0 then Failure(OutOfFuel)
      else
        var r :- WhileLoop(condition, loopBody, x.env, fuel - 1);
        Success(r)
  }

  /** `interpret_for_expression`: both bounds are read once, the loop variable
      lives in a scope of its own, starting at 0, and takes `min .. max - 1`. */
  function EvalFor(loopVariable: string, quantityMin: Node, quantityMax: Node, loopBody: Node, env: Env, fuel: nat)
    : (r: Result<Done, Fault>)
    requires |env| > 0
    ensures r.Success? ==> |r.value.env| == |env|
    decreases fuel, 5, 0
  {
    var lo :- Eval(quantityMin, env, fuel);
    var low :- PayloadOf(lo.value);
    var hi :- Eval(quantityMax, lo.env, fuel);
    var high :- PayloadOf(hi.value);
    if !IntLike(low) || !IntLike(high) then Failure(TypeMismatch)
    else
      var scope := Declare(Push(hi.env), loopVariable, NumberValue(0), false).value;
      var x :- ForLoop(loopVariable, AsInt(low), AsInt(high), loopBody, scope, fuel);
      assert scope[1..] == hi.env;
      Success(Done(x.value, x.env[1..]))
  }

  /** The iterations `i .. max - 1` of a `for` loop. */
  function ForLoop(loopVariable: string, i: int, max: int, loopBody: Node, env: Env, fuel: nat)
    : (r: Result<Done, Fault>)
    requires |env| > 0
    ensures r.Success? ==> |r.value.env| == |env|
    ensures i >= max ==> r == Success(Done(NoneValue, env))
    decreases fuel, 3, if i < max then max - i else 0
  {
    if i >= max then
      Success(Done(NoneValue, env))
    else
      var env' :- Assign(env, loopVariable, NumberValue(i));
      var body :- BodyOf(loopBody);
      var x :- RunBlock(body, env', fuel);
      if x.code == 2 then Success(Done(NoneValue, x.env))
      else if x.code == 1 then Success(Done(x.carried.value, x.env))
      else
        var r :- ForLoop(loopVariable, i + 1, max, loopBody, x.env, fuel);
        Success(r)
  }

  /** `interpret_program`: a first pass runs every statement that is not a call
      and defers the calls; a second pass runs the deferred calls in order. The
      result is the value of the last statement run. */
  function RunProgram(body: seq<Node>, env: Env, fuel: nat): (r: Result<Done, Fault>)
    requires |env| > 0
    ensures r.Success? ==> |r.value.env| == |env|
    decreases fuel, 4, 0
  {
    var first :- FirstPass(body, 0, env, NoneValue, [], fuel);
    var r :- RunSequence(first.deferred, 0, first.env, first.last, fuel);
    Success(r)
  }

  function FirstPass(body: seq<Node>, i: nat, env: Env, last: Value, deferred: seq<Node>, fuel: nat)
    : (r: Result<Pass, Fault>)
    requires |env| > 0 && i <= |body|
    ensures r.Success? ==> |r.value.env| == |env|
    decreases fuel, 1, |body| - i
  {
    if i == |body| then
      Success(Pass(last, env, deferred))
    else if body[i].Call? then FirstPass(body, i + 1, env, last, deferred + [body[i]], fuel)
    else
      var x :- Eval(body[i], env, fuel);
      var r :- FirstPass(body, i + 1, x.env, x.value, deferred, fuel);
      Success(r)
  }

  /** Statements run one after another; the value is the last one's, or `last`
      when there are none. */
  function RunSequence(stmts: seq<Node>, i: nat, env: Env, last: Value, fuel: nat): (r: Result<Done, Fault>)
    requires |env| > 0 && i <= |stmts|
    ensures r.Success? ==> |r.value.env| == |env|
    ensures i == |stmts| ==> r == Success(Done(last, env))
    decreases fuel, 1, |stmts| - i
  {
    if i == |stmts| then
      Success(Done(last, env))
    else
      var x :- Eval(stmts[i], env, fuel);
      var r :- RunSequence(stmts, i + 1, x.env, x.value, fuel);
      Success(r)
  }
}

=== FILE: interpreter_frame.dfy ===
/** What interpreting may do to the environment chain: every evaluation
    declares only in the innermost scope, reassigns only non-constant
    bindings, and a block, an increment or an assignment declares nothing
    at all. One lemma per evaluation function, by the same induction as the
    evaluation itself. */
module InterpreterFrame {
  import opened Wrappers
  import opened Ast
  import opened Parser
  import opened Values
  import opened Environment
  import opened Interpreter

  /** A successful evaluation left a frame of `env`. */
  predicate Framed(env: Env, r: Result<Done, Fault>) {
    r.Success? ==> Frame(env, r.value.env)
  }

  lemma EvalFrame(n: Node, env: Env, fuel: nat)
    requires |env| > 0
    ensures Framed(env, Eval(n, env, fuel))
    decreases fuel, 0, 2
  {
    if fuel > 0 {
      match n
      case VarDeclaration(constant, varType, identifier, initializer) =>
        VarDeclarationFrame(constant, varType, identifier, initializer, env, fuel - 1);
      case UnaryIdentifierBefore(identifier, operator) => IncrementFrame(identifier, operator, env);
      case UnaryIdentifierAfter(identifier, operator) => IncrementFrame(identifier, operator, env);
      case FunctionDeclaration(parameters, _, identifier, body) =>
        var f := FunctionValue(identifier, parameters, body);
        if Declare(env, identifier, f, true).Success? {
          DeclareFrame(env, identifier, f, true);
        }
      case NumericLiteral(_, _) => FrameReflexive(env);
      case StringLiteral(_) => FrameReflexive(env);
      case Identifier(_) => FrameReflexive(env);
      case Break => FrameReflexive(env);
      case FloatLiteral(_) =>
      case Unreachable =>
      case Member(_, _, _) =>
      case ObjectLiteral(_) =>
      case Binary(_, _, _) => OperatorFrame(n, env, fuel);
      case UnaryBefore(_, _) => OperatorFrame(n, env, fuel);
      case Assignment(_, _, _) => OperatorFrame(n, env, fuel);
      case Call(_, _) => OperatorFrame(n, env, fuel);
      case Return(_) => OperatorFrame(n, env, fuel);
      case _ => FlowFrame(n, env, fuel);
    }
  }

  /** Operators, assignments, calls and `return`. */
  lemma OperatorFrame(n: Node, env: Env, fuel: nat)
    requires |env| > 0 && fuel > 0
    requires n.Binary? || n.UnaryBefore? || n.Assignment? || n.Call? || n.Return?
    ensures Framed(env, Eval(n, env, fuel))
    decreases fuel, 0, 1
  {
    match n
    case Binary(left, right, operator) => BinaryFrame(left, right, operator, env, fuel - 1);
    case UnaryBefore(expr, operator) => UnaryBeforeFrame(expr, operator, env, fuel - 1);
    case Assignment(assignee, value, operator) => AssignmentFrame(assignee, value, operator, env, fuel - 1);
    case Call(caller, arguments) => CallFrame(caller, arguments, env, fuel - 1);
    case Return(returned) => ReturnValueFrame(returned, env, fuel - 1);
  }

  /** Programs, blocks and the control flow built on blocks. */
  lemma FlowFrame(n: Node, env: Env, fuel: nat)
    requires |env| > 0 && fuel > 0
    requires n.Program? || n.If? || n.While? || n.For? || n.BlockExpression?
    ensures Framed(env, Eval(n, env, fuel))
    decreases fuel, 0, 0
  {
    match n
    case Program(body) => RunProgramFrame(body, env, fuel - 1);
    case If(condition, positiveCase, negativeCase) => IfFrame(condition, positiveCase, negativeCase, env, fuel - 1);
    case While(condition, loopBody) => WhileFrame(condition, loopBody, env, fuel - 1);
    case For(loopVariable, quantityMin, quantityMax, loopBody) =>
      ForFrame(loopVariable, quantityMin, quantityMax, loopBody, env, fuel - 1);
    case BlockExpression(body) => RunBlockKeeps(body, env, fuel - 1);
  }

  lemma VarDeclarationFrame(constant: bool, varType: Type, identifier: string, initializer: Option<Node>,
                            env: Env, fuel: nat)
    requires |env| > 0
    ensures var r := EvalVarDeclaration(constant, varType, identifier, initializer, env, fuel);
            r.Success? ==> Frame(env, r.value.env)
    decreases fuel, 5, 0
  {
    FrameReflexive(env);
    if IsInt(varType) {
      var init := if initializer.Some? then Eval(initializer.value, env, fuel) else Success(Done(NumberValue(0), env));
      if initializer.Some? {
        EvalFrame(initializer.value, env, fuel);
      }
      if init.Success? {
        var d := init.value;
        if Declare(d.env, identifier, d.value, constant).Success? {
          DeclareFrame(d.env, identifier, d.value, constant);
          FrameTransitive(env, d.env, Declare(d.env, identifier, d.value, constant).value);
        }
      }
    }
  }

  lemma BinaryFrame(left: Node, right: Node, operator: string, env: Env, fuel: nat)
    requires |env| > 0
    ensures Framed(env, EvalBinary(left, right, operator, env, fuel))
    decreases fuel, 5, 0
  {
    EvalFrame(left, env, fuel);
    var a := Eval(left, env, fuel);
    if a.Success? {
      EvalFrame(right, a.value.env, fuel);
      var b := Eval(right, a.value.env, fuel);
      if b.Success? {
        FrameTransitive(env, a.value.env, b.value.env);
      }
    }
  }

  lemma UnaryBeforeFrame(expr: Node, operator: string, env: Env, fuel: nat)
    requires |env| > 0
    ensures Framed(env, EvalUnaryBefore(expr, operator, env, fuel))
    decreases fuel, 5, 0
  {
    EvalFrame(expr, env, fuel);
  }

  /** `++` and `--` only reassign: they declare nothing. */
  lemma IncrementFrame(identifier: string, operator: string, env: Env)
    requires |env| > 0
    ensures var r := IncrementBefore(identifier, operator, env); r.Success? ==> Keeps(env, r.value.env)
    ensures var r := IncrementAfter(identifier, operator, env); r.Success? ==> Keeps(env, r.value.env)
    decreases 0, 5, 0
  {
    var original := Lookup(env, identifier);
    if original.Success? && (operator == "++" || operator == "--") {
      var stepped := Step(original.value, Delta(operator));
      if stepped.Success? && Assign(env, identifier, stepped.value).Success? {
        AssignFrame(env, identifier, stepped.value);
      }
    }
  }

  lemma AssignmentFrame(assignee: Node, value: Node, operator: string, env: Env, fuel: nat)
    requires |env| > 0
    ensures Framed(env, EvalAssignment(assignee, value, operator, env, fuel))
    decreases fuel, 5, 0
  {
    if assignee.Identifier? {
      EvalFrame(value, env, fuel);
      var right := Eval(value, env, fuel);
      var r := EvalAssignment(assignee, value, operator, env, fuel);
      if r.Success? {
        var e := right.value.env;
        var stored := r.value.value;
        assert Assign(e, assignee.symbol, stored) == Success(r.value.env);
        AssignFrame(e, assignee.symbol, stored);
        FrameTransitive(env, e, r.value.env);
      }
    }
  }

  lemma CallFrame(caller: Node, arguments: seq<Node>, env: Env, fuel: nat)
    requires |env| > 0
    ensures Framed(env, EvalCall(caller, arguments, env, fuel))
    decreases fuel, 5, 0
  {
    EvalFrame(caller, env, fuel);
    var f := Eval(caller, env, fuel);
    if f.Success? && f.value.value.FunctionValue? {
      CallFunctionFrame(f.value.value, arguments, f.value.env, fuel);
      var c := CallFunction(f.value.value, arguments, f.value.env, fuel);
      if c.Success? {
        FrameTransitive(env, f.value.env, c.value.env);
      }
    }
  }

  /** A call leaves the caller's chain as a frame of it: the callee's scope is
      dropped. */
  lemma CallFunctionFrame(f: Value, arguments: seq<Node>, env: Env, fuel: nat)
    requires f.FunctionValue? && |env| > 0
    ensures Framed(env, CallFunction(f, arguments, env, fuel))
    decreases fuel, 4, 0
  {
    BindArgumentsFrame(f.parameters, arguments, 0, Push(env), fuel);
    var stack := BindArguments(f.parameters, arguments, 0, Push(env), fuel);
    if stack.Success? {
      var s := stack.value;
      RunBodyFrame(f.body, 0, s, fuel);
      var result := RunBody(f.body, 0, s, fuel);
      if result.Success? {
        PopKeeps(s, result.value.env);
        assert Push(env)[1..] == env;
        FrameTransitive(env, s[1..], result.value.env[1..]);
      }
    }
  }

  lemma BindArgumentsFrame(parameters: seq<Parameter>, arguments: seq<Node>, i: nat, stack: Env, fuel: nat)
    requires |stack| > 1
    ensures var r := BindArguments(parameters, arguments, i, stack, fuel);
            r.Success? ==> Frame(stack[1..], r.value[1..])
    decreases fuel, 2, |parameters| + |arguments| - i
  {
    FrameReflexive(stack[1..]);
    if i < |parameters| && IsInt(parameters[i].paramType) {
      var p := parameters[i];
      var v := if i < |arguments| then Eval(arguments[i], stack[1..], fuel)
               else if p.default.Some? then Eval(p.default.value, stack[1..], fuel)
               else Failure(MissingArgument);
      if i < |arguments| {
        EvalFrame(arguments[i], stack[1..], fuel);
      } else if p.default.Some? {
        EvalFrame(p.default.value, stack[1..], fuel);
      }
      if v.Success? {
        var d := Declare([stack[0]] + v.value.env, ValueText(p.identifier.value), v.value.value, false);
        if d.Success? {
          var stack' := d.value;
          assert stack'[1..] == v.value.env;
          BindArgumentsFrame(parameters, arguments, i + 1, stack', fuel);
          var r := BindArguments(parameters, arguments, i + 1, stack', fuel);
          if r.Success? {
            FrameTransitive(stack[1..], v.value.env, r.value[1..]);
          }
        }
      }
    }
  }

  lemma RunBodyFrame(body: seq<Node>, i: nat, env: Env, fuel: nat)
    requires |env| > 0 && i <= |body|
    ensures Framed(env, RunBody(body, i, env, fuel))
    decreases fuel, 1, |body| - i
  {
    FrameReflexive(env);
    if i < |body| {
      if body[i].Return? {
        ReturnValueFrame(body[i].returned, env, fuel);
      } else if !body[i].Break? {
        EvalFrame(body[i], env, fuel);
        var x := Eval(body[i], env, fuel);
        if x.Success? {
          RunBodyFrame(body, i + 1, x.value.env, fuel);
          var r := RunBody(body, i + 1, x.value.env, fuel);
          if r.Success? {
            FrameTransitive(env, x.value.env, r.value.env);
          }
        }
      }
    }
  }

  lemma ReturnValueFrame(returned: Option<Node>, env: Env, fuel: nat)
    requires |env| > 0
    ensures Framed(env, ReturnValue(returned, env, fuel))
    decreases fuel, 1, 0
  {
    FrameReflexive(env);
    if returned.Some? {
      EvalFrame(returned.value, env, fuel);
    }
  }

  /** A block declares nothing outside itself: its scope is dropped. */
  lemma RunBlockKeeps(body: seq<Node>, env: Env, fuel: nat)
    requires |env| > 0
    ensures var r := RunBlock(body, env, fuel); r.Success? ==> Keeps(env, r.value.env)
    decreases fuel, 2, 0
  {
    BlockStatementsFrame(body, 0, Push(env), fuel);
    var x := BlockStatements(body, 0, Push(env), fuel);
    if x.Success? {
      PopKeeps(Push(env), x.value.env);
      assert Push(env)[1..] == env;
    }
  }

  lemma BlockStatementsFrame(body: seq<Node>, i: nat, env: Env, fuel: nat)
    requires |env| > 0 && i <= |body|
    ensures var r := BlockStatements(body, i, env, fuel); r.Success? ==> Frame(env, r.value.env)
    decreases fuel, 1, |body| - i
  {
    FrameReflexive(env);
    if i < |body| {
      if body[i].Return? {
        ReturnValueFrame(body[i].returned, env, fuel);
      } else if !body[i].Break? {
        EvalFrame(body[i], env, fuel);
        var x := Eval(body[i], env, fuel);
        if x.Success? {
          BlockStatementsFrame(body, i + 1, x.value.env, fuel);
          var r := BlockStatements(body, i + 1, x.value.env, fuel);
          if r.Success? {
            FrameTransitive(env, x.value.env, r.value.env);
          }
        }
      }
    }
  }

  lemma IfFrame(condition: Node, positiveCase: Node, negativeCase: Option<Node>, env: Env, fuel: nat)
    requires |env| > 0
    ensures Framed(env, EvalIf(condition, positiveCase, negativeCase, env, fuel))
    decreases fuel, 5, 0
  {
    EvalFrame(condition, env, fuel);
    var c := Eval(condition, env, fuel);
    var r := EvalIf(condition, positiveCase, negativeCase, env, fuel);
    if r.Success? {
      IfOutcome(condition, positiveCase, negativeCase, env, fuel);
      var e := c.value.env;
      IfBranchesFrame(positiveCase, negativeCase, e, fuel);
      if r.value.env != e {
        FrameTransitive(env, e, r.value.env);
      }
    }
  }

  /** A successful `if` leaves the environment its condition left, or the one
      its positive block or its negative case left. */
  lemma IfOutcome(condition: Node, positiveCase: Node, negativeCase: Option<Node>, env: Env, fuel: nat)
    requires |env| > 0
    ensures var r := EvalIf(condition, positiveCase, negativeCase, env, fuel);
            r.Success? ==>
              var c := Eval(condition, env, fuel);
              c.Success?
              && (r.value.env == c.value.env
                  || (BodyOf(positiveCase).Success? && RunBlock(BodyOf(positiveCase).value, c.value.env, fuel).Success?
                      && r.value.env == RunBlock(BodyOf(positiveCase).value, c.value.env, fuel).value.env)
                  || (negativeCase.Some? && Eval(negativeCase.value, c.value.env, fuel).Success?
                      && r.value.env == Eval(negativeCase.value, c.value.env, fuel).value.env))
  {
  }

  /** Whichever branch runs keeps the frame of the environment the condition left. */
  lemma IfBranchesFrame(positiveCase: Node, negativeCase: Option<Node>, e: Env, fuel: nat)
    requires |e| > 0
    ensures BodyOf(positiveCase).Success? && RunBlock(BodyOf(positiveCase).value, e, fuel).Success?
            ==> Frame(e, RunBlock(BodyOf(positiveCase).value, e, fuel).value.env)
    ensures negativeCase.Some? ==> Framed(e, Eval(negativeCase.value, e, fuel))
    decreases fuel, 4, 1
  {
    FrameReflexive(e);
    if BodyOf(positiveCase).Success? {
      RunBlockKeeps(BodyOf(positiveCase).value, e, fuel);
    }
    if negativeCase.Some? {
      EvalFrame(negativeCase.value, e, fuel);
    }
  }

  lemma WhileFrame(condition: Node, loopBody: Node, env: Env, fuel: nat)
    requires |env| > 0
    ensures Framed(env, WhileLoop(condition, loopBody, env, fuel))
    decreases fuel, 3, 0
  {
    EvalFrame(condition, env, fuel);
    var c := Eval(condition, env, fuel);
    if c.Success? && PayloadOf(c.value.value).Success? && Truthy(PayloadOf(c.value.value).value)
       && BodyOf(loopBody).Success? {
      IterationFrame(condition, loopBody, env, c.value.env, fuel);
    }
  }

  /** A `while` iteration after its condition held, and the iterations after it. */
  lemma IterationFrame(condition: Node, loopBody: Node, env: Env, e: Env, fuel: nat)
    requires |env| > 0 && Frame(env, e) && BodyOf(loopBody).Success?
    ensures var x := RunBlock(BodyOf(loopBody).value, e, fuel);
            x.Success? ==> Frame(env, x.value.env)
                           && (fuel > 0 ==> Framed(env, WhileLoop(condition, loopBody, x.value.env, fuel - 1)))
    decreases fuel, 2, 1
  {
    RunBlockKeeps(BodyOf(loopBody).value, e, fuel);
    var x := RunBlock(BodyOf(loopBody).value, e, fuel);
    if x.Success? {
      FrameTransitive(env, e, x.value.env);
      if fuel > 0 {
        WhileFrame(condition, loopBody, x.value.env, fuel - 1);
        var r := WhileLoop(condition, loopBody, x.value.env, fuel - 1);
        if r.Success? {
          FrameTransitive(env, x.value.env, r.value.env);
        }
      }
    }
  }

  lemma ForFrame(loopVariable: string, quantityMin: Node, quantityMax: Node, loopBody: Node, env: Env, fuel: nat)
    requires |env| > 0
    ensures var r := EvalFor(loopVariable, quantityMin, quantityMax, loopBody, env, fuel);
            r.Success? ==> Frame(env, r.value.env)
    decreases fuel, 5, 0
  {
    var r := EvalFor(loopVariable, quantityMin, quantityMax, loopBody, env, fuel);
    if r.Success? {
      ForOutcome(loopVariable, quantityMin, quantityMax, loopBody, env, fuel);
      EvalFrame(quantityMin, env, fuel);
      var lo := Eval(quantityMin, env, fuel);
      EvalFrame(quantityMax, lo.value.env, fuel);
      var hi := Eval(quantityMax, lo.value.env, fuel);
      FrameTransitive(env, lo.value.env, hi.value.env);
      var low, high := AsInt(PayloadOf(lo.value.value).value), AsInt(PayloadOf(hi.value.value).value);
      var scope := Declare(Push(hi.value.env), loopVariable, NumberValue(0), false).value;
      ForLoopFrame(loopVariable, low, high, loopBody, scope, fuel);
      var x := ForLoop(loopVariable, low, high, loopBody, scope, fuel);
      PopKeeps(scope, x.value.env);
      assert scope[1..] == hi.value.env;
      FrameTransitive(env, hi.value.env, x.value.env[1..]);
    }
  }

  /** A successful `for` read both bounds as integers and ran its iterations
      in a scope over the environment the bounds left, which it then drops. */
  lemma ForOutcome(loopVariable: string, quantityMin: Node, quantityMax: Node, loopBody: Node, env: Env, fuel: nat)
    requires |env| > 0
    ensures var r := EvalFor(loopVariable, quantityMin, quantityMax, loopBody, env, fuel);
            r.Success? ==>
              var lo := Eval(quantityMin, env, fuel);
              lo.Success? && |lo.value.env| == |env|
              && var hi := Eval(quantityMax, lo.value.env, fuel);
                 hi.Success? && PayloadOf(lo.value.value).Success? && PayloadOf(hi.value.value).Success?
                 && IntLike(PayloadOf(lo.value.value).value) && IntLike(PayloadOf(hi.value.value).value)
                 && Declare(Push(hi.value.env), loopVariable, NumberValue(0), false).Success?
                 && var scope := Declare(Push(hi.value.env), loopVariable, NumberValue(0), false).value;
                    var x := ForLoop(loopVariable, AsInt(PayloadOf(lo.value.value).value),
                                     AsInt(PayloadOf(hi.value.value).value), loopBody, scope, fuel);
                    x.Success? && r.value.env == x.value.env[1..]
  {
  }

  lemma ForLoopFrame(loopVariable: string, i: int, max: int, loopBody: Node, env: Env, fuel: nat)
    requires |env| > 0
    ensures Framed(env, ForLoop(loopVariable, i, max, loopBody, env, fuel))
    decreases fuel, 3, if i < max then max - i else 0
  {
    if i >= max {
      FrameReflexive(env);
    } else if Assign(env, loopVariable, NumberValue(i)).Success? && BodyOf(loopBody).Success? {
      ForStepFrame(loopVariable, i, loopBody, env, fuel);
      var x := RunBlock(BodyOf(loopBody).value, Assign(env, loopVariable, NumberValue(i)).value, fuel);
      if x.Success? {
        ForLoopFrame(loopVariable, i + 1, max, loopBody, x.value.env, fuel);
        var r := ForLoop(loopVariable, i + 1, max, loopBody, x.value.env, fuel);
        if r.Success? {
          FrameTransitive(env, x.value.env, r.value.env);
        }
      }
    }
  }

  /** One `for` iteration: the loop variable is reassigned, then the body runs. */
  lemma ForStepFrame(loopVariable: string, i: int, loopBody: Node, env: Env, fuel: nat)
    requires |env| > 0 && Assign(env, loopVariable, NumberValue(i)).Success? && BodyOf(loopBody).Success?
    ensures var x := RunBlock(BodyOf(loopBody).value, Assign(env, loopVariable, NumberValue(i)).value, fuel);
            x.Success? ==> Frame(env, x.value.env)
    decreases fuel, 2, 1
  {
    var env' := Assign(env, loopVariable, NumberValue(i)).value;
    AssignFrame(env, loopVariable, NumberValue(i));
    RunBlockKeeps(BodyOf(loopBody).value, env', fuel);
    var x := RunBlock(BodyOf(loopBody).value, env', fuel);
    if x.Success? {
      FrameTransitive(env, env', x.value.env);
    }
  }

  lemma RunProgramFrame(body: seq<Node>, env: Env, fuel: nat)
    requires |env| > 0
    ensures Framed(env, RunProgram(body, env, fuel))
    decreases fuel, 4, 0
  {
    FirstPassFrame(body, 0, env, NoneValue, [], fuel);
    var first := FirstPass(body, 0, env, NoneValue, [], fuel);
    if first.Success? {
      var p := first.value;
      RunSequenceFrame(p.deferred, 0, p.env, p.last, fuel);
      var r := RunSequence(p.deferred, 0, p.env, p.last, fuel);
      if r.Success? {
        FrameTransitive(env, p.env, r.value.env);
      }
    }
  }

  lemma FirstPassFrame(body: seq<Node>, i: nat, env: Env, last: Value, deferred: seq<Node>, fuel: nat)
    requires |env| > 0 && i <= |body|
    ensures var r := FirstPass(body, i, env, last, deferred, fuel); r.Success? ==> Frame(env, r.value.env)
    decreases fuel, 1, |body| - i
  {
    FrameReflexive(env);
    if i < |body| {
      if body[i].Call? {
        FirstPassFrame(body, i + 1, env, last, deferred + [body[i]], fuel);
      } else {
        EvalFrame(body[i], env, fuel);
        var x := Eval(body[i], env, fuel);
        if x.Success? {
          FirstPassFrame(body, i + 1, x.value.env, x.value.value, deferred, fuel);
          var r := FirstPass(body, i + 1, x.value.env, x.value.value, deferred, fuel);
          if r.Success? {
            FrameTransitive(env, x.value.env, r.value.env);
          }
        }
      }
    }
  }

  lemma RunSequenceFrame(stmts: seq<Node>, i: nat, env: Env, last: Value, fuel: nat)
    requires |env| > 0 && i <= |stmts|
    ensures Framed(env, RunSequence(stmts, i, env, last, fuel))
    decreases fuel, 1, |stmts| - i
  {
    FrameReflexive(env);
    if i < |stmts| {
      EvalFrame(stmts[i], env, fuel);
      var x := Eval(stmts[i], env, fuel);
      if x.Success? {
        RunSequenceFrame(stmts, i + 1, x.value.env, x.value.value, fuel);
        var r := RunSequence(stmts, i + 1, x.value.env, x.value.value, fuel);
        if r.Success? {
          FrameTransitive(env, x.value.env, r.value.env);
        }
      }
    }
  }
}

=== FILE: interpreter_properties.dfy ===
/** Properties of the interpreter model: what declarations, increments and
    assignments store, the evaluation order of operators, how blocks, loops
    and calls use their scopes, and the deferral of top-level calls. */
module InterpreterProperties {
  import opened Wrappers
  import opened Tokens
  import opened Ast
  import opened Parser
  import opened Values
  import opened Environment
  import opened Interpreter
  import opened InterpreterFrame

  const IntType: Type := Type("int", true)

  // ---------------------------------------------------------------------------
  // Declarations

  /** `var int x` without an initializer binds 0. */
  lemma VarDefaultsToZero(env: Env, name: string, constant: bool, fuel: nat)
    requires |env| > 0 && fuel > 0 && name !in env[0].vars
    ensures var r := Eval(VarDeclaration(constant, IntType, name, None), env, fuel);
            r.Success? && r.value.value == NumberValue(0) && Lookup(r.value.env, name) == Success(NumberValue(0))
  {
    DeclareThenLookup(env, name, NumberValue(0), constant);
  }

  /** Only variables of the builtin `int` type can be declared; the
      initializer is not evaluated for any other type, nor for an `int` that
      was read as an identifier. */
  lemma VarNeedsInt(env: Env, constant: bool, t: Type, name: string, init: Option<Node>, fuel: nat)
    requires |env| > 0 && fuel > 0 && !IsInt(t)
    ensures Eval(VarDeclaration(constant, t, name, init), env, fuel) == Failure(TypeNotImplemented(t.name))
  {
  }

  /** `var int x` with an `int` the lexer read as an identifier fails, as
      `is lexer.INT` does for a string that is not the builtin token's. */
  lemma VarRejectsIdentifierInt(env: Env, constant: bool, name: string, init: Option<Node>, fuel: nat)
    requires |env| > 0 && fuel > 0
    ensures Eval(VarDeclaration(constant, Type("int", false), name, init), env, fuel) == Failure(TypeNotImplemented("int"))
  {
    VarNeedsInt(env, constant, Type("int", false), name, init, fuel);
  }

  /** Declaring a name the innermost scope already binds fails. */
  lemma VarRedeclared(env: Env, constant: bool, name: string, fuel: nat)
    requires |env| > 0 && fuel > 0 && name in env[0].vars
    ensures Eval(VarDeclaration(constant, IntType, name, None), env, fuel) == Failure(AlreadyDefined(name))
  {
  }

  /** A function declaration binds a constant: assigning to its name fails. */
  lemma FunctionIsConstant(env: Env, params: seq<Parameter>, result: Option<Type>, name: string,
                           body: seq<Node>, v: Value, fuel: nat)
    requires |env| > 0 && fuel > 0 && name !in env[0].vars
    ensures var r := Eval(FunctionDeclaration(params, result, name, body), env, fuel);
            r.Success? && r.value.value == FunctionValue(name, params, body)
            && Lookup(r.value.env, name) == Success(FunctionValue(name, params, body))
            && Assign(r.value.env, name, v) == Failure(IsConstant(name))
  {
    DeclareThenLookup(env, name, FunctionValue(name, params, body), true);
    ConstantRejectsAssign(env, name, v, FunctionValue(name, params, body));
  }

  // ---------------------------------------------------------------------------
  // Increments and assignments

  /** `++x` / `--x` store the stepped number and evaluate to it. */
  lemma PrefixStepStores(env: Env, x: string, n: int, op: string, fuel: nat)
    requires |env| > 0 && fuel > 0 && (op == "++" || op == "--")
    requires Lookup(env, x) == Success(NumberValue(n)) && !IsConstantIn(env, x)
    ensures var r := Eval(UnaryIdentifierBefore(x, op), env, fuel);
            r.Success? && r.value.value == NumberValue(n + Delta(op))
            && Lookup(r.value.env, x) == Success(NumberValue(n + Delta(op)))
  {
    assert Eval(UnaryIdentifierBefore(x, op), env, fuel) == IncrementBefore(x, op, env);
    assert Assign(env, x, NumberValue(n + Delta(op))).Success?;
  }

  /** `x++` / `x--` store the stepped number but evaluate to the original. */
  lemma PostfixStepStores(env: Env, x: string, n: int, op: string, fuel: nat)
    requires |env| > 0 && fuel > 0 && (op == "++" || op == "--")
    requires Lookup(env, x) == Success(NumberValue(n)) && !IsConstantIn(env, x)
    ensures var r := Eval(UnaryIdentifierAfter(x, op), env, fuel);
            r.Success? && r.value.value == NumberValue(n)
            && Lookup(r.value.env, x) == Success(NumberValue(n + Delta(op)))
  {
    IncrementAfterStores(env, x, n, op);
    assert Eval(UnaryIdentifierAfter(x, op), env, fuel) == IncrementAfter(x, op, env);
  }

  /** The postfix step itself, before it is reached through `Eval`. */
  lemma IncrementAfterStores(env: Env, x: string, n: int, op: string)
    requires |env| > 0 && (op == "++" || op == "--")
    requires Lookup(env, x) == Success(NumberValue(n)) && !IsConstantIn(env, x)
    ensures var r := IncrementAfter(x, op, env);
            r.Success? && r.value.value == NumberValue(n)
            && Lookup(r.value.env, x) == Success(NumberValue(n + Delta(op)))
  {
    assert Step(NumberValue(n), Delta(op)) == Success(NumberValue(n + Delta(op)));
    AssignThenLookup(env, x, NumberValue(n + Delta(op)));
  }

  /** Incrementing a constant fails and changes nothing. */
  lemma StepRejectsConstant(env: Env, x: string, n: int, op: string, fuel: nat)
    requires |env| > 0 && fuel > 0 && (op == "++" || op == "--")
    requires Lookup(env, x) == Success(NumberValue(n)) && IsConstantIn(env, x)
    ensures Eval(UnaryIdentifierBefore(x, op), env, fuel) == Failure(IsConstant(x))
    ensures Eval(UnaryIdentifierAfter(x, op), env, fuel) == Failure(IsConstant(x))
  {
  }

  /** `x op= e` evaluates `e`, then stores and returns `x op e`. */
  lemma CompoundStores(env: Env, x: string, a: int, b: int, raw: string, op: string, fuel: nat)
    requires |env| > 0 && fuel > 1 && CompoundBase(op).Some?
    requires Lookup(env, x) == Success(NumberValue(a)) && !IsConstantIn(env, x)
    requires ApplyBinary(CompoundBase(op).value, NumberValue(a), NumberValue(b)).Success?
    ensures var v := ApplyBinary(CompoundBase(op).value, NumberValue(a), NumberValue(b)).value;
            var r := Eval(Assignment(Node.Identifier(x), NumericLiteral(b, raw), op), env, fuel);
            r.Success? && r.value.value == v && Lookup(r.value.env, x) == Success(v)
  {
    var v := ApplyBinary(CompoundBase(op).value, NumberValue(a), NumberValue(b)).value;
    assert Eval(NumericLiteral(b, raw), env, fuel - 1) == Success(Done(NumberValue(b), env));
    assert Assign(env, x, v).Success?;
    AssignThenLookup(env, x, v);
    assert EvalAssignment(Node.Identifier(x), NumericLiteral(b, raw), op, env, fuel - 1)
        == Success(Done(v, Assign(env, x, v).value));
  }

  /** Plain `x = e` stores and returns the value of `e`. */
  lemma AssignStores(env: Env, x: string, b: int, raw: string, fuel: nat)
    requires |env| > 0 && fuel > 1 && Bound(env, x) && !IsConstantIn(env, x)
    ensures var r := Eval(Assignment(Node.Identifier(x), NumericLiteral(b, raw), "="), env, fuel);
            r.Success? && r.value.value == NumberValue(b) && Lookup(r.value.env, x) == Success(NumberValue(b))
  {
    assert Eval(NumericLiteral(b, raw), env, fuel - 1) == Success(Done(NumberValue(b), env));
    AssignThenLookup(env, x, NumberValue(b));
    assert EvalAssignment(Node.Identifier(x), NumericLiteral(b, raw), "=", env, fuel - 1)
        == Success(Done(NumberValue(b), Assign(env, x, NumberValue(b)).value));
  }

  /** Only an identifier can be assigned to; the right side is not evaluated. */
  lemma AssignNeedsIdentifier(env: Env, target: Node, value: Node, op: string, fuel: nat)
    requires |env| > 0 && fuel > 0 && !target.Identifier?
    ensures Eval(Assignment(target, value, op), env, fuel) == Failure(NotAssignable)
  {
  }

  // ---------------------------------------------------------------------------
  // Operators

  /** Both operand expressions are evaluated, the left one first, whatever the
      operator: `or` and `and` do not short-circuit the evaluation, only the
      reading of the right operand's payload. */
  lemma NoShortCircuit(env: Env, left: Node, right: Node, op: string, fuel: nat)
    requires |env| > 0 && fuel > 0
    ensures Eval(left, env, fuel - 1).Failure?
            ==> Eval(Binary(left, right, op), env, fuel) == Failure(Eval(left, env, fuel - 1).error)
    ensures var a := Eval(left, env, fuel - 1);
            a.Success? && Eval(right, a.value.env, fuel - 1).Failure?
            ==> Eval(Binary(left, right, op), env, fuel) == Failure(Eval(right, a.value.env, fuel - 1).error)
  {
  }

  /** `1 or y` with `y` unbound fails, although the left side is already true. */
  lemma OrEvaluatesRight(env: Env, y: string, fuel: nat)
    requires |env| > 0 && fuel > 1 && !Bound(env, y)
    ensures Eval(Binary(NumericLiteral(1, "1"), Node.Identifier(y), "or"), env, fuel) == Failure(Undefined(y))
  {
    NoShortCircuit(env, NumericLiteral(1, "1"), Node.Identifier(y), "or", fuel);
  }

  /** With `f` bound to a function, `1 or f` is true, since the right payload
      is never read, while `0 or f` reads it and fails. */
  lemma OrSkipsRightPayload(env: Env, f: string, fuel: nat)
    requires |env| > 0 && fuel > 1 && Lookup(env, f).Success? && Lookup(env, f).value.FunctionValue?
    ensures Eval(Binary(NumericLiteral(1, "1"), Node.Identifier(f), "or"), env, fuel) == Success(Done(BooleanValue(true), env))
    ensures Eval(Binary(NumericLiteral(0, "0"), Node.Identifier(f), "or"), env, fuel) == Failure(NoValueAttribute)
  {
    var g := Lookup(env, f).value;
    assert Eval(Node.Identifier(f), env, fuel - 1) == Success(Done(g, env));
    assert Eval(NumericLiteral(1, "1"), env, fuel - 1) == Success(Done(NumberValue(1), env));
    assert Eval(NumericLiteral(0, "0"), env, fuel - 1) == Success(Done(NumberValue(0), env));
    assert ApplyBinary("or", NumberValue(1), g) == Success(BooleanValue(true));
    assert ApplyBinary("or", NumberValue(0), g) == Failure(NoValueAttribute);
  }

  // ---------------------------------------------------------------------------
  // Blocks

  /** A block hands back the environment it was given: whatever it declares
      is dropped with its scope, so it binds no new name outside. */
  lemma BlockDoesNotLeak(body: seq<Node>, env: Env, fuel: nat, name: string)
    requires |env| > 0
    ensures var r := Eval(BlockExpression(body), env, fuel);
            r.Success? ==> Keeps(env, r.value.env) && (Bound(r.value.env, name) <==> Bound(env, name))
  {
    var r := Eval(BlockExpression(body), env, fuel);
    if r.Success? {
      RunBlockKeeps(body, env, fuel - 1);
      KeepsBound(env, r.value.env, name);
    }
  }

  const One: Node := NumericLiteral(1, "1")

  /** The condition `1` is true. */
  lemma OneIsTrue(env: Env, fuel: nat)
    requires |env| > 0 && fuel > 0
    ensures Eval(One, env, fuel) == Success(Done(NumberValue(1), env))
    ensures PayloadOf(NumberValue(1)) == Success(PInt(1)) && Truthy(PInt(1))
  {
  }

  /** `if 1 { int a = 456 }`: the declaration inside the branch shadows any
      outer `a` only until the block ends; the environment comes back as it was. */
  lemma IfBlockShadows(env: Env, a: string, fuel: nat)
    requires |env| > 0 && fuel > 2
    ensures Eval(If(One, BlockExpression([VarDeclaration(false, IntType, a, Some(NumericLiteral(456, "456")))]), None),
                 env, fuel)
            == Success(Done(NoneValue, env))
  {
    var init := NumericLiteral(456, "456");
    var decl := VarDeclaration(false, IntType, a, Some(init));
    var body := [decl];
    assert Push(env)[0] == EmptyScope;
    assert Declare(Push(env), a, NumberValue(456), false).Success?;
    var inner := Declare(Push(env), a, NumberValue(456), false).value;
    assert inner[1..] == env;
    assert Eval(init, Push(env), fuel - 2) == Success(Done(NumberValue(456), Push(env)));
    assert EvalVarDeclaration(false, IntType, a, Some(init), Push(env), fuel - 2) == Success(Done(NumberValue(456), inner));
    assert Eval(decl, Push(env), fuel - 1) == Success(Done(NumberValue(456), inner));
    assert BlockStatements(body, 1, inner, fuel - 1) == Success(Exit(0, None, inner));
    assert BlockStatements(body, 0, Push(env), fuel - 1) == Success(Exit(0, None, inner));
    assert RunBlock(body, env, fuel - 1) == Success(Exit(0, None, env));
    OneIsTrue(env, fuel - 1);
    assert EvalIf(One, BlockExpression(body), None, env, fuel - 1) == Success(Done(NoneValue, env));
  }

  /** A block stops at its first `return` and hands out the returned value. */
  lemma BlockStopsAtReturn(k: int, raw: string, rest: seq<Node>, env: Env, fuel: nat)
    requires |env| > 0 && fuel > 0
    ensures RunBlock([Return(Some(NumericLiteral(k, raw)))] + rest, env, fuel)
            == Success(Exit(1, Some(NumberValue(k)), env))
  {
    var lit := NumericLiteral(k, raw);
    var body := [Return(Some(lit))] + rest;
    assert body[0] == Return(Some(lit));
    assert Push(env)[1..] == env;
    assert ReturnValue(Some(lit), Push(env), fuel) == Success(Done(NumberValue(k), Push(env)));
    assert BlockStatements(body, 0, Push(env), fuel) == Success(Exit(1, Some(NumberValue(k)), Push(env)));
  }

  /** A block stops at its first `break`. */
  lemma BlockStopsAtBreak(rest: seq<Node>, env: Env, fuel: nat)
    requires |env| > 0
    ensures RunBlock([Break] + rest, env, fuel) == Success(Exit(2, None, env))
  {
    var body := [Break] + rest;
    assert body[0] == Break;
    assert Push(env)[1..] == env;
    assert BlockStatements(body, 0, Push(env), fuel) == Success(Exit(2, None, Push(env)));
  }

  // ---------------------------------------------------------------------------
  // Loops

  /** `if 1 { break }` is an ordinary statement: the `break` ends only the
      branch's block and the `if` evaluates to none. */
  lemma BreakInIfIsLost(env: Env, fuel: nat)
    requires |env| > 0 && fuel > 1
    ensures Eval(If(One, BlockExpression([Break]), None), env, fuel) == Success(Done(NoneValue, env))
  {
    BlockStopsAtBreak([], env, fuel - 1);
    assert [Break] + [] == [Break];
    OneIsTrue(env, fuel - 1);
    assert EvalIf(One, BlockExpression([Break]), None, env, fuel - 1) == Success(Done(NoneValue, env));
  }

  /** Hence `while 1 { if 1 { break } }` never ends: whatever the budget, it
      runs out. */
  lemma {:induction false} BreakInIfNeverEndsWhile(env: Env, fuel: nat)
    requires |env| > 0
    ensures WhileLoop(One, BlockExpression([If(One, BlockExpression([Break]), None)]), env, fuel) == Failure(OutOfFuel)
    decreases fuel
  {
    var stmt := If(One, BlockExpression([Break]), None);
    if fuel > 1 {
      BreakInIfIsLost(Push(env), fuel);
      assert Push(env)[1..] == env;
      assert BlockStatements([stmt], 1, Push(env), fuel) == Success(Exit(0, None, Push(env)));
      assert BlockStatements([stmt], 0, Push(env), fuel) == Success(Exit(0, None, Push(env)));
      assert RunBlock([stmt], env, fuel) == Success(Exit(0, None, env));
      OneIsTrue(env, fuel);
      BreakInIfNeverEndsWhile(env, fuel - 1);
    } else if fuel == 1 {
      assert EvalIf(One, BlockExpression([Break]), None, Push(env), 0) == Failure(OutOfFuel);
      assert Eval(stmt, Push(env), fuel) == Failure(OutOfFuel);
      assert BlockStatements([stmt], 0, Push(env), fuel) == Failure(OutOfFuel);
      OneIsTrue(env, fuel);
    }
  }

  /** A `return` in a loop body ends the loop with the returned value. */
  lemma WhileReturns(k: int, raw: string, env: Env, fuel: nat)
    requires |env| > 0 && fuel > 0
    ensures WhileLoop(One, BlockExpression([Return(Some(NumericLiteral(k, raw)))]), env, fuel)
            == Success(Done(NumberValue(k), env))
  {
    BlockStopsAtReturn(k, raw, [], env, fuel);
    assert [Return(Some(NumericLiteral(k, raw)))] + [] == [Return(Some(NumericLiteral(k, raw)))];
    OneIsTrue(env, fuel);
  }

  /** A false condition ends the loop before its body is looked at. */
  lemma WhileFalse(condition: Node, loopBody: Node, env: Env, fuel: nat)
    requires |env| > 0
    requires var c := Eval(condition, env, fuel);
             c.Success? && PayloadOf(c.value.value).Success? && !Truthy(PayloadOf(c.value.value).value)
    ensures WhileLoop(condition, loopBody, env, fuel) == Success(Done(NoneValue, Eval(condition, env, fuel).value.env))
  {
  }

  /** `for v in lo..hi` with `hi <= lo` runs no iteration and leaves the
      environment as it was, whatever the body. */
  lemma ForZeroIterations(v: string, lo: int, rawLo: string, hi: int, rawHi: string, loopBody: Node, env: Env, fuel: nat)
    requires |env| > 0 && fuel > 1 && hi <= lo
    ensures Eval(For(v, NumericLiteral(lo, rawLo), NumericLiteral(hi, rawHi), loopBody), env, fuel)
            == Success(Done(NoneValue, env))
  {
    assert Push(env)[0] == EmptyScope;
    assert Declare(Push(env), v, NumberValue(0), false).Success?;
    var scope := Declare(Push(env), v, NumberValue(0), false).value;
    assert scope[1..] == env;
    assert Eval(NumericLiteral(lo, rawLo), env, fuel - 1) == Success(Done(NumberValue(lo), env));
    assert Eval(NumericLiteral(hi, rawHi), env, fuel - 1) == Success(Done(NumberValue(hi), env));
    assert ForLoop(v, lo, hi, loopBody, scope, fuel - 1) == Success(Done(NoneValue, scope));
    assert EvalFor(v, NumericLiteral(lo, rawLo), NumericLiteral(hi, rawHi), loopBody, env, fuel - 1)
        == Success(Done(NoneValue, env));
  }

  /** A `while` iteration whose body runs off its end continues with the
      environment the body left, one unit of fuel less. */
  lemma WhileUnrolls(condition: Node, body: seq<Node>, env: Env, env': Env, c: Value, fuel: nat)
    requires |env| > 0 && fuel > 0
    requires Eval(condition, env, fuel) == Success(Done(c, env))
    requires PayloadOf(c).Success? && Truthy(PayloadOf(c).value)
    requires RunBlock(body, env, fuel) == Success(Exit(0, None, env'))
    ensures WhileLoop(condition, BlockExpression(body), env, fuel) == WhileLoop(condition, BlockExpression(body), env', fuel - 1)
  {
  }

  /** A `for` iteration whose body runs off its end continues with the next
      value of the loop variable. */
  lemma ForUnrolls(v: string, i: int, max: int, body: seq<Node>, env: Env, env1: Env, env2: Env, fuel: nat)
    requires |env| > 0 && i < max
    requires Assign(env, v, NumberValue(i)) == Success(env1)
    requires RunBlock(body, env1, fuel) == Success(Exit(0, None, env2))
    ensures ForLoop(v, i, max, BlockExpression(body), env, fuel) == ForLoop(v, i + 1, max, BlockExpression(body), env2, fuel)
  {
  }

  /** `c++` under a fresh inner scope steps the `c` beneath it. */
  lemma PostfixBelowPush(env: Env, c: string, k: int)
    requires Lookup(env, c) == Success(NumberValue(k)) && !IsConstantIn(env, c)
    ensures Assign(env, c, NumberValue(k + 1)).Success?
    ensures IncrementAfter(c, "++", Push(env)) == Success(Done(NumberValue(k), Push(Assign(env, c, NumberValue(k + 1)).value)))
  {
    var stepped := NumberValue(k + 1);
    assert Step(NumberValue(k), Delta("++")) == Success(stepped);
    PushKeepsLookups(env, c);
    AssignBelowPush(env, c, stepped);
  }

  /** The body `{ c++ }` run as a block: `c` is stepped and nothing else changes. */
  lemma IncrementInBlock(env: Env, c: string, k: int, fuel: nat)
    requires |env| > 0 && fuel > 0
    requires Lookup(env, c) == Success(NumberValue(k)) && !IsConstantIn(env, c)
    ensures Assign(env, c, NumberValue(k + 1)).Success?
    ensures RunBlock([UnaryIdentifierAfter(c, "++")], env, fuel)
            == Success(Exit(0, None, Assign(env, c, NumberValue(k + 1)).value))
  {
    PostfixBelowPush(env, c, k);
    var env' := Assign(env, c, NumberValue(k + 1)).value;
    var body := [UnaryIdentifierAfter(c, "++")];
    assert Eval(body[0], Push(env), fuel) == Success(Done(NumberValue(k), Push(env')));
    assert BlockStatements(body, 1, Push(env'), fuel) == Success(Exit(0, None, Push(env')));
    assert BlockStatements(body, 0, Push(env), fuel) == Success(Exit(0, None, Push(env')));
    assert Push(env')[1..] == env';
  }

  /** `c < n` between numbers. */
  lemma LessThan(c: string, n: int, raw: string, env: Env, k: int, fuel: nat)
    requires |env| > 0 && fuel > 1 && Lookup(env, c) == Success(NumberValue(k))
    ensures Eval(Binary(Node.Identifier(c), NumericLiteral(n, raw), "<"), env, fuel)
            == Success(Done(BooleanValue(k < n), env))
  {
    assert Eval(Node.Identifier(c), env, fuel - 1) == Success(Done(NumberValue(k), env));
    assert Eval(NumericLiteral(n, raw), env, fuel - 1) == Success(Done(NumberValue(n), env));
    assert ComparisonOperator("<");
    assert ApplyBinary("<", NumberValue(k), NumberValue(n)) == Success(BooleanValue(k < n));
    assert EvalBinary(Node.Identifier(c), NumericLiteral(n, raw), "<", env, fuel - 1)
        == Success(Done(BooleanValue(k < n), env));
  }

  /** A loop that ended normally, with `c` holding `n`. */
  predicate EndsWithCount(r: Result<Done, Fault>, c: string, n: int) {
    r.Success? && r.value.value == NoneValue && Lookup(r.value.env, c) == Success(NumberValue(n))
  }

  /** One iteration of `while c < n { c++ }` from `c == k < n`, and the
      environment it leaves. */
  lemma WhileCountStep(c: string, n: int, raw: string, env: Env, k: int, fuel: nat) returns (env': Env)
    requires |env| > 0 && k < n && fuel > 1
    requires Lookup(env, c) == Success(NumberValue(k)) && !IsConstantIn(env, c)
    ensures |env'| > 0 && Lookup(env', c) == Success(NumberValue(k + 1)) && !IsConstantIn(env', c)
    ensures WhileLoop(Binary(Node.Identifier(c), NumericLiteral(n, raw), "<"),
                      BlockExpression([UnaryIdentifierAfter(c, "++")]), env, fuel)
            == WhileLoop(Binary(Node.Identifier(c), NumericLiteral(n, raw), "<"),
                         BlockExpression([UnaryIdentifierAfter(c, "++")]), env', fuel - 1)
  {
    LessThan(c, n, raw, env, k, fuel);
    IncrementInBlock(env, c, k, fuel);
    env' := Assign(env, c, NumberValue(k + 1)).value;
    AssignFrame(env, c, NumberValue(k + 1));
    AssignThenLookup(env, c, NumberValue(k + 1));
    AssignKeepsStatus(env, c, NumberValue(k + 1), c);
    WhileUnrolls(Binary(Node.Identifier(c), NumericLiteral(n, raw), "<"), [UnaryIdentifierAfter(c, "++")],
                 env, env', BooleanValue(k < n), fuel);
  }

  /** `while c < n { c++ }` starting from `c == k <= n` ends with `c == n`. */
  lemma {:induction false} WhileCounts(c: string, n: int, raw: string, env: Env, k: int, fuel: nat)
    requires |env| > 0 && k <= n && fuel > n - k + 1
    requires Lookup(env, c) == Success(NumberValue(k)) && !IsConstantIn(env, c)
    ensures EndsWithCount(WhileLoop(Binary(Node.Identifier(c), NumericLiteral(n, raw), "<"),
                               BlockExpression([UnaryIdentifierAfter(c, "++")]), env, fuel), c, n)
    decreases n - k
  {
    if k == n {
      LessThan(c, n, raw, env, k, fuel);
      WhileFalse(Binary(Node.Identifier(c), NumericLiteral(n, raw), "<"),
                 BlockExpression([UnaryIdentifierAfter(c, "++")]), env, fuel);
    } else {
      var env' := WhileCountStep(c, n, raw, env, k, fuel);
      WhileCounts(c, n, raw, env', k + 1, fuel - 1);
    }
  }

  /** A `for` loop that ended normally, with `c` bound beneath the loop's
      scope and holding `n`. */
  predicate EndsBelowWith(r: Result<Done, Fault>, c: string, n: int) {
    r.Success? && r.value.value == NoneValue && |r.value.env| > 0 && c !in r.value.env[0].vars
    && Lookup(r.value.env, c) == Success(NumberValue(n))
  }

  /** One iteration of `for v in i..max { c++ }`, and the environment it
      leaves. */
  lemma ForCountStep(v: string, c: string, env: Env, i: int, max: int, k: int, fuel: nat) returns (env2: Env)
    requires |env| > 0 && fuel > 0 && c != v && i < max
    requires v in env[0].vars && v !in env[0].constants && c !in env[0].vars
    requires Lookup(env, c) == Success(NumberValue(k)) && !IsConstantIn(env, c)
    ensures |env2| > 0 && v in env2[0].vars && v !in env2[0].constants && c !in env2[0].vars
    ensures Lookup(env2, c) == Success(NumberValue(k + 1)) && !IsConstantIn(env2, c)
    ensures ForLoop(v, i, max, BlockExpression([UnaryIdentifierAfter(c, "++")]), env, fuel)
            == ForLoop(v, i + 1, max, BlockExpression([UnaryIdentifierAfter(c, "++")]), env2, fuel)
  {
    assert Resolve(env, v) == Some(0);
    var env1 := Assign(env, v, NumberValue(i)).value;
    AssignKeepsOthers(env, v, NumberValue(i), c);
    AssignKeepsStatus(env, v, NumberValue(i), c);
    AssignFrame(env, v, NumberValue(i));
    assert SameNames(env[0], env1[0]);
    AssignOnlyNearest(env, v, NumberValue(i));
    IncrementInBlock(env1, c, k, fuel);
    env2 := Assign(env1, c, NumberValue(k + 1)).value;
    AssignThenLookup(env1, c, NumberValue(k + 1));
    AssignKeepsStatus(env1, c, NumberValue(k + 1), c);
    AssignFrame(env1, c, NumberValue(k + 1));
    assert SameNames(env1[0], env2[0]);
    AssignOnlyNearest(env1, c, NumberValue(k + 1));
    ForUnrolls(v, i, max, [UnaryIdentifierAfter(c, "++")], env, env1, env2, fuel);
  }

  /** The iterations of `for v in i..max { c++ }`: `c` grows by `max - i`,
      from `k` to `n`. */
  lemma {:induction false} ForLoopCounts(v: string, c: string, i: int, max: int, env: Env, k: int, n: int, fuel: nat)
    requires |env| > 0 && fuel > 0 && c != v && i <= max && n == k + max - i
    requires v in env[0].vars && v !in env[0].constants && c !in env[0].vars
    requires Lookup(env, c) == Success(NumberValue(k)) && !IsConstantIn(env, c)
    ensures EndsBelowWith(ForLoop(v, i, max, BlockExpression([UnaryIdentifierAfter(c, "++")]), env, fuel), c, n)
    decreases max - i
  {
    if i < max {
      var env2 := ForCountStep(v, c, env, i, max, k, fuel);
      ForLoopCounts(v, c, i + 1, max, env2, k + 1, n, fuel);
    }
  }

  /** Entering `for v in lo..hi`: the loop runs in a scope of its own that
      binds only `v`, and the loop's environment is handed back without it. */
  lemma ForEntry(v: string, lo: int, rawLo: string, hi: int, rawHi: string, loopBody: Node, env: Env, fuel: nat)
    returns (scope: Env)
    requires |env| > 0 && fuel > 1
    ensures |scope| > 0 && scope[1..] == env && scope[0].vars.Keys == {v} && scope[0].constants == {}
    ensures var x := ForLoop(v, lo, hi, loopBody, scope, fuel - 1);
            Eval(For(v, NumericLiteral(lo, rawLo), NumericLiteral(hi, rawHi), loopBody), env, fuel)
            == if x.Success? then Success(Done(x.value.value, x.value.env[1..])) else Failure(x.error)
  {
    assert Push(env)[0] == EmptyScope;
    assert Declare(Push(env), v, NumberValue(0), false).Success?;
    scope := Declare(Push(env), v, NumberValue(0), false).value;
    assert scope[1..] == env;
    assert Eval(NumericLiteral(lo, rawLo), env, fuel - 1) == Success(Done(NumberValue(lo), env));
    assert Eval(NumericLiteral(hi, rawHi), env, fuel - 1) == Success(Done(NumberValue(hi), env));
  }

  /** `for v in lo..hi { c++ }` with `lo <= hi` adds `hi - lo` to an outer `c`. */
  lemma ForCounts(v: string, c: string, lo: int, rawLo: string, hi: int, rawHi: string, env: Env, k: int, fuel: nat)
    requires |env| > 0 && fuel > 1 && c != v && lo <= hi
    requires Lookup(env, c) == Success(NumberValue(k)) && !IsConstantIn(env, c)
    ensures EndsWithCount(Eval(For(v, NumericLiteral(lo, rawLo), NumericLiteral(hi, rawHi),
                              BlockExpression([UnaryIdentifierAfter(c, "++")])), env, fuel), c, k + hi - lo)
  {
    var loopBody := BlockExpression([UnaryIdentifierAfter(c, "++")]);
    var scope := ForEntry(v, lo, rawLo, hi, rawHi, loopBody, env, fuel);
    ForCountsBelow(v, c, lo, hi, scope, k, fuel - 1);
  }

  /** The loop of `ForCounts` run in its own scope: below that scope `c` has
      grown by `hi - lo`. */
  lemma ForCountsBelow(v: string, c: string, lo: int, hi: int, scope: Env, k: int, fuel: nat)
    requires |scope| > 0 && fuel > 0 && c != v && lo <= hi
    requires scope[0].vars.Keys == {v} && scope[0].constants == {}
    requires Lookup(scope[1..], c) == Success(NumberValue(k)) && !IsConstantIn(scope[1..], c)
    ensures var x := ForLoop(v, lo, hi, BlockExpression([UnaryIdentifierAfter(c, "++")]), scope, fuel);
            x.Success? && x.value.value == NoneValue && |x.value.env| > 0
            && Lookup(x.value.env[1..], c) == Success(NumberValue(k + hi - lo))
  {
    var n := k + hi - lo;
    LookupBelow(scope, c);
    ForLoopCounts(v, c, lo, hi, scope, k, n, fuel);
    var x := ForLoop(v, lo, hi, BlockExpression([UnaryIdentifierAfter(c, "++")]), scope, fuel).value;
    LookupBelow(x.env, c);
  }

  // ---------------------------------------------------------------------------
  // Calls

  /** Binding succeeds only if there are no more arguments than parameters,
      every remaining parameter has the builtin `int` type and every parameter left without
      an argument has a default. */
  lemma {:induction false} BindNeedsParameters(parameters: seq<Parameter>, arguments: seq<Node>, i: nat, stack: Env, fuel: nat)
    requires |stack| > 1 && i <= |parameters|
    requires BindArguments(parameters, arguments, i, stack, fuel).Success?
    ensures |arguments| <= |parameters|
    ensures forall j :: i <= j < |parameters| ==> parameters[j].paramType == IntType
    ensures forall j :: i <= j < |parameters| && j >= |arguments| ==> parameters[j].default.Some?
    decreases |parameters| + |arguments| - i
  {
    if i < |parameters| {
      var p := parameters[i];
      var v := if i < |arguments| then Eval(arguments[i], stack[1..], fuel)
               else if p.default.Some? then Eval(p.default.value, stack[1..], fuel)
               else Failure(MissingArgument);
      var stack' := Declare([stack[0]] + v.value.env, ValueText(p.identifier.value), v.value.value, false).value;
      assert stack'[1..] == v.value.env;
      BindNeedsParameters(parameters, arguments, i + 1, stack', fuel);
    }
  }

  /** A call with more arguments than parameters, or without a value for a
      parameter that has no default, fails. */
  lemma CallNeedsParameters(f: Value, arguments: seq<Node>, env: Env, fuel: nat)
    requires f.FunctionValue? && |env| > 0
    requires CallFunction(f, arguments, env, fuel).Success?
    ensures |arguments| <= |f.parameters|
    ensures forall j :: |arguments| <= j < |f.parameters| ==> f.parameters[j].default.Some?
  {
    BindNeedsParameters(f.parameters, arguments, 0, Push(env), fuel);
  }

  /** A body that reaches no top-level `return` evaluates to none. */
  lemma {:induction false} NoReturnIsNone(body: seq<Node>, i: nat, env: Env, fuel: nat)
    requires |env| > 0 && i <= |body|
    requires forall j :: i <= j < |body| ==> !body[j].Return?
    requires RunBody(body, i, env, fuel).Success?
    ensures RunBody(body, i, env, fuel).value.value == NoneValue
    decreases |body| - i
  {
    if i < |body| {
      var x := Eval(body[i], env, fuel).value;
      NoReturnIsNone(body, i + 1, x.env, fuel);
    }
  }

  /** `fn f() { return k; ... }` evaluates to `k`, and the statements after
      the `return` are not run. */
  lemma CallReturnsFirst(name: string, k: int, raw: string, rest: seq<Node>, env: Env, fuel: nat)
    requires |env| > 0 && fuel > 0
    ensures CallFunction(FunctionValue(name, [], [Return(Some(NumericLiteral(k, raw)))] + rest), [], env, fuel)
            == Success(Done(NumberValue(k), env))
  {
    var body := [Return(Some(NumericLiteral(k, raw)))] + rest;
    assert body[0] == Return(Some(NumericLiteral(k, raw)));
    assert BindArguments([], [], 0, Push(env), fuel) == Success(Push(env));
    assert Eval(NumericLiteral(k, raw), Push(env), fuel) == Success(Done(NumberValue(k), Push(env)));
    assert ReturnValue(Some(NumericLiteral(k, raw)), Push(env), fuel) == Success(Done(NumberValue(k), Push(env)));
    assert RunBody(body, 0, Push(env), fuel) == Success(Done(NumberValue(k), Push(env)));
    assert Push(env)[1..] == env;
  }

  /** A `break` at the top of a function body is an error. */
  lemma BreakInFunctionFails(name: string, rest: seq<Node>, env: Env, fuel: nat)
    requires |env| > 0
    ensures CallFunction(FunctionValue(name, [], [Break] + rest), [], env, fuel) == Failure(BreakInFunction)
  {
    var body := [Break] + rest;
    assert body[0] == Break;
    assert BindArguments([], [], 0, Push(env), fuel) == Success(Push(env));
  }

  /** `fn f() { if 1 { return k } }` evaluates to none: the `return` ends the
      branch's block, the `if` hands `k` to the body loop, and the body loop
      drops it. */
  lemma ReturnInIfIsLost(name: string, k: int, raw: string, env: Env, fuel: nat)
    requires |env| > 0 && fuel > 1
    ensures CallFunction(FunctionValue(name, [], [If(One, BlockExpression([Return(Some(NumericLiteral(k, raw)))]), None)]),
                         [], env, fuel)
            == Success(Done(NoneValue, env))
  {
    var ret := Return(Some(NumericLiteral(k, raw)));
    var stmt := If(One, BlockExpression([ret]), None);
    var inner := Push(env);
    BlockStopsAtReturn(k, raw, [], inner, fuel - 1);
    assert [ret] + [] == [ret];
    OneIsTrue(inner, fuel - 1);
    assert EvalIf(One, BlockExpression([ret]), None, inner, fuel - 1) == Success(Done(NumberValue(k), inner));
    assert Eval(stmt, inner, fuel) == Success(Done(NumberValue(k), inner));
    assert RunBody([stmt], 1, inner, fuel) == Success(Done(NoneValue, inner));
    assert RunBody([stmt], 0, inner, fuel) == Success(Done(NoneValue, inner));
    assert BindArguments([], [], 0, inner, fuel) == Success(inner);
    assert inner[1..] == env;
  }

  /** A call whose callee name is unbound, as a native function's name always
      is here, fails with `Undefined`, and one whose callee is bound to
      something other than a function fails with `NotCallable`; in both cases
      no argument is evaluated. */
  lemma CalleeMustBeFunction(name: string, arguments: seq<Node>, env: Env, fuel: nat)
    requires |env| > 0 && fuel > 1
    ensures !Bound(env, name)
            ==> Eval(Call(Node.Identifier(name), arguments), env, fuel) == Failure(Undefined(name))
    ensures Bound(env, name) && !Lookup(env, name).value.FunctionValue?
            ==> Eval(Call(Node.Identifier(name), arguments), env, fuel) == Failure(NotCallable)
  {
    assert Eval(Node.Identifier(name), env, fuel - 1)
           == if Bound(env, name) then Success(Done(Lookup(env, name).value, env)) else Failure(Undefined(name));
  }

  /** The callee's scope sits on the caller's environment: a name the
      function does not bind is looked up in the caller's scopes. */
  lemma CalleeSeesCaller(name: string, g: string, env: Env, fuel: nat)
    requires |env| > 0 && fuel > 0
    ensures CallFunction(FunctionValue(name, [], [Return(Some(Node.Identifier(g)))]), [], env, fuel)
            == if Bound(env, g) then Success(Done(Lookup(env, g).value, env)) else Failure(Undefined(g))
  {
    var body := [Return(Some(Node.Identifier(g)))];
    PushKeepsLookups(env, g);
    assert BindArguments([], [], 0, Push(env), fuel) == Success(Push(env));
    assert Push(env)[1..] == env;
    if Bound(env, g) {
      var v := Lookup(env, g).value;
      assert Eval(Node.Identifier(g), Push(env), fuel) == Success(Done(v, Push(env)));
      assert RunBody(body, 0, Push(env), fuel) == Success(Done(v, Push(env)));
    } else {
      assert Eval(Node.Identifier(g), Push(env), fuel) == Failure(Undefined(g));
      assert RunBody(body, 0, Push(env), fuel) == Failure(Undefined(g));
    }
  }

  /** The callee's scope after binding one `int` parameter to `v`. */
  lemma BindOne(p: Parameter, a: Node, env: Env, v: Value, fuel: nat)
    requires |env| > 0 && p.paramType == IntType
    requires Eval(a, env, fuel) == Success(Done(v, env))
    ensures BindArguments([p], [a], 0, Push(env), fuel)
            == Success([Scope(map[ValueText(p.identifier.value) := v], {})] + env)
  {
    var stack := Push(env);
    assert stack[1..] == env;
    assert [stack[0]] + env == stack;
    var stack' := [Scope(map[ValueText(p.identifier.value) := v], {})] + env;
    assert Declare(stack, ValueText(p.identifier.value), v, false) == Success(stack');
    assert BindArguments([p], [a], 1, stack', fuel) == Success(stack');
  }

  /** The default of a parameter left without an argument is evaluated, in
      the caller's environment. */
  lemma BindDefault(p: Parameter, env: Env, v: Value, fuel: nat)
    requires |env| > 0 && p.paramType == IntType && p.default.Some?
    requires Eval(p.default.value, env, fuel) == Success(Done(v, env))
    ensures BindArguments([p], [], 0, Push(env), fuel)
            == Success([Scope(map[ValueText(p.identifier.value) := v], {})] + env)
  {
    var stack := Push(env);
    assert stack[1..] == env;
    assert [stack[0]] + env == stack;
    var stack' := [Scope(map[ValueText(p.identifier.value) := v], {})] + env;
    assert Declare(stack, ValueText(p.identifier.value), v, false) == Success(stack');
    assert BindArguments([p], [], 1, stack', fuel) == Success(stack');
  }

  /** `fn f(int x) { return x }` called with the literal `k` evaluates to `k`. */
  lemma ArgumentIsBound(name: string, p: Parameter, k: int, raw: string, env: Env, fuel: nat)
    requires |env| > 0 && fuel > 1 && p.paramType == IntType
    ensures CallFunction(FunctionValue(name, [p], [Return(Some(Node.Identifier(ValueText(p.identifier.value))))]),
                         [NumericLiteral(k, raw)], env, fuel)
            == Success(Done(NumberValue(k), env))
  {
    var x := ValueText(p.identifier.value);
    var stack := [Scope(map[x := NumberValue(k)], {})] + env;
    BindOne(p, NumericLiteral(k, raw), env, NumberValue(k), fuel);
    assert Lookup(stack, x) == Success(NumberValue(k));
    assert Eval(Node.Identifier(x), stack, fuel) == Success(Done(NumberValue(k), stack));
    assert RunBody([Return(Some(Node.Identifier(x)))], 0, stack, fuel) == Success(Done(NumberValue(k), stack));
    assert stack[1..] == env;
  }

  /** `fn f(int x = g) { return x }` called without an argument evaluates to
      the caller's `g`: the default is read when the call is made. */
  lemma DefaultReadsCaller(name: string, p: Parameter, g: string, env: Env, fuel: nat)
    requires |env| > 0 && fuel > 1 && p.paramType == IntType && p.default == Some(Node.Identifier(g))
    requires Bound(env, g)
    ensures CallFunction(FunctionValue(name, [p], [Return(Some(Node.Identifier(ValueText(p.identifier.value))))]),
                         [], env, fuel)
            == Success(Done(Lookup(env, g).value, env))
  {
    var x := ValueText(p.identifier.value);
    var v := Lookup(env, g).value;
    var stack := [Scope(map[x := v], {})] + env;
    assert Eval(Node.Identifier(g), env, fuel) == Success(Done(v, env));
    BindDefault(p, env, v, fuel);
    assert Lookup(stack, x) == Success(v);
    assert Eval(Node.Identifier(x), stack, fuel) == Success(Done(v, stack));
    assert RunBody([Return(Some(Node.Identifier(x)))], 0, stack, fuel) == Success(Done(v, stack));
    assert stack[1..] == env;
  }
}

=== FILE: lexer.dfy ===
/** The line-by-line tokenizer of flolang/lexer.py: line splitting, comment
    removal, indentation blocks, and the per-position choice of lexeme. */
module Lexer {
  import opened Wrappers
  import opened Strings
  import opened Diagnostics
  import opened Tokens

  // ---------------------------------------------------------------------------
  // `str.splitlines`

  /** The line boundaries Python's `str.splitlines` recognises. */
  predicate IsLineBreak(c: char) {
    c == '\n' || c == '\r' || c == '\U{000B}' || c == '\U{000C}' || c == '\U{001C}' || c == '\U{001D}'
    || c == '\U{001E}' || c == '\U{0085}' || c == '\U{2028}' || c == '\U{2029}'
  }

  predicate NoLineBreak(s: string) {
    forall i :: 0 <= i < |s| ==> !IsLineBreak(s[i])
  }

  /** Index of the first line boundary, or `|s|`. */
  function LineLength(s: string): (i: nat)
    ensures i <= |s| && NoLineBreak(s[..i]) && (i < |s| ==> IsLineBreak(s[i]))
  {
    if |s| == 0 then 0
    else if IsLineBreak(s[0]) then 0
    else
      var i := LineLength(s[1..]) + 1;
      assert s[..i] == [s[0]] + s[1..][..i - 1];
      i
  }

  /** `s.splitlines()`: the lines without their terminators; `\r\n` is one
      terminator and a terminator at the very end does not open a new line. */
  function SplitLines(s: string): (r: seq<string>)
    ensures forall i :: 0 <= i < |r| ==> NoLineBreak(r[i])
    ensures |s| == 0 <==> |r| == 0
    decreases |s|
  {
    if |s| == 0 then []
    else
      var i := LineLength(s);
      if i == |s| then [s]
      else
        var next := if s[i] == '\r' && i + 1 < |s| && s[i + 1] == '\n' then i + 2 else i + 1;
        [s[..i]] + SplitLines(s[next..])
  }

  /** Every line followed by a `\n`. */
  function JoinLines(lines: seq<string>): string {
    if |lines| == 0 then "" else lines[0] + "\n" + JoinLines(lines[1..])
  }

  lemma {:induction false} SplitJoinLines(lines: seq<string>)
    requires forall i :: 0 <= i < |lines| ==> NoLineBreak(lines[i])
    ensures SplitLines(JoinLines(lines)) == lines
    decreases |lines|
  {
    if |lines| > 0 {
      var a, rest := lines[0], JoinLines(lines[1..]);
      var s := a + "\n" + rest;
      LineBreakAfterLine(a, rest);
      assert s[..|a|] == a;
      assert s[|a| + 1..] == rest;
      SplitJoinLines(lines[1..]);
    }
  }

  lemma {:induction false} LineBreakAfterLine(a: string, b: string)
    requires NoLineBreak(a)
    ensures LineLength(a + "\n" + b) == |a|
    decreases |a|
  {
    var s := a + "\n" + b;
    if |a| > 0 {
      assert s[1..] == a[1..] + "\n" + b;
      LineBreakAfterLine(a[1..], b);
    }
  }

  // ---------------------------------------------------------------------------
  // Character runs

  /** The character classes the lexer's patterns repeat. */
  datatype CharClass = Space | NameChar | HexChar | NumeralChar | DigitChar

  predicate InClass(cls: CharClass, c: char) {
    match cls
    case Space => c == ' '
    case NameChar => IsAsciiLetter(c) || c == '_' || IsDigit(c)
    case HexChar => IsHexDigit(c)
    case NumeralChar => IsDigit(c) || c == '.'
    case DigitChar => IsDigit(c)
  }

  /** The end of the longest run of `cls` characters starting at `p`. */
  function RunEnd(s: string, p: nat, cls: CharClass): (j: nat)
    requires p <= |s|
    ensures p <= j <= |s|
    ensures forall k :: p <= k < j ==> InClass(cls, s[k])
    ensures j == |s| || !InClass(cls, s[j])
    decreases |s| - p
  {
    if p == |s| || !InClass(cls, s[p]) then p else RunEnd(s, p + 1, cls)
  }

  /** A run depends only on the characters it covers and the one that stops it. */
  lemma RunEndOfPrefix(s: string, n: nat, p: nat, cls: CharClass)
    requires p <= n <= |s|
    requires RunEnd(s[..n], p, cls) < n
    ensures RunEnd(s, p, cls) == RunEnd(s[..n], p, cls)
  {
    var j := RunEnd(s[..n], p, cls);
    RunEndIsExact(s, p, j, cls);
  }

  lemma RunEndIsExact(s: string, p: nat, j: nat, cls: CharClass)
    requires p <= j <= |s|
    requires forall k :: p <= k < j ==> InClass(cls, s[k])
    requires j == |s| || !InClass(cls, s[j])
    ensures RunEnd(s, p, cls) == j
    decreases j - p
  {
    if p < j {
      RunEndIsExact(s, p + 1, j, cls);
    }
  }

  // ---------------------------------------------------------------------------
  // Comments

  /** A `#` that opens a comment: followed by a space or by the end of the line. */
  predicate HashAt(line: string, j: nat) {
    j < |line| && line[j] == '#' && (j + 1 == |line| || line[j + 1] == ' ')
  }

  /** The comment pattern matches at `p`: either a `#` at the very start of the
      line, or one or more spaces running up to such a `#`. */
  predicate CommentAt(line: string, p: nat) {
    p < |line| && ((p == 0 && HashAt(line, 0)) || (line[p] == ' ' && HashAt(line, RunEnd(line, p, Space))))
  }

  function CommentSearch(line: string, p: nat): (r: nat)
    requires p <= |line|
    ensures p <= r <= |line|
    ensures r < |line| ==> CommentAt(line, r)
    ensures forall q :: p <= q < r ==> !CommentAt(line, q)
    decreases |line| - p
  {
    if p == |line| || CommentAt(line, p) then p else CommentSearch(line, p + 1)
  }

  /** `remove_comments`: the line up to the leftmost place where the comment
      pattern matches; a match always runs to the end of the line. */
  function RemoveComments(line: string): (r: string)
    ensures StartsWith(line, r)
    ensures r != line ==> CommentAt(line, |r|)
    ensures forall q :: 0 <= q < |r| ==> !CommentAt(line, q)
  {
    line[..CommentSearch(line, 0)]
  }

  /** Removing comments twice removes nothing more. */
  lemma RemoveCommentsIdempotent(line: string)
    ensures RemoveComments(RemoveComments(line)) == RemoveComments(line)
  {
    var r := RemoveComments(line);
    var p := |r|;
    forall q | 0 <= q < p ensures !CommentAt(r, q) {
      if CommentAt(r, q) {
        NoCommentInPrefix(line, p, q);
      }
    }
    assert CommentSearch(r, 0) == |r|;
  }

  lemma NoCommentInPrefix(line: string, p: nat, q: nat)
    requires q < p <= |line|
    requires p < |line| ==> CommentAt(line, p)
    requires CommentAt(line[..p], q)
    ensures CommentAt(line, q)
  {
    var r := line[..p];
    if p < |line| {
      assert line[p] == ' ';
    }
    if q == 0 && HashAt(r, 0) {
      assert HashAt(line, 0);
    } else {
      RunEndOfPrefix(line, p, q, Space);
      var j := RunEnd(r, q, Space);
      assert HashAt(line, j);
    }
  }

  // ---------------------------------------------------------------------------
  // Indentation

  /** `count_leading_spaces` */
  function CountLeadingSpaces(s: string): (n: nat)
    ensures n <= |s|
    ensures forall i :: 0 <= i < n ==> s[i] == ' '
    ensures n == |s| || s[n] != ' '
  {
    RunEnd(s, 0, Space)
  }

  /** `count_idents`: the indentation level, or the error for a count that is
      not a multiple of four. */
  function CountIdents(s: string, symbols: Symbols): (r: Result<nat, Diagnostic>)
    ensures r.Success? <==> CountLeadingSpaces(s) % 4 == 0
    ensures r.Success? ==> 4 * r.value == CountLeadingSpaces(s)
    ensures r.Failure? ==> r.error == Diagnostic(IndentationMessage(CountLeadingSpaces(s)), symbols)
  {
    var spaces := CountLeadingSpaces(s);
    if spaces % 4 == 0 then Success(spaces / 4)
    else Error(IndentationMessage(spaces), symbols)
  }

  function IndentationMessage(spaces: nat): string {
    "indentation is not a multiple of 4 (its " + IntToDecimal(spaces) + ")."
  }

  /** `count_idents` yields `n` exactly when the line opens with `4 * n` spaces
      and then something other than a space. */
  lemma CountIdentsExact(s: string, symbols: Symbols, n: nat)
    ensures CountIdents(s, symbols) == Success(n) <==> LeadingSpacesAre(s, 4 * n)
  {
    var spaces := CountLeadingSpaces(s);
    if LeadingSpacesAre(s, 4 * n) {
      RunEndIsExact(s, 0, 4 * n, Space);
      assert spaces == 4 * n;
      assert CountIdents(s, symbols) == Success(spaces / 4);
    }
    if CountIdents(s, symbols) == Success(n) {
      assert spaces == 4 * n;
    }
  }

  /** `s` opens with exactly `k` spaces. */
  predicate LeadingSpacesAre(s: string, k: nat) {
    k <= |s| && (forall i :: 0 <= i < k ==> s[i] == ' ') && (k == |s| || s[k] != ' ')
  }

  /** `consume_idents`: drops `4 * ident` characters (all of them if the line is shorter). */
  function ConsumeIdents(line: string, ident: nat): (r: string)
    ensures |r| == if 4 * ident <= |line| then |line| - 4 * ident else 0
    ensures 4 * ident <= |line| ==> line == line[..4 * ident] + r
  {
    if 4 * ident <= |line| then line[4 * ident..] else ""
  }

  // ---------------------------------------------------------------------------
  // Lexemes

  /** `starts_with_alphanumeric`: `prefix` starts `s`, and `s` goes on with a
      character that is not a letter or digit. */
  predicate StartsWithAlphanumeric(s: string, prefix: string) {
    StartsWith(s, prefix) && |s| > |prefix| && !IsAlnum(s[|prefix|])
  }

  /** How a candidate list is searched: plain prefix, or prefix on a word boundary. */
  datatype Matcher = Prefix | Word

  predicate Accepts(m: Matcher, source: string, s: string) {
    match m
    case Prefix => StartsWith(source, s)
    case Word => StartsWithAlphanumeric(source, s)
  }

  /** The first candidate at or after `k` that the matcher accepts (the `for`/`break` loop). */
  function FirstMatch(m: Matcher, source: string, l: seq<string>, k: nat): (r: Option<nat>)
    requires k <= |l|
    ensures r.Some? ==> k <= r.value < |l| && Accepts(m, source, l[r.value])
                        && forall j :: k <= j < r.value ==> !Accepts(m, source, l[j])
    ensures r.None? ==> forall j :: k <= j < |l| ==> !Accepts(m, source, l[j])
    decreases |l| - k
  {
    if k == |l| then None
    else if Accepts(m, source, l[k]) then Some(k)
    else FirstMatch(m, source, l, k + 1)
  }

  /** The kind and value a matched candidate is emitted with. */
  function CandidateToken(s: string): (Kind, TokenValue) {
    if s in VariableTokens then (BuiltinType, Text(s)) else (Fixed(s), NoValue)
  }

  /** The outcome of one step of the inner `while len(source)` loop. */
  datatype Step =
    | Emit(kind: Kind, value: TokenValue, width: nat)
    | Skip
    | Unknown

  predicate IsIgnored(c: char) {
    c == ' ' || c == '\t' || c == '\n' || c == '\r'
  }

  predicate IsNameStart(c: char) {
    IsAsciiLetter(c) || c == '_'
  }

  /** Length of `^[a-zA-Z_]+[a-zA-Z_0-9]*`, or 0 when it does not match. */
  function NameLength(source: string): (n: nat)
    ensures n <= |source|
    ensures n > 0 <==> |source| > 0 && IsNameStart(source[0])
    ensures forall i :: 0 <= i < n ==> InClass(NameChar, source[i])
    ensures n > 0 ==> n == |source| || !InClass(NameChar, source[n])
  {
    if |source| > 0 && IsNameStart(source[0]) then RunEnd(source, 1, NameChar) else 0
  }

  /** Length of `^0x[0-9a-fA-F]+`, or 0. */
  function HexLength(source: string): (n: nat)
    ensures n <= |source|
    ensures n > 0 <==> StartsWith(source, "0x") && |source| > 2 && IsHexDigit(source[2])
    ensures n > 0 ==> n > 2 && (forall i :: 2 <= i < n ==> IsHexDigit(source[i]))
                      && (n == |source| || !IsHexDigit(source[n]))
  {
    if StartsWith(source, "0x") && |source| > 2 && IsHexDigit(source[2]) then RunEnd(source, 2, HexChar) else 0
  }

  /** Length of `^[0-9.]+(E[0-9]+|)`, or 0: the longest run of digits and dots,
      extended by an exponent only when `E` is followed by a digit. */
  function NumeralLength(source: string): (n: nat)
    ensures n <= |source|
    ensures n > 0 <==> |source| > 0 && InClass(NumeralChar, source[0])
  {
    if |source| > 0 && InClass(NumeralChar, source[0]) then
      var m := RunEnd(source, 0, NumeralChar);
      if m + 1 < |source| && source[m] == 'E' && IsDigit(source[m + 1]) then RunEnd(source, m + 1, DigitChar) else m
    else 0
  }

  /** The matched numeral is a float when it contains `.` or `E`. */
  predicate IsFloatText(s: string) {
    exists i :: 0 <= i < |s| && (s[i] == '.' || s[i] == 'E')
  }

  /** The index of the quote closing a string literal, scanning from `i`, with a
      backslash escaping whatever character follows it. */
  function ClosingQuote(s: string, i: nat): (r: Option<nat>)
    requires i <= |s|
    ensures r.Some? ==> i <= r.value < |s| && s[r.value] == '"'
    decreases |s| - i
  {
    if i == |s| then None
    else if s[i] == '"' then Some(i)
    else if s[i] == '\\' then (if i + 1 < |s| then ClosingQuote(s, i + 2) else None)
    else ClosingQuote(s, i + 1)
  }

  /** The candidate the search loop stops at, if any. */
  function MatchCandidate(m: Matcher, source: string, l: seq<string>): (r: Option<string>)
    ensures r.Some? ==> r.value in l && Accepts(m, source, r.value)
    ensures r.None? ==> forall s | s in l :: !Accepts(m, source, s)
  {
    match FirstMatch(m, source, l, 0)
    case Some(i) => Some(l[i])
    case None => None
  }

  function CandidateStep(s: string): (r: Step)
    requires |s| > 0
    ensures r.Emit? && r.width == |s| && !r.value.LineEnd? && Scanned(r.kind)
  {
    var (kind, value) := CandidateToken(s);
    Emit(kind, value, |s|)
  }

  /** The rules after the candidate lists: names, hex and decimal numerals,
      string literals, ignored whitespace, and the unknown character. */
  function LiteralStep(source: string): (r: Step)
    requires |source| > 0
    ensures r.Emit? ==> 0 < r.width <= |source| && !r.value.LineEnd? && Scanned(r.kind)
  {
    var name := NameLength(source);
    if name > 0 then Emit(Identifier, Text(source[..name]), name)
    else
      var hex := HexLength(source);
      if hex > 0 then Emit(Number, Text(source[..hex]), hex)
      else
        var numeral := NumeralLength(source);
        if numeral > 0 then
          var text := source[..numeral];
          Emit(if IsFloatText(text) then Float else Number, Text(text), numeral)
        else if source[0] == '"' && ClosingQuote(source, 1).Some? then
          var q := ClosingQuote(source, 1).value;
          Emit(Str, Text(source[1..q]), q + 1)
        else if IsIgnored(source[0]) then Skip
        else Unknown
  }

  /** The two candidate lists `tokenize` searches, in search order. */
  datatype Candidates = Candidates(symbolic: seq<string>, alphanumeric: seq<string>)

  /** What the lexer relies on: no candidate is empty, so every match consumes input. */
  predicate ValidCandidates(c: Candidates) {
    NonEmptyWords(c.symbolic) && NonEmptyWords(c.alphanumeric)
  }

  /** What the properties of the search rely on: the symbolic list is in
      descending order and made of operator words, and keywords and type names
      consist of letters and digits. */
  predicate OrderedCandidates(c: Candidates) {
    Descending(c.symbolic) && OperatorWords(c.symbolic) && AlnumWords(c.alphanumeric)
  }

  /** The lists `tokenize` builds before its loop: each source list sorted
      and then reversed. */
  predicate SourceOrder(c: Candidates) {
    SymbolicOrder(c.symbolic) && AlphanumericOrder(c.alphanumeric)
  }

  predicate SymbolicOrder(l: seq<string>) {
    Descending(l) && multiset(l) == multiset(StringTokens + SmallTokens)
  }

  predicate AlphanumericOrder(l: seq<string>) {
    Descending(l) && multiset(l) == multiset(KeywordTokens + VariableTokens)
  }

  method SymbolicCandidates() returns (l: seq<string>)
    ensures SymbolicOrder(l) && NonEmptyWords(l) && OperatorWords(l)
  {
    l := SortedReversed(StringTokens + SmallTokens);
    SymbolicCandidatesNonEmpty(l);
  }

  method AlphanumericCandidates() returns (l: seq<string>)
    ensures AlphanumericOrder(l) && NonEmptyWords(l) && AlnumWords(l)
  {
    l := SortedReversed(KeywordTokens + VariableTokens);
    AlphanumericCandidatesAlnum(l);
  }

  /** The two lists, built as the start of `tokenize` builds them. */
  method SourceCandidates() returns (c: Candidates)
    ensures SourceOrder(c) && ValidCandidates(c) && OrderedCandidates(c)
  {
    var symbolic := SymbolicCandidates();
    var alphanumeric := AlphanumericCandidates();
    c := Candidates(symbolic, alphanumeric);
  }

  /** One lexing step at the start of `source`, trying the rules in the order
      `tokenize` does. */
  function NextStep(c: Candidates, source: string): (r: Step)
    requires ValidCandidates(c)
    requires |source| > 0
    ensures r.Emit? ==> 0 < r.width <= |source| && !r.value.LineEnd? && Scanned(r.kind)
  {
    var symbolic := MatchCandidate(Prefix, source, c.symbolic);
    if symbolic.Some? then CandidateStep(symbolic.value)
    else
      var word := MatchCandidate(Word, source, c.alphanumeric);
      if word.Some? then CandidateStep(word.value)
      else LiteralStep(source)
  }

  // ---------------------------------------------------------------------------
  // Lines and the whole source

  const UnknownTokenMessage: string := "Encountered unknown token in sourcecode."

  /** Tokens that stand for source text, as opposed to the synthetic block and EOF tokens. */
  predicate Scanned(k: Kind) {
    !(k.EOF? || k.BlockStart? || k.BlockEnd?)
  }

  /** A token scanned from line `lineNr` at a column in `[lo, hi)`; only the
      end-of-line pass marks a `return`, never the scan. */
  predicate OnLine(t: Token, filename: Option<string>, lineNr: nat, fullLine: string, lo: int, hi: int) {
    Scanned(t.kind) && t.symbols == Symbols(filename, lineNr, t.symbols.linePos, fullLine)
    && lo <= t.symbols.linePos < hi && !t.value.LineEnd?
  }

  /** The tokens of one line: returns them with the symbols last built for the
      line (none when no position was visited). */
  function ScanLine(c: Candidates, source: string, sourceLen: nat, filename: Option<string>, lineNr: nat, fullLine: string)
    : (r: Result<(seq<Token>, Option<Symbols>), Diagnostic>)
    requires ValidCandidates(c)
    requires |source| <= sourceLen
    ensures r.Success? ==> forall t | t in r.value.0 :: OnLine(t, filename, lineNr, fullLine, sourceLen - |source|, sourceLen)
    ensures r.Success? && |source| > 0 ==> r.value.1.Some? && r.value.1.value.lineNr == lineNr
    ensures r.Success? && |source| == 0 ==> r.value == ([], None)
    ensures r.Failure? ==> r.error.comment == UnknownTokenMessage && r.error.symbols.lineNr == lineNr
    decreases |source|
  {
    if |source| == 0 then Success(([], None))
    else
      var symbols := Symbols(filename, lineNr, sourceLen - |source|, fullLine);
      match NextStep(c, source)
      case Unknown => Error(UnknownTokenMessage, symbols)
      case Skip =>
        var (rest, last) :- ScanLine(c, source[1..], sourceLen, filename, lineNr, fullLine);
        Success((rest, Some(last.GetOr(symbols))))
      case Emit(kind, value, width) =>
        var (rest, last) :- ScanLine(c, source[width..], sourceLen, filename, lineNr, fullLine);
        Success(([Token(symbols, kind, value)] + rest, Some(last.GetOr(symbols))))
  }

  /** The loop state of `tokenize` between lines. */
  datatype LexState = LexState(tokens: seq<Token>, indent: nat, symbols: Symbols)

  /** `n` copies of a synthetic token. */
  function Synthetic(symbols: Symbols, kind: Kind, n: nat): (r: seq<Token>)
    ensures |r| == n && forall t | t in r :: t == Token(symbols, kind, NoValue)
  {
    if n == 0 then [] else [Token(symbols, kind, NoValue)] + Synthetic(symbols, kind, n - 1)
  }

  /** The block tokens for a change of indentation from `current` to `ident`. */
  function IndentTokens(symbols: Symbols, current: nat, ident: nat): seq<Token> {
    if ident > current then Synthetic(symbols, BlockStart, ident - current)
    else Synthetic(symbols, BlockEnd, current - ident)
  }

  /** After a line: a `return` that is the last token gets the value 1. */
  function MarkReturn(tokens: seq<Token>): (r: seq<Token>)
    ensures |r| == |tokens|
    ensures forall i | 0 <= i < |r| :: r[i].kind == tokens[i].kind && r[i].symbols == tokens[i].symbols
    ensures forall i | 0 <= i < |r| - 1 :: r[i] == tokens[i]
    ensures |r| > 0 ==> r[|r| - 1].value == if r[|r| - 1].kind == Fixed("return") then LineEnd else tokens[|r| - 1].value
  {
    if |tokens| > 0 && tokens[|tokens| - 1].kind == Fixed("return") then
      tokens[..|tokens| - 1] + [tokens[|tokens| - 1].(value := LineEnd)]
    else tokens
  }

  /** One iteration of the `for line_nr, full_line in enumerate(lines)` loop. */
  function LexLine(c: Candidates, st: LexState, filename: Option<string>, lineNr: nat, fullLine: string): (r: Result<LexState, Diagnostic>)
    requires ValidCandidates(c)
  {
    var source := RemoveComments(fullLine);
    var lineStart := Symbols(filename, lineNr, 0, fullLine);
    var ident :- CountIdents(source, lineStart);
    var rest := ConsumeIdents(source, ident);
    var (scanned, last) :- ScanLine(c, rest, |source|, filename, lineNr, fullLine);
    var tokens := MarkReturn(st.tokens + IndentTokens(lineStart, st.indent, ident) + scanned);
    Success(LexState(tokens, ident, last.GetOr(lineStart)))
  }

  function LexLines(c: Candidates, lines: seq<string>, filename: Option<string>, k: nat, st: LexState): (r: Result<LexState, Diagnostic>)
    requires ValidCandidates(c)
    requires k <= |lines|
    decreases |lines| - k
  {
    if k == |lines| then Success(st)
    else
      var next :- LexLine(c, st, filename, k, lines[k]);
      LexLines(c, lines, filename, k + 1, next)
  }

  /** The symbols of the final EOF token. */
  function EofSymbols(lines: seq<string>, filename: Option<string>): Symbols {
    if |lines| > 0 then Symbols(filename, |lines| - 1, |lines[|lines| - 1]| - 1, lines[|lines| - 1])
    else Symbols(filename, 0, 0, "")
  }

  /** The token list `tokenize` returns, for the candidate lists `c`: every
      line, then the closing block ends, then EOF. */
  function TokenizeWith(c: Candidates, sourcecode: string, filename: Option<string>): (r: Result<seq<Token>, Diagnostic>)
    requires ValidCandidates(c)
  {
    var lines := SplitLines(sourcecode);
    var st :- LexLines(c, lines, filename, 0, InitialState(filename));
    Success(Closing(st, EofSymbols(lines, filename)))
  }

  /** The state before the first line. */
  function InitialState(filename: Option<string>): LexState {
    LexState([], 0, Symbols(filename, 0, 0, ""))
  }

  /** After the last line: one block end per open block, then EOF. */
  function Closing(st: LexState, eof: Symbols): seq<Token> {
    st.tokens + Synthetic(st.symbols, BlockEnd, st.indent) + [Token(eof, EOF, NoValue)]
  }

  /** `tokenize`: builds the candidate lists, then lexes. */
  method Tokenize(sourcecode: string, filename: Option<string>) returns (c: Candidates, r: Result<seq<Token>, Diagnostic>)
    ensures SourceOrder(c) && ValidCandidates(c) && OrderedCandidates(c)
    ensures r == TokenizeWith(c, sourcecode, filename)
  {
    c := SourceCandidates();
    r := TokenizeWith(c, sourcecode, filename);
  }
}

=== FILE: lexer_properties.dfy ===
/** Properties of the token stream `tokenize` produces: balanced block tokens,
    a single closing EOF, the end-of-line mark on `return`, and the choices the
    search makes at one position. */
module LexerProperties {
  import opened Wrappers
  import opened Strings
  import opened Diagnostics
  import opened Tokens
  import opened Lexer

  // ---------------------------------------------------------------------------
  // Block balance

  /** +1 for a block start, -1 for a block end, 0 otherwise. */
  function Weight(k: Kind): int {
    if k.BlockStart? then 1 else if k.BlockEnd? then -1 else 0
  }

  /** Block starts minus block ends. */
  function Balance(ts: seq<Token>): int {
    if |ts| == 0 then 0 else Balance(ts[..|ts| - 1]) + Weight(ts[|ts| - 1].kind)
  }

  /** No prefix closes more blocks than it opened. */
  predicate NeverNegative(ts: seq<Token>) {
    forall n | 0 <= n <= |ts| :: Balance(ts[..n]) >= 0
  }

  predicate NoEof(ts: seq<Token>) {
    forall i | 0 <= i < |ts| :: ts[i].kind != EOF
  }

  lemma {:induction false} BalanceAppend(a: seq<Token>, b: seq<Token>)
    ensures Balance(a + b) == Balance(a) + Balance(b)
    decreases |b|
  {
    if |b| == 0 {
      assert a + b == a;
    } else {
      assert (a + b)[..|a + b| - 1] == a + b[..|b| - 1];
      BalanceAppend(a, b[..|b| - 1]);
    }
  }

  /** A run of tokens that all weigh `w` weighs `w` per token. */
  lemma {:induction false} ConstantWeight(ts: seq<Token>, w: int)
    requires forall i | 0 <= i < |ts| :: Weight(ts[i].kind) == w
    ensures Balance(ts) == |ts| * w
    decreases |ts|
  {
    if |ts| > 0 {
      ConstantWeight(ts[..|ts| - 1], w);
      assert Balance(ts) == (|ts| - 1) * w + w;
    }
  }

  /** Appending a run whose every prefix keeps the total non-negative. */
  lemma NeverNegativeAppend(a: seq<Token>, b: seq<Token>)
    requires NeverNegative(a)
    requires forall m | 0 <= m <= |b| :: Balance(a) + Balance(b[..m]) >= 0
    ensures NeverNegative(a + b)
  {
    forall n | 0 <= n <= |a + b| ensures Balance((a + b)[..n]) >= 0 {
      if n <= |a| {
        assert (a + b)[..n] == a[..n];
      } else {
        assert (a + b)[..n] == a + b[..n - |a|];
        BalanceAppend(a, b[..n - |a|]);
      }
    }
  }

  /** Appending `n` copies of one token of weight `w`. */
  lemma AppendRun(a: seq<Token>, b: seq<Token>, w: int)
    requires NeverNegative(a)
    requires forall i | 0 <= i < |b| :: Weight(b[i].kind) == w
    requires w >= 0 || Balance(a) + |b| * w >= 0
    requires -1 <= w <= 1
    ensures NeverNegative(a + b)
    ensures Balance(a + b) == Balance(a) + |b| * w
  {
    forall m | 0 <= m <= |b| ensures Balance(a) + Balance(b[..m]) >= 0 {
      ConstantWeight(b[..m], w);
      assert Balance(b[..m]) == m * w;
      assert Balance(a) >= 0 by {
        assert a[..|a|] == a;
      }
    }
    NeverNegativeAppend(a, b);
    ConstantWeight(b, w);
    BalanceAppend(a, b);
  }

  /** Rewriting token values leaves the balance of every prefix alone. */
  lemma {:induction false} SameKindsBalance(a: seq<Token>, b: seq<Token>)
    requires |a| == |b| && forall i | 0 <= i < |a| :: a[i].kind == b[i].kind
    ensures Balance(a) == Balance(b)
    decreases |a|
  {
    if |a| > 0 {
      SameKindsBalance(a[..|a| - 1], b[..|b| - 1]);
    }
  }

  lemma SameKindsNeverNegative(a: seq<Token>, b: seq<Token>)
    requires |a| == |b| && forall i | 0 <= i < |a| :: a[i].kind == b[i].kind
    requires NeverNegative(a)
    ensures NeverNegative(b)
  {
    forall n | 0 <= n <= |b| ensures Balance(b[..n]) >= 0 {
      SameKindsBalance(a[..n], b[..n]);
    }
  }

  /** The block tokens of an indentation change: `ident - current` starts when
      the line is indented deeper, `current - ident` ends when it is indented less. */
  lemma IndentTokensCount(symbols: Symbols, current: nat, ident: nat)
    ensures var r := IndentTokens(symbols, current, ident);
            (ident > current ==> |r| == ident - current && forall t | t in r :: t.kind == BlockStart)
            && (ident <= current ==> |r| == current - ident && forall t | t in r :: t.kind == BlockEnd)
  {
  }

  /** What holds of the token list between lines: the open blocks match the
      current indentation, no prefix closes a block it did not open, no EOF has
      been emitted, every scanned token comes from an earlier line, and the
      `return` tokens are marked. */
  predicate Between(st: LexState, k: nat) {
    Balance(st.tokens) == st.indent && NeverNegative(st.tokens) && NoEof(st.tokens) && EarlierLines(st.tokens, k)
    && ReturnsMarked(st.tokens)
  }

  /** Every scanned token of `ts` comes from a line before `k`. */
  predicate EarlierLines(ts: seq<Token>, k: nat) {
    forall i | 0 <= i < |ts| && Scanned(ts[i].kind) :: ts[i].symbols.lineNr < k
  }

  lemma EarlierLinesAppend(a: seq<Token>, b: seq<Token>, k: nat)
    requires EarlierLines(a, k) && EarlierLines(b, k)
    ensures EarlierLines(a + b, k)
  {
    assert forall i | 0 <= i < |a| :: (a + b)[i] == a[i];
    assert forall i | |a| <= i < |a + b| :: (a + b)[i] == b[i - |a|];
  }

  /** The tokens of one scanned line carry no block or EOF kind. */
  lemma ScannedWeightless(scanned: seq<Token>, filename: Option<string>, lineNr: nat, fullLine: string, lo: int, hi: int)
    requires forall t | t in scanned :: OnLine(t, filename, lineNr, fullLine, lo, hi)
    ensures forall i | 0 <= i < |scanned| :: Weight(scanned[i].kind) == 0 && scanned[i].kind != EOF
  {
    forall i | 0 <= i < |scanned| ensures Weight(scanned[i].kind) == 0 && scanned[i].kind != EOF {
      assert OnLine(scanned[i], filename, lineNr, fullLine, lo, hi);
    }
  }

  /** Appending the block tokens of a line's indentation. */
  lemma IndentStep(st: LexState, lineStart: Symbols, ident: nat)
    requires Balance(st.tokens) == st.indent && NeverNegative(st.tokens) && NoEof(st.tokens)
    ensures var t := st.tokens + IndentTokens(lineStart, st.indent, ident);
            Balance(t) == ident && NeverNegative(t) && NoEof(t)
  {
    var b := IndentTokens(lineStart, st.indent, ident);
    IndentTokensCount(lineStart, st.indent, ident);
    if ident > st.indent {
      assert forall i | 0 <= i < |b| :: b[i] in b;
      AppendRun(st.tokens, b, 1);
    } else {
      assert forall i | 0 <= i < |b| :: b[i] in b;
      AppendRun(st.tokens, b, -1);
    }
  }

  /** One line keeps the invariant. */
  lemma LexLineKeeps(c: Candidates, st: LexState, filename: Option<string>, lineNr: nat, fullLine: string)
    requires ValidCandidates(c)
    requires Between(st, lineNr)
    requires LexLine(c, st, filename, lineNr, fullLine).Success?
    ensures Between(LexLine(c, st, filename, lineNr, fullLine).value, lineNr + 1)
  {
    var source := RemoveComments(fullLine);
    var lineStart := Symbols(filename, lineNr, 0, fullLine);
    var ident := CountIdents(source, lineStart).value;
    var rest := ConsumeIdents(source, ident);
    var scan := ScanLine(c, rest, |source|, filename, lineNr, fullLine);
    var (scanned, last) := scan.value;
    AppendLineKeeps(st, lineStart, ident, scanned, last.GetOr(lineStart), filename, lineNr, fullLine,
                    |source| - |rest|, |source|);
  }

  lemma AppendLineKeeps(st: LexState, lineStart: Symbols, ident: nat, scanned: seq<Token>, symbols: Symbols,
                        filename: Option<string>, lineNr: nat, fullLine: string, lo: int, hi: int)
    requires Between(st, lineNr)
    requires forall t | t in scanned :: OnLine(t, filename, lineNr, fullLine, lo, hi)
    ensures Between(LexState(MarkReturn(st.tokens + IndentTokens(lineStart, st.indent, ident) + scanned), ident, symbols),
                    lineNr + 1)
  {
    AppendLineBalance(st, lineStart, ident, scanned, filename, lineNr, fullLine, lo, hi);
    AppendLineEarlier(st, lineStart, ident, scanned, filename, lineNr, fullLine, lo, hi);
    AppendLineMarked(st, lineStart, ident, scanned, filename, lineNr, fullLine, lo, hi);
  }

  lemma AppendLineBalance(st: LexState, lineStart: Symbols, ident: nat, scanned: seq<Token>,
                          filename: Option<string>, lineNr: nat, fullLine: string, lo: int, hi: int)
    requires Balance(st.tokens) == st.indent && NeverNegative(st.tokens) && NoEof(st.tokens)
    requires forall t | t in scanned :: OnLine(t, filename, lineNr, fullLine, lo, hi)
    ensures var r := MarkReturn(st.tokens + IndentTokens(lineStart, st.indent, ident) + scanned);
            Balance(r) == ident && NeverNegative(r) && NoEof(r)
  {
    var a := st.tokens + IndentTokens(lineStart, st.indent, ident);
    IndentStep(st, lineStart, ident);
    ScannedWeightless(scanned, filename, lineNr, fullLine, lo, hi);
    AppendRun(a, scanned, 0);
    var t := a + scanned;
    var r := MarkReturn(t);
    SameKindsBalance(t, r);
    SameKindsNeverNegative(t, r);
  }

  lemma AppendLineEarlier(st: LexState, lineStart: Symbols, ident: nat, scanned: seq<Token>,
                          filename: Option<string>, lineNr: nat, fullLine: string, lo: int, hi: int)
    requires EarlierLines(st.tokens, lineNr)
    requires forall t | t in scanned :: OnLine(t, filename, lineNr, fullLine, lo, hi)
    ensures EarlierLines(MarkReturn(st.tokens + IndentTokens(lineStart, st.indent, ident) + scanned), lineNr + 1)
  {
    var b := IndentTokens(lineStart, st.indent, ident);
    IndentTokensCount(lineStart, st.indent, ident);
    forall i | 0 <= i < |b| ensures !Scanned(b[i].kind) {
      assert b[i] in b;
    }
    forall i | 0 <= i < |scanned| ensures scanned[i].symbols.lineNr == lineNr {
      assert OnLine(scanned[i], filename, lineNr, fullLine, lo, hi);
    }
    EarlierLinesAppend(st.tokens, b, lineNr + 1);
    EarlierLinesAppend(st.tokens + b, scanned, lineNr + 1);
  }

  lemma {:induction false} LexLinesKeep(c: Candidates, lines: seq<string>, filename: Option<string>, k: nat, st: LexState)
    requires ValidCandidates(c)
    requires k <= |lines|
    requires Between(st, k)
    requires LexLines(c, lines, filename, k, st).Success?
    ensures Between(LexLines(c, lines, filename, k, st).value, |lines|)
    decreases |lines| - k
  {
    if k < |lines| {
      LexLineKeeps(c, st, filename, k, lines[k]);
      LexLinesKeep(c, lines, filename, k + 1, LexLine(c, st, filename, k, lines[k]).value);
    }
  }

  /** Every successful run over the lines ends in a state that keeps the invariant. */
  lemma LexLinesFromStart(c: Candidates, lines: seq<string>, filename: Option<string>)
    requires ValidCandidates(c)
    ensures var run := LexLines(c, lines, filename, 0, InitialState(filename));
            run.Success? ==> Between(run.value, |lines|)
  {
    var st0 := InitialState(filename);
    assert Between(st0, 0) by {
      assert st0.tokens[..0] == [];
    }
    if LexLines(c, lines, filename, 0, st0).Success? {
      LexLinesKeep(c, lines, filename, 0, st0);
    }
  }

  lemma ClosingBalanced(st: LexState, eof: Symbols)
    requires Balance(st.tokens) == st.indent && NeverNegative(st.tokens) && NoEof(st.tokens)
    ensures var all := Closing(st, eof);
            Balance(all) == 0 && NeverNegative(all) && |all| > 0 && all[|all| - 1].kind == EOF && NoEof(all[..|all| - 1])
  {
    var ends := Synthetic(st.symbols, BlockEnd, st.indent);
    assert forall i | 0 <= i < |ends| :: ends[i] in ends;
    AppendRun(st.tokens, ends, -1);
    var body := st.tokens + ends;
    var eof := [Token(eof, EOF, NoValue)];
    AppendRun(body, eof, 0);
    assert (body + eof)[..|body + eof| - 1] == body;
  }

  lemma ClosingMarked(st: LexState, eof: Symbols)
    requires ReturnsMarked(st.tokens)
    ensures ReturnsMarked(Closing(st, eof))
  {
    var ends := Synthetic(st.symbols, BlockEnd, st.indent);
    forall i | 0 <= i < |ends| ensures !ends[i].value.LineEnd? && !IsReturn(ends[i]) && !Scanned(ends[i].kind) {
      assert ends[i] in ends;
    }
    Unmarked(ends);
    MarkedAppend(st.tokens, ends);
    var eof := [Token(eof, EOF, NoValue)];
    Unmarked(eof);
    MarkedAppend(st.tokens + ends, eof);
  }

  /** The token list `tokenize` returns closes every block it opens, never
      closes one it has not opened, and ends with its only EOF token. */
  lemma TokenizeBalanced(c: Candidates, sourcecode: string, filename: Option<string>)
    requires ValidCandidates(c)
    ensures var r := TokenizeWith(c, sourcecode, filename);
            r.Success? ==> Balance(r.value) == 0 && NeverNegative(r.value)
                           && |r.value| > 0 && r.value[|r.value| - 1].kind == EOF
                           && NoEof(r.value[..|r.value| - 1])
  {
    var lines := SplitLines(sourcecode);
    LexLinesFromStart(c, lines, filename);
    var run := LexLines(c, lines, filename, 0, InitialState(filename));
    if run.Success? {
      ClosingBalanced(run.value, EofSymbols(lines, filename));
    }
  }

  /** In the token list `tokenize` returns, a `return` carries the end-of-line
      mark exactly when no token of its own line follows it, and no other token
      carries it. */
  lemma TokenizeReturnsMarked(c: Candidates, sourcecode: string, filename: Option<string>)
    requires ValidCandidates(c)
    ensures var r := TokenizeWith(c, sourcecode, filename);
            r.Success? ==> ReturnsMarked(r.value)
  {
    var lines := SplitLines(sourcecode);
    LexLinesFromStart(c, lines, filename);
    var run := LexLines(c, lines, filename, 0, InitialState(filename));
    if run.Success? {
      ClosingMarked(run.value, EofSymbols(lines, filename));
    }
  }

  // ---------------------------------------------------------------------------
  // The end-of-line mark on `return`

  /** The token after position `i` was scanned from the same line. */
  predicate SameLineNext(ts: seq<Token>, i: nat) {
    i + 1 < |ts| && Scanned(ts[i + 1].kind) && ts[i + 1].symbols.lineNr == ts[i].symbols.lineNr
  }

  predicate IsReturn(t: Token) {
    t.kind == Fixed("return")
  }

  /** Only `return` tokens carry the mark, and a `return` at position `i < n`
      carries it exactly when no token of its own line follows it. */
  predicate MarkedUpTo(ts: seq<Token>, n: int) {
    (forall i | 0 <= i < |ts| && ts[i].value.LineEnd? :: IsReturn(ts[i]))
    && forall i | 0 <= i < |ts| && i < n && IsReturn(ts[i]) :: ts[i].value.LineEnd? <==> !SameLineNext(ts, i)
  }

  predicate ReturnsMarked(ts: seq<Token>) {
    MarkedUpTo(ts, |ts|)
  }

  /** A `return` ending `a` may not be followed, in `b`, by a token of its line. */
  predicate Boundary(a: seq<Token>, b: seq<Token>) {
    |a| > 0 && |b| > 0 && IsReturn(a[|a| - 1]) ==> !(Scanned(b[0].kind) && b[0].symbols.lineNr == a[|a| - 1].symbols.lineNr)
  }

  lemma MarkedAppend(a: seq<Token>, b: seq<Token>)
    requires ReturnsMarked(a) && MarkedUpTo(b, |b| - 1) && Boundary(a, b)
    ensures MarkedUpTo(a + b, |a + b| - 1)
    ensures ReturnsMarked(b) ==> ReturnsMarked(a + b)
  {
    var t := a + b;
    assert forall i | 0 <= i < |a| :: t[i] == a[i];
    assert forall i | |a| <= i < |t| :: t[i] == b[i - |a|];
    forall i | 0 <= i < |t| && IsReturn(t[i])
      ensures (i < |t| - 1 || ReturnsMarked(b)) ==> (t[i].value.LineEnd? <==> !SameLineNext(t, i))
    {
      if i < |a| - 1 {
        assert SameLineNext(t, i) == SameLineNext(a, i);
      } else if i >= |a| {
        assert SameLineNext(t, i) == SameLineNext(b, i - |a|);
      }
    }
  }

  /** The end-of-line pass completes the marking. */
  lemma MarkReturnCompletes(ts: seq<Token>)
    requires MarkedUpTo(ts, |ts| - 1)
    ensures ReturnsMarked(MarkReturn(ts))
  {
    var r := MarkReturn(ts);
    forall i | 0 <= i < |r| - 1 ensures SameLineNext(r, i) == SameLineNext(ts, i) {
    }
  }

  /** Tokens none of which is a marked `return`. */
  lemma Unmarked(ts: seq<Token>)
    requires forall i | 0 <= i < |ts| :: !ts[i].value.LineEnd? && !IsReturn(ts[i])
    ensures ReturnsMarked(ts)
  {
  }

  /** The scanned tokens of one line: each `return` but the last is followed by
      a token of the same line. */
  lemma ScannedMarked(scanned: seq<Token>, filename: Option<string>, lineNr: nat, fullLine: string, lo: int, hi: int)
    requires forall t | t in scanned :: OnLine(t, filename, lineNr, fullLine, lo, hi)
    ensures MarkedUpTo(scanned, |scanned| - 1)
  {
    forall i | 0 <= i < |scanned| ensures OnLine(scanned[i], filename, lineNr, fullLine, lo, hi) {
      assert scanned[i] in scanned;
    }
  }

  /** One line keeps the marking, given that earlier tokens come from earlier lines. */
  lemma AppendLineMarked(st: LexState, lineStart: Symbols, ident: nat, scanned: seq<Token>,
                         filename: Option<string>, lineNr: nat, fullLine: string, lo: int, hi: int)
    requires ReturnsMarked(st.tokens) && EarlierLines(st.tokens, lineNr)
    requires forall t | t in scanned :: OnLine(t, filename, lineNr, fullLine, lo, hi)
    ensures ReturnsMarked(MarkReturn(st.tokens + IndentTokens(lineStart, st.indent, ident) + scanned))
  {
    var b := IndentTokens(lineStart, st.indent, ident);
    IndentTokensCount(lineStart, st.indent, ident);
    forall i | 0 <= i < |b| ensures !b[i].value.LineEnd? && !IsReturn(b[i]) && !Scanned(b[i].kind) {
      assert b[i] in b;
    }
    Unmarked(b);
    MarkedAppend(st.tokens, b);
    var a := st.tokens + b;
    ScannedMarked(scanned, filename, lineNr, fullLine, lo, hi);
    if |a| > 0 && |scanned| > 0 && IsReturn(a[|a| - 1]) {
      assert scanned[0] in scanned;
      if |b| == 0 {
        assert a[|a| - 1] == st.tokens[|st.tokens| - 1];
      }
    }
    MarkedAppend(a, scanned);
    MarkReturnCompletes(a + scanned);
  }

  // ---------------------------------------------------------------------------
  // The choice at one position

  /** `w` is the longest word of `l` that starts `source`. */
  predicate LongestPrefix(l: seq<string>, source: string, w: string) {
    w in l && StartsWith(source, w) && forall t | t in l && StartsWith(source, t) :: |t| <= |w|
  }

  /** Of two words that both start `source`, the one no later in string order
      is no longer. */
  lemma LaterIsNotShorter(a: string, b: string, source: string)
    requires StartsWith(source, a) && StartsWith(source, b) && AtMost(b, a)
    ensures |b| <= |a|
  {
    if |b| > |a| {
      PrefixesAreComparable(a, b, source);
      ProperPrefixIsLess(a, b);
      if LexLess(b, a) {
        LexLessTransitive(a, b, a);
      }
      LexLessIrreflexive(a);
    }
  }

  /** Maximal munch: in a descending list the first word that starts the source
      is the longest one that does. */
  lemma FirstPrefixIsLongest(l: seq<string>, source: string)
    requires Descending(l)
    ensures MatchCandidate(Prefix, source, l).Some? ==> LongestPrefix(l, source, MatchCandidate(Prefix, source, l).value)
  {
    var first := FirstMatch(Prefix, source, l, 0);
    if first.Some? {
      var i := first.value;
      forall t | t in l && StartsWith(source, t) ensures |t| <= |l[i]| {
        var j :| 0 <= j < |l| && l[j] == t;
        assert i <= j;
        if i < j {
          LaterIsNotShorter(l[i], t, source);
        }
      }
    }
  }

  /** The symbolic rule emits the longest operator that starts the source, and
      fires whenever some operator does. */
  lemma SymbolicMaximalMunch(c: Candidates, source: string)
    requires ValidCandidates(c) && OrderedCandidates(c)
    requires exists t :: t in c.symbolic && StartsWith(source, t)
    ensures |source| > 0
    ensures var w := MatchCandidate(Prefix, source, c.symbolic);
            w.Some? && LongestPrefix(c.symbolic, source, w.value) && NextStep(c, source) == CandidateStep(w.value)
  {
    var t :| t in c.symbolic && StartsWith(source, t);
    assert |t| > 0;
    FirstPrefixIsLongest(c.symbolic, source);
  }

  /** A source that does not open with an operator character is never matched
      by the symbolic rule. */
  lemma NoOperatorNoSymbolic(c: Candidates, source: string)
    requires OrderedCandidates(c)
    requires |source| > 0 && !IsOperatorChar(source[0])
    ensures MatchCandidate(Prefix, source, c.symbolic).None?
  {
  }

  /** Two letter-and-digit words that both start `source` on a word boundary
      are the same word, so the order of the keyword list does not matter. */
  lemma WordMatchUnique(source: string, a: string, b: string)
    requires AllAlnum(a) && AllAlnum(b)
    requires StartsWithAlphanumeric(source, a) && StartsWithAlphanumeric(source, b)
    ensures a == b
  {
    assert a == source[..|a|] == b;
  }

  /** Past the operators, a keyword or type name is emitted exactly when it
      starts the source and the source goes on with a character that is not a
      letter or digit; without one the later rules decide. */
  lemma KeywordRule(c: Candidates, source: string)
    requires ValidCandidates(c) && OrderedCandidates(c)
    requires |source| > 0 && !IsOperatorChar(source[0])
    ensures forall w | w in c.alphanumeric && StartsWithAlphanumeric(source, w) :: NextStep(c, source) == CandidateStep(w)
    ensures (forall w | w in c.alphanumeric :: !StartsWithAlphanumeric(source, w)) ==> NextStep(c, source) == LiteralStep(source)
  {
    NoOperatorNoSymbolic(c, source);
    var m := MatchCandidate(Word, source, c.alphanumeric);
    forall w | w in c.alphanumeric && StartsWithAlphanumeric(source, w) ensures NextStep(c, source) == CandidateStep(w) {
      WordMatchUnique(source, m.value, w);
    }
  }

  /** A name starting with a letter or underscore is an identifier running over
      every following letter, digit and underscore. */
  lemma IdentifierRule(source: string)
    requires |source| > 0 && IsNameStart(source[0])
    ensures var r := LiteralStep(source);
            r.Emit? && r.kind == Identifier && r.value == Text(source[..r.width])
            && (forall i | 0 <= i < r.width :: InClass(NameChar, source[i]))
            && (r.width == |source| || !InClass(NameChar, source[r.width]))
  {
  }

  /** The text of a NUMBER token as `int` reads it: `0x` and hex digits, or
      decimal digits. */
  predicate IntegerText(t: string) {
    (|t| > 2 && t[..2] == "0x" && AllDigits(t[2..], 16)) || (|t| > 0 && AllDigits(t, 10))
  }

  /** Numerals: a hex numeral is a NUMBER; otherwise the numeral is a FLOAT when
      it holds `.` or `E` and a NUMBER when not; a NUMBER's text is always an
      integer's digits. */
  lemma NumeralRule(source: string)
    requires |source| > 0 && IsDigit(source[0])
    ensures var r := LiteralStep(source);
            r.Emit? && (r.kind == Number || r.kind == Float) && r.value == Text(source[..r.width])
            && (r.kind == Number ==> IntegerText(source[..r.width]))
            && (r.kind == Float <==> HexLength(source) == 0 && IsFloatText(source[..r.width]))
  {
    var r := LiteralStep(source);
    var t := source[..r.width];
    if HexLength(source) > 0 {
      assert t[..2] == "0x";
      assert forall i | 0 <= i < |t[2..]| :: t[2..][i] == source[i + 2];
    } else if !IsFloatText(t) {
      assert forall i | 0 <= i < |t| :: t[i] != '.' && t[i] != 'E';
      NumeralDigits(source);
    }
  }

  /** The numeral rule's text, when it has no `.` and no `E`, is all digits. */
  lemma NumeralDigits(source: string)
    requires |source| > 0 && IsDigit(source[0])
    requires var n := NumeralLength(source); forall i | 0 <= i < n :: source[i] != '.' && source[i] != 'E'
    ensures AllDigits(source[..NumeralLength(source)], 10)
  {
    var m := RunEnd(source, 0, NumeralChar);
    var n := NumeralLength(source);
    assert n == m;
  }

  /** The body of a string literal: no bare quote, and every backslash escapes
      the character after it. */
  predicate QuotedBody(v: string)
    decreases |v|
  {
    if |v| == 0 then true
    else if v[0] == '\\' then |v| >= 2 && QuotedBody(v[2..])
    else v[0] != '"' && QuotedBody(v[1..])
  }

  /** What the scan for the closing quote passes over is a literal body. */
  lemma {:induction false} ClosingQuoteBody(s: string, i: nat)
    requires i <= |s|
    ensures ClosingQuote(s, i).Some? ==> QuotedBody(s[i..ClosingQuote(s, i).value])
    decreases |s| - i
  {
    var r := ClosingQuote(s, i);
    if r.Some? && s[i] != '"' {
      var q := r.value;
      if s[i] == '\\' {
        ClosingQuoteBody(s, i + 2);
        assert s[i..q][2..] == s[i + 2..q];
      } else {
        ClosingQuoteBody(s, i + 1);
        assert s[i..q][1..] == s[i + 1..q];
      }
    }
  }

  /** The scan stops at the quote that follows a literal body. */
  lemma {:induction false} ClosingQuoteAfterBody(v: string, s: string, i: nat)
    requires QuotedBody(v)
    requires i + |v| < |s| && s[i..i + |v|] == v && s[i + |v|] == '"'
    ensures ClosingQuote(s, i) == Some(i + |v|)
    decreases |v|
  {
    if |v| > 0 {
      assert s[i] == v[0];
      if v[0] == '\\' {
        assert s[i + 2..i + |v|] == v[2..];
        ClosingQuoteAfterBody(v[2..], s, i + 2);
      } else {
        assert s[i + 1..i + |v|] == v[1..];
        ClosingQuoteAfterBody(v[1..], s, i + 1);
      }
    }
  }

  /** String literals: the token's value is the raw text between the quotes,
      and a quoted literal body always reads back as itself. */
  lemma StringRule(c: Candidates, v: string, rest: string)
    requires ValidCandidates(c) && OrderedCandidates(c)
    requires QuotedBody(v)
    ensures var source := "\"" + v + "\"" + rest;
            NextStep(c, source) == Emit(Str, Text(v), |v| + 2)
  {
    var source := "\"" + v + "\"" + rest;
    QuotedSource(v, rest);
    ClosingQuoteAfterBody(v, source, 1);
    StringTokenOnly(c, source);
    LiteralString(source, v);
  }

  lemma QuotedSource(v: string, rest: string)
    ensures var source := "\"" + v + "\"" + rest;
            |v| + 1 < |source| && source[0] == '"' && source[1..1 + |v|] == v && source[1 + |v|] == '"'
  {
    var source := "\"" + v + "\"" + rest;
    assert source[1..1 + |v|] == v;
  }

  lemma LiteralString(source: string, v: string)
    requires |source| > 0 && source[0] == '"'
    requires ClosingQuote(source, 1) == Some(|v| + 1) && source[1..|v| + 1] == v
    ensures LiteralStep(source) == Emit(Str, Text(v), |v| + 2)
  {
  }

  /** A source opening with a quote reaches the literal rules. */
  lemma StringTokenOnly(c: Candidates, source: string)
    requires ValidCandidates(c) && OrderedCandidates(c)
    requires |source| > 0 && source[0] == '"'
    ensures NextStep(c, source) == LiteralStep(source)
  {
    NoOperatorNoSymbolic(c, source);
    NoWordMatch(c.alphanumeric, source);
    ReachesLiterals(c, source);
  }

  /** With no operator and no keyword match, the literal rules decide. */
  lemma ReachesLiterals(c: Candidates, source: string)
    requires ValidCandidates(c) && |source| > 0
    requires MatchCandidate(Prefix, source, c.symbolic).None? && MatchCandidate(Word, source, c.alphanumeric).None?
    ensures NextStep(c, source) == LiteralStep(source)
  {
  }

  /** A source opening with a character other than a letter or digit matches
      no keyword. */
  lemma NoWordMatch(l: seq<string>, source: string)
    requires NonEmptyWords(l) && AlnumWords(l)
    requires |source| > 0 && !IsAlnum(source[0])
    ensures MatchCandidate(Word, source, l).None?
  {
    forall w | w in l ensures !StartsWithAlphanumeric(source, w) {
      FirstCharOfPrefix(source, w);
    }
  }

  lemma FirstCharOfPrefix(source: string, w: string)
    requires |w| > 0
    ensures StartsWith(source, w) ==> w[0] == source[0]
  {
  }

  /** Any token of a string literal was a quoted body between two quotes. */
  lemma StringTokenShape(source: string)
    requires |source| > 0 && source[0] == '"'
    ensures var r := LiteralStep(source);
            r.Emit? ==> r.kind == Str && r.width >= 2 && source[r.width - 1] == '"'
                        && r.value.Text? && QuotedBody(r.value.text)
                        && source[..r.width] == "\"" + r.value.text + "\""
  {
    var r := LiteralStep(source);
    if r.Emit? {
      ClosingQuoteBody(source, 1);
    }
  }

  /** Whitespace is skipped; every other character the rules do not cover is
      reported. */
  lemma WhitespaceAndUnknown(source: string)
    requires |source| > 0
    ensures IsIgnored(source[0]) ==> LiteralStep(source) == Skip
    ensures LiteralStep(source) == Unknown <==>
              !IsIgnored(source[0]) && !IsNameStart(source[0]) && !IsDigit(source[0]) && source[0] != '.'
              && (source[0] == '"' ==> ClosingQuote(source, 1).None?)
  {
  }
}

=== FILE: main_compiler.dfy ===
/** The two pure helpers of flolang/main_compiler.py: `file_ending`, which adds
    an extension when it is missing, and `switch`, which looks a switch up in
    the list `console.parse_arguments` produces. */
module MainCompiler {
  import opened Wrappers
  import opened Strings

  /** `file_ending(file_name, ending)`. */
  function FileEnding(fileName: string, ending: string): (r: string)
    ensures EndsWith(r, ending)
    ensures EndsWith(fileName, ending) ==> r == fileName
    ensures !EndsWith(fileName, ending) ==> r == fileName + ending
  {
    if !EndsWith(fileName, ending) then
      assert (fileName + ending)[|fileName|..] == ending;
      fileName + ending
    else fileName
  }

  /** Adding the extension a second time changes nothing. */
  lemma FileEndingIdempotent(fileName: string, ending: string)
    ensures FileEnding(FileEnding(fileName, ending), ending) == FileEnding(fileName, ending)
  {
  }

  /** `switch(switches, switch)`: the long form `--switch` or the first
      character of the name. `None` stands for the `IndexError` that `switch[0]`
      raises on an empty name when the long form is absent. */
  function Switch(switches: seq<string>, name: string): (r: Option<bool>)
    ensures r.None? <==> "--" + name !in switches && |name| == 0
    ensures r.Some? ==> (r.value <==> "--" + name in switches || (|name| > 0 && [name[0]] in switches))
  {
    if "--" + name in switches then Some(true)
    else if |name| == 0 then None
    else Some([name[0]] in switches)
  }
}

=== FILE: parser.dfy ===
/** The recursive-descent `Parser` of flolang/abstract_source_tree.py. The
    source pops tokens off a list; here every parse function reads the fixed
    token sequence at a position and returns the node with the position after
    it. The sequence ends with the lexer's EOF, which no parse function
    consumes. */
module Parser {
  import opened Wrappers
  import opened Strings
  import opened Diagnostics
  import opened Tokens
  import opened Ast

  /** Why parsing stopped; the source raises a positioned diagnostic. */
  datatype Reason =
    | Expected(kind: Kind)        // `eat_expect` consumed a token of another kind
    | NoDeclarationType           // `var`/`const` not followed by a type
    | NoArgumentType              // a parameter not starting with a type
    | IncrementNeedsIdentifier    // `++`/`--` applied to something else than an identifier
    | DotNeedsIdentifier          // `.` not followed by an identifier
    | UnexpectedToken             // no primary expression starts here
    | BadNumber                   // `int()` rejects the NUMBER text
    | BadFloat                    // `float()` rejects the FLOAT text

  datatype ParseError = ParseError(reason: Reason, symbols: Symbols)

  /** A parsed value and the position of the first token after it. */
  datatype Parsed<T> = Parsed(value: T, pos: nat)

  /** Token sequences the parser is given: the lexer's output ends with EOF. */
  predicate WellEnded(tokens: seq<Token>) {
    |tokens| > 0 && tokens[|tokens| - 1].kind == EOF
  }

  /** `pos` points into a well-ended token sequence. */
  predicate Inside(tokens: seq<Token>, pos: int) {
    WellEnded(tokens) && 0 <= pos < |tokens|
  }

  function KindAt(tokens: seq<Token>, pos: nat): Kind
    requires pos < |tokens|
  {
    tokens[pos].kind
  }

  /** The text of a token value; the lexer gives every data token a text. */
  function ValueText(v: TokenValue): string {
    if v.Text? then v.text else ""
  }

  function Fail<T>(reason: Reason, tokens: seq<Token>, pos: nat): (r: Result<T, ParseError>)
    requires pos < |tokens|
    ensures r.Failure? && r.error == ParseError(reason, tokens[pos].symbols)
  {
    Failure(ParseError(reason, tokens[pos].symbols))
  }

  /** `eat_expect`: consumes the token and fails, at that token, unless it has
      the expected kind. */
  function EatExpect(tokens: seq<Token>, pos: nat, kind: Kind): (r: Result<Parsed<Token>, ParseError>)
    requires Inside(tokens, pos) && !kind.EOF?
    ensures r.Success? <==> tokens[pos].kind == kind
    ensures r.Success? ==> r.value == Parsed(tokens[pos], pos + 1) && pos + 1 < |tokens|
    ensures r.Failure? ==> r.error == ParseError(Expected(kind), tokens[pos].symbols)
  {
    if tokens[pos].kind == kind then Success(Parsed(tokens[pos], pos + 1))
    else Fail(Expected(kind), tokens, pos)
  }

  /** `parse_next_type`: an IDENTIFIER or BUILTINTYPE token read as a type, or
      nothing (and nothing consumed). */
  function ParseNextType(tokens: seq<Token>, pos: nat): (r: Parsed<Option<Type>>)
    requires Inside(tokens, pos)
    ensures r.value.Some? <==> tokens[pos].kind == Kind.Identifier || tokens[pos].kind == BuiltinType
    ensures r.value.Some? ==> r.pos == pos + 1 < |tokens|
                              && r.value.value == Type(ValueText(tokens[pos].value), tokens[pos].kind == BuiltinType)
    ensures r.value.None? ==> r.pos == pos
  {
    if tokens[pos].kind == Kind.Identifier then Parsed(Some(Type(ValueText(tokens[pos].value), false)), pos + 1)
    else if tokens[pos].kind == BuiltinType then Parsed(Some(Type(ValueText(tokens[pos].value), true)), pos + 1)
    else Parsed(None, pos)
  }

  // ---------------------------------------------------------------------------
  // Operator classes

  /** The nine assignment operators. */
  predicate AssignmentOperator(k: Kind) {
    k == Fixed("=") || k == Fixed("+=") || k == Fixed("-=") || k == Fixed("*=") || k == Fixed("/=")
    || k == Fixed("%=") || k == Fixed("&=") || k == Fixed("^=") || k == Fixed("|=")
  }

  /** The binary operators of precedence level `level`, from `or` (0) to `**` (10). */
  predicate LevelOperator(level: nat, k: Kind) {
    if level == 0 then k == Fixed("or")
    else if level == 1 then k == Fixed("and")
    else if level == 2 then k == Fixed("|")
    else if level == 3 then k == Fixed("^")
    else if level == 4 then k == Fixed("&")
    else if level == 5 then k == Fixed("==") || k == Fixed("!=")
    else if level == 6 then k == Fixed(">=") || k == Fixed("<=") || k == Fixed(">") || k == Fixed("<")
    else if level == 7 then k == Fixed(">>") || k == Fixed("<<")
    else if level == 8 then k == Fixed("+") || k == Fixed("-")
    else if level == 9 then k == Fixed("*") || k == Fixed("/") || k == Fixed("%") || k == Fixed("//")
    else level == 10 && k == Fixed("**")
  }

  const TopLevel: nat := 10

  /** The prefix operators that take any postfix expression. */
  predicate PrefixOperator(k: Kind) {
    k == Fixed("not") || k == Fixed("~") || k == Fixed("+") || k == Fixed("-")
  }

  predicate IncrementOperator(k: Kind) {
    k == Fixed("++") || k == Fixed("--")
  }

  /** The tokens a primary expression can start with. */
  predicate PrimaryStart(k: Kind) {
    k == Kind.Identifier || k == Number || k == Float || k == Str || k == Fixed("(")
  }

  // ---------------------------------------------------------------------------
  // Statements

  /** `parse`: statements until the next token is EOF. */
  function ParseProgram(tokens: seq<Token>): (r: Result<Node, ParseError>)
    requires WellEnded(tokens)
    ensures r.Success? ==> r.value.Program?
  {
    var body :- ParseStatements(tokens, [], 0);
    Success(Program(body.value))
  }

  /** The `while self.not_eof()` loop of `parse`. */
  function ParseStatements(tokens: seq<Token>, done: seq<Node>, pos: nat): (r: Result<Parsed<seq<Node>>, ParseError>)
    requires Inside(tokens, pos)
    ensures r.Success? ==> pos <= r.value.pos < |tokens| && tokens[r.value.pos].kind == EOF
    ensures r.Success? ==> |done| <= |r.value.value| && r.value.value[..|done|] == done
    decreases |tokens| - pos, 130
  {
    if tokens[pos].kind == EOF then Success(Parsed(done, pos))
    else
      var s :- ParseStatement(tokens, pos);
      ParseStatements(tokens, done + [s.value], s.pos)
  }

  /** `parse_statement`: declarations and `return` by their keyword, anything
      else as an expression. */
  function ParseStatement(tokens: seq<Token>, pos: nat): (r: Result<Parsed<Node>, ParseError>)
    requires Inside(tokens, pos)
    ensures r.Success? ==> pos < r.value.pos < |tokens|
    decreases |tokens| - pos, 120
  {
    var k := tokens[pos].kind;
    if k == Fixed("var") || k == Fixed("const") then ParseVarDeclaration(tokens, pos)
    else if k == Fixed("fn") then ParseFunctionDeclaration(tokens, pos)
    else if k == Fixed("return") then ParseReturn(tokens, pos)
    else ParseExpression(tokens, pos)
  }

  /** `parse_var_declaration`, at the `var` or `const` keyword. */
  function ParseVarDeclaration(tokens: seq<Token>, pos: nat): (r: Result<Parsed<Node>, ParseError>)
    requires Inside(tokens, pos) && (tokens[pos].kind == Fixed("var") || tokens[pos].kind == Fixed("const"))
    ensures r.Success? ==> pos < r.value.pos < |tokens| && r.value.value.VarDeclaration?
    ensures r.Success? ==> (r.value.value.constant <==> tokens[pos].kind == Fixed("const"))
    ensures r.Success? && r.value.value.constant ==> r.value.value.initializer.Some?
    ensures r.Success? ==> (tokens[pos + 1].kind == Kind.Identifier || tokens[pos + 1].kind == BuiltinType)
                           && r.value.value.varType == Type(ValueText(tokens[pos + 1].value), tokens[pos + 1].kind == BuiltinType)
    ensures !(tokens[pos + 1].kind == Kind.Identifier || tokens[pos + 1].kind == BuiltinType)
            ==> r == Failure(ParseError(NoDeclarationType, tokens[pos + 1].symbols))
    decreases |tokens| - pos, 115
  {
    var isConst := tokens[pos].kind == Fixed("const");
    var t := ParseNextType(tokens, pos + 1);
    if t.value.None? then Fail(NoDeclarationType, tokens, pos + 1)
    else
      var id :- EatExpect(tokens, t.pos, Kind.Identifier);
      var name := ValueText(id.value.value);
      if isConst then
        var eq :- EatExpect(tokens, id.pos, Fixed("="));
        var value :- ParseExpression(tokens, eq.pos);
        Success(Parsed(VarDeclaration(true, t.value.value, name, Some(value.value)), value.pos))
      else if tokens[id.pos].kind == Fixed("=") then
        var value :- ParseExpression(tokens, id.pos + 1);
        Success(Parsed(VarDeclaration(false, t.value.value, name, Some(value.value)), value.pos))
      else Success(Parsed(VarDeclaration(false, t.value.value, name, None), id.pos))
  }

  /** `parse_function_declaration`, at the `fn` keyword: name, parameter list,
      optional result type, `:`, and an indented body. */
  function ParseFunctionDeclaration(tokens: seq<Token>, pos: nat): (r: Result<Parsed<Node>, ParseError>)
    requires Inside(tokens, pos) && tokens[pos].kind == Fixed("fn")
    ensures r.Success? ==> pos < r.value.pos < |tokens| && r.value.value.FunctionDeclaration?
    decreases |tokens| - pos, 115
  {
    var id :- EatExpect(tokens, pos + 1, Kind.Identifier);
    var params :- ParseParameterList(tokens, id.pos);
    var result := ParseNextType(tokens, params.pos);
    var colon :- EatExpect(tokens, result.pos, Fixed(":"));
    var start :- EatExpect(tokens, colon.pos, BlockStart);
    var body :- ParseBody(tokens, [], start.pos);
    var end :- EatExpect(tokens, body.pos, BlockEnd);
    Success(Parsed(FunctionDeclaration(params.value, result.value, ValueText(id.value.value), body.value), end.pos))
  }

  /** The body loop of `parse_function_declaration`: statements until EOF or
      BLOCKEND. */
  function ParseBody(tokens: seq<Token>, done: seq<Node>, pos: nat): (r: Result<Parsed<seq<Node>>, ParseError>)
    requires Inside(tokens, pos)
    ensures r.Success? ==> pos <= r.value.pos < |tokens|
    ensures r.Success? ==> tokens[r.value.pos].kind == EOF || tokens[r.value.pos].kind == BlockEnd
    ensures r.Success? ==> |done| <= |r.value.value| && r.value.value[..|done|] == done
    decreases |tokens| - pos, 125
  {
    if tokens[pos].kind == EOF || tokens[pos].kind == BlockEnd then Success(Parsed(done, pos))
    else
      var s :- ParseStatement(tokens, pos);
      ParseBody(tokens, done + [s.value], s.pos)
  }

  /** `parse_function_arguments`: `(`, parameters, `)`. */
  function ParseParameterList(tokens: seq<Token>, pos: nat): (r: Result<Parsed<seq<Parameter>>, ParseError>)
    requires Inside(tokens, pos)
    ensures r.Success? ==> pos < r.value.pos < |tokens|
    decreases |tokens| - pos, 114
  {
    var open :- EatExpect(tokens, pos, Fixed("("));
    var params :- ParseParameters(tokens, [], open.pos);
    var close :- EatExpect(tokens, params.pos, Fixed(")"));
    Success(Parsed(params.value, close.pos))
  }

  /** The loop of `parse_function_arguments`: `type name [= default]`, each but
      the last followed by `,`, until EOF or `)`. */
  function ParseParameters(tokens: seq<Token>, done: seq<Parameter>, pos: nat): (r: Result<Parsed<seq<Parameter>>, ParseError>)
    requires Inside(tokens, pos)
    ensures r.Success? ==> pos <= r.value.pos < |tokens|
    decreases |tokens| - pos, 113
  {
    if tokens[pos].kind == EOF || tokens[pos].kind == Fixed(")") then Success(Parsed(done, pos))
    else
      var t := ParseNextType(tokens, pos);
      if t.value.None? then Fail(NoArgumentType, tokens, pos)
      else
        var id :- EatExpect(tokens, t.pos, Kind.Identifier);
        var default :- ParseDefault(tokens, id.pos);
        var next :- ParseSeparator(tokens, default.pos, Fixed(")"));
        ParseParameters(tokens, done + [Parameter(t.value.value, id.value, default.value)], next)
  }

  /** An optional `= expression` after a parameter name. */
  function ParseDefault(tokens: seq<Token>, pos: nat): (r: Result<Parsed<Option<Node>>, ParseError>)
    requires Inside(tokens, pos)
    ensures r.Success? ==> pos <= r.value.pos < |tokens|
    ensures r.Success? && r.value.value.None? ==> r.value.pos == pos
    decreases |tokens| - pos, 112
  {
    if tokens[pos].kind == Fixed("=") then
      var e :- ParseExpression(tokens, pos + 1);
      Success(Parsed(Some(e.value), e.pos))
    else Success(Parsed(None, pos))
  }

  /** "expect close or if not expect a `,`": nothing is consumed before the
      closing token, a `,` is consumed otherwise. */
  function ParseSeparator(tokens: seq<Token>, pos: nat, close: Kind): (r: Result<nat, ParseError>)
    requires Inside(tokens, pos) && !close.EOF?
    ensures r.Success? ==> pos <= r.value < |tokens|
    ensures r.Success? <==> tokens[pos].kind == close || tokens[pos].kind == Fixed(",")
    ensures r.Success? ==> r.value == if tokens[pos].kind == close then pos else pos + 1
  {
    if tokens[pos].kind == close then Success(pos)
    else
      var comma :- EatExpect(tokens, pos, Fixed(","));
      Success(comma.pos)
  }

  /** `parse_return_declaration`: a `return` whose token value is `None` (more
      tokens follow on its line) takes an expression; one marked as ending its
      line does not. */
  function ParseReturn(tokens: seq<Token>, pos: nat): (r: Result<Parsed<Node>, ParseError>)
    requires Inside(tokens, pos) && tokens[pos].kind == Fixed("return")
    ensures r.Success? ==> pos < r.value.pos < |tokens| && r.value.value.Return?
    ensures r.Success? ==> (r.value.value.returned.Some? <==> tokens[pos].value == NoValue)
    decreases |tokens| - pos, 115
  {
    if tokens[pos].value == NoValue then
      var e :- ParseExpression(tokens, pos + 1);
      Success(Parsed(Return(Some(e.value)), e.pos))
    else Success(Parsed(Return(None), pos + 1))
  }

  // ---------------------------------------------------------------------------
  // Expressions

  /** `parse_expression`, which is `parse_assignment_expression`: an object or
      binary expression, and when an assignment operator follows it, the
      assignment of the (right-associative) rest to it. */
  function ParseExpression(tokens: seq<Token>, pos: nat): (r: Result<Parsed<Node>, ParseError>)
    requires Inside(tokens, pos)
    ensures r.Success? ==> pos < r.value.pos < |tokens|
    decreases |tokens| - pos, 101
  {
    var assignee :- ParseObject(tokens, pos);
    if AssignmentOperator(tokens[assignee.pos].kind) then
      var value :- ParseExpression(tokens, assignee.pos + 1);
      Success(Parsed(Assignment(assignee.value, value.value, tokens[assignee.pos].kind.text), value.pos))
    else Success(assignee)
  }

  /** `parse_object_expression`: `{ ... }`, or the binary expression of the
      lowest level. */
  function ParseObject(tokens: seq<Token>, pos: nat): (r: Result<Parsed<Node>, ParseError>)
    requires Inside(tokens, pos)
    ensures r.Success? ==> pos < r.value.pos < |tokens|
    decreases |tokens| - pos, 100
  {
    if tokens[pos].kind != Fixed("{") then ParseBinary(tokens, 0, pos)
    else
      var props :- ParseProperties(tokens, [], pos + 1);
      var close :- EatExpect(tokens, props.pos, Fixed("}"));
      Success(Parsed(ObjectLiteral(props.value), close.pos))
  }

  /** The property loop: `key`, `key,` or `key: value` followed by `,` unless
      `}` comes next; until EOF or `}`. */
  function ParseProperties(tokens: seq<Token>, done: seq<Property>, pos: nat): (r: Result<Parsed<seq<Property>>, ParseError>)
    requires Inside(tokens, pos)
    ensures r.Success? ==> pos <= r.value.pos < |tokens|
    decreases |tokens| - pos, 99
  {
    if tokens[pos].kind == EOF || tokens[pos].kind == Fixed("}") then Success(Parsed(done, pos))
    else
      var key :- EatExpect(tokens, pos, Kind.Identifier);
      var name := ValueText(key.value.value);
      if tokens[key.pos].kind == Fixed(",") then
        ParseProperties(tokens, done + [Property(name, None)], key.pos + 1)
      else if tokens[key.pos].kind == Fixed("}") then
        ParseProperties(tokens, done + [Property(name, None)], key.pos)
      else
        var colon :- EatExpect(tokens, key.pos, Fixed(":"));
        var value :- ParseExpression(tokens, colon.pos);
        var next :- ParseSeparator(tokens, value.pos, Fixed("}"));
        ParseProperties(tokens, done + [Property(name, Some(value.value))], next)
  }

  /** The binary expression of precedence level `level`: operands of the next
      level joined, left to right, by this level's operators. */
  function ParseBinary(tokens: seq<Token>, level: nat, pos: nat): (r: Result<Parsed<Node>, ParseError>)
    requires Inside(tokens, pos) && level <= TopLevel
    ensures r.Success? ==> pos < r.value.pos < |tokens|
    decreases |tokens| - pos, 90 - 3 * level
  {
    var left :- ParseOperand(tokens, level, pos);
    BinaryLoop(tokens, level, left.value, left.pos)
  }

  /** An operand of level `level`: the next level's expression, or a prefix
      expression for `**`. */
  function ParseOperand(tokens: seq<Token>, level: nat, pos: nat): (r: Result<Parsed<Node>, ParseError>)
    requires Inside(tokens, pos) && level <= TopLevel
    ensures r.Success? ==> pos < r.value.pos < |tokens|
    decreases |tokens| - pos, 89 - 3 * level
  {
    if level == TopLevel then ParsePrefix(tokens, pos) else ParseBinary(tokens, level + 1, pos)
  }

  /** The `while` loop of a binary level: `left` is everything parsed so far. */
  function BinaryLoop(tokens: seq<Token>, level: nat, left: Node, pos: nat): (r: Result<Parsed<Node>, ParseError>)
    requires Inside(tokens, pos) && level <= TopLevel
    ensures r.Success? ==> pos <= r.value.pos < |tokens|
    decreases |tokens| - pos, 88 - 3 * level
  {
    if LevelOperator(level, tokens[pos].kind) then
      var right :- ParseOperand(tokens, level, pos + 1);
      BinaryLoop(tokens, level, Binary(left, right.value, tokens[pos].kind.text), right.pos)
    else Success(Parsed(left, pos))
  }

  /** `parse_single_operator_before_expr`: `not`, `~`, `+`, `-` take a postfix
      expression; `++`/`--` take a postfix expression that must be an
      identifier. */
  function ParsePrefix(tokens: seq<Token>, pos: nat): (r: Result<Parsed<Node>, ParseError>)
    requires Inside(tokens, pos)
    ensures r.Success? ==> pos < r.value.pos < |tokens|
    decreases |tokens| - pos, 50
  {
    var k := tokens[pos].kind;
    if PrefixOperator(k) then
      var e :- ParsePostfix(tokens, pos + 1);
      Success(Parsed(UnaryBefore(e.value, k.text), e.pos))
    else if IncrementOperator(k) then
      var e :- ParsePostfix(tokens, pos + 1);
      if !e.value.Identifier? then Fail(IncrementNeedsIdentifier, tokens, e.pos)
      else Success(Parsed(UnaryIdentifierBefore(e.value.symbol, k.text), e.pos))
    else ParsePostfix(tokens, pos)
  }

  /** `parse_single_operator_after_expr`: a call or member expression,
      optionally followed by `++`/`--`, which needs an identifier. */
  function ParsePostfix(tokens: seq<Token>, pos: nat): (r: Result<Parsed<Node>, ParseError>)
    requires Inside(tokens, pos)
    ensures r.Success? ==> pos < r.value.pos < |tokens|
    ensures r.Success? ==> PrimaryStart(tokens[pos].kind)
    decreases |tokens| - pos, 49
  {
    var e :- ParseCallMember(tokens, pos);
    var k := tokens[e.pos].kind;
    if IncrementOperator(k) then
      if !e.value.Identifier? then Fail(IncrementNeedsIdentifier, tokens, e.pos)
      else Success(Parsed(UnaryIdentifierAfter(e.value.symbol, k.text), e.pos + 1))
    else Success(e)
  }

  /** `parse_call_member_expr`: a member expression, called when `(` follows. */
  function ParseCallMember(tokens: seq<Token>, pos: nat): (r: Result<Parsed<Node>, ParseError>)
    requires Inside(tokens, pos)
    ensures r.Success? ==> pos < r.value.pos < |tokens|
    ensures r.Success? ==> PrimaryStart(tokens[pos].kind)
    decreases |tokens| - pos, 48
  {
    var member :- ParseMember(tokens, pos);
    if tokens[member.pos].kind == Fixed("(") then ParseCall(tokens, member.value, member.pos)
    else Success(member)
  }

  /** `parse_call_expr`: one argument list applied to `caller`, then as many
      more as follow, each wrapping the call before it. */
  function ParseCall(tokens: seq<Token>, caller: Node, pos: nat): (r: Result<Parsed<Node>, ParseError>)
    requires Inside(tokens, pos)
    ensures r.Success? ==> pos < r.value.pos < |tokens| && r.value.value.Call?
    decreases |tokens| - pos, 47
  {
    var args :- ParseCallArguments(tokens, pos);
    var call := Call(caller, args.value);
    if tokens[args.pos].kind == Fixed("(") then ParseCall(tokens, call, args.pos)
    else Success(Parsed(call, args.pos))
  }

  /** `parse_call_arguments`: `(`, nothing or a comma-separated list, `)`. */
  function ParseCallArguments(tokens: seq<Token>, pos: nat): (r: Result<Parsed<seq<Node>>, ParseError>)
    requires Inside(tokens, pos)
    ensures r.Success? ==> pos < r.value.pos < |tokens|
    decreases |tokens| - pos, 46
  {
    var open :- EatExpect(tokens, pos, Fixed("("));
    var args :- (if tokens[open.pos].kind == Fixed(")") then Success(Parsed([], open.pos))
                 else ParseArgumentList(tokens, open.pos));
    var close :- EatExpect(tokens, args.pos, Fixed(")"));
    Success(Parsed(args.value, close.pos))
  }

  /** `parse_call_argument_list`: expressions separated by `,`. */
  function ParseArgumentList(tokens: seq<Token>, pos: nat): (r: Result<Parsed<seq<Node>>, ParseError>)
    requires Inside(tokens, pos)
    ensures r.Success? ==> pos < r.value.pos < |tokens|
    decreases |tokens| - pos, 105
  {
    var first :- ParseExpression(tokens, pos);
    ArgumentLoop(tokens, [first.value], first.pos)
  }

  function ArgumentLoop(tokens: seq<Token>, done: seq<Node>, pos: nat): (r: Result<Parsed<seq<Node>>, ParseError>)
    requires Inside(tokens, pos)
    ensures r.Success? ==> pos <= r.value.pos < |tokens|
    decreases |tokens| - pos, 45
  {
    if tokens[pos].kind == Fixed(",") then
      var next :- ParseExpression(tokens, pos + 1);
      ArgumentLoop(tokens, done + [next.value], next.pos)
    else Success(Parsed(done, pos))
  }

  /** `parse_member_expr`: a primary, then any number of `.name` and
      `[expression]` accesses. */
  function ParseMember(tokens: seq<Token>, pos: nat): (r: Result<Parsed<Node>, ParseError>)
    requires Inside(tokens, pos)
    ensures r.Success? ==> pos < r.value.pos < |tokens|
    ensures r.Success? ==> PrimaryStart(tokens[pos].kind)
    decreases |tokens| - pos, 40
  {
    var obj :- ParsePrimary(tokens, pos);
    MemberLoop(tokens, obj.value, obj.pos)
  }

  function MemberLoop(tokens: seq<Token>, obj: Node, pos: nat): (r: Result<Parsed<Node>, ParseError>)
    requires Inside(tokens, pos)
    ensures r.Success? ==> pos <= r.value.pos < |tokens|
    decreases |tokens| - pos, 39
  {
    if tokens[pos].kind == Fixed(".") then
      var child :- ParsePrimary(tokens, pos + 1);
      if !child.value.Identifier? then Fail(DotNeedsIdentifier, tokens, child.pos)
      else MemberLoop(tokens, Member(obj, child.value, false), child.pos)
    else if tokens[pos].kind == Fixed("[") then
      var child :- ParseExpression(tokens, pos + 1);
      var close :- EatExpect(tokens, child.pos, Fixed("]"));
      MemberLoop(tokens, Member(obj, child.value, true), close.pos)
    else Success(Parsed(obj, pos))
  }

  /** `parse_primary_expr`: identifiers, literals and parenthesised
      expressions (the parentheses leave no node of their own). */
  function ParsePrimary(tokens: seq<Token>, pos: nat): (r: Result<Parsed<Node>, ParseError>)
    requires Inside(tokens, pos)
    ensures r.Success? ==> pos < r.value.pos < |tokens|
    ensures r.Success? ==> PrimaryStart(tokens[pos].kind)
    ensures tokens[pos].kind == Float ==> (r.Success? <==> FloatText(ValueText(tokens[pos].value)))
    decreases |tokens| - pos, 30
  {
    var t := tokens[pos];
    if t.kind == Kind.Identifier then Success(Parsed(Node.Identifier(ValueText(t.value)), pos + 1))
    else if t.kind == Number then
      var n := NumericValue(ValueText(t.value));
      if n.None? then Fail(BadNumber, tokens, pos)
      else Success(Parsed(NumericLiteral(n.value, ValueText(t.value)), pos + 1))
    else if t.kind == Float then
      if !FloatText(ValueText(t.value)) then Fail(BadFloat, tokens, pos)
      else Success(Parsed(FloatLiteral(ValueText(t.value)), pos + 1))
    else if t.kind == Str then Success(Parsed(StringLiteral(ValueText(t.value)), pos + 1))
    else if t.kind == Fixed("(") then
      var e :- ParseExpression(tokens, pos + 1);
      var close :- EatExpect(tokens, e.pos, Fixed(")"));
      Success(Parsed(e.value, close.pos))
    else Fail(UnexpectedToken, tokens, pos)
  }
}

=== FILE: parser_properties.dfy ===
/** Properties of the parser: the program is the chain of its statements,
    binary levels fold to the left, higher levels bind tighter, assignment
    nests to the right, and the shapes the error checks enforce. */
module ParserProperties {
  import opened Wrappers
  import opened Strings
  import opened Diagnostics
  import opened Tokens
  import opened Lexer
  import opened LexerProperties
  import opened Ast
  import opened Parser

  // ---------------------------------------------------------------------------
  // The program as a chain of statements

  /** `body` is what consecutive `parse_statement` calls return from `pos`,
      the last one stopping at EOF. */
  predicate StatementChain(tokens: seq<Token>, pos: nat, body: seq<Node>)
    requires Inside(tokens, pos)
    decreases |body|
  {
    if |body| == 0 then tokens[pos].kind == EOF
    else
      tokens[pos].kind != EOF &&
      var s := ParseStatement(tokens, pos);
      s.Success? && s.value.value == body[0] && StatementChain(tokens, s.value.pos, body[1..])
  }

  lemma {:induction false} StatementsAreChain(tokens: seq<Token>, done: seq<Node>, pos: nat, rest: seq<Node>)
    requires Inside(tokens, pos)
    ensures (ParseStatements(tokens, done, pos).Success? && ParseStatements(tokens, done, pos).value.value == done + rest)
            <==> StatementChain(tokens, pos, rest)
    decreases |tokens| - pos
  {
    if tokens[pos].kind == EOF {
      if |rest| > 0 {
        assert |done + rest| > |done|;
      }
    } else {
      var s := ParseStatement(tokens, pos);
      if s.Success? {
        var next := done + [s.value.value];
        if |rest| > 0 && rest[0] == s.value.value {
          assert done + rest == next + rest[1..];
          StatementsAreChain(tokens, next, s.value.pos, rest[1..]);
        }
      }
    }
  }

  /** `parse` returns exactly the statements one `parse_statement` call after
      another produces until the next token is EOF. */
  lemma ProgramIsStatementChain(tokens: seq<Token>, body: seq<Node>)
    requires WellEnded(tokens)
    ensures ParseProgram(tokens) == Success(Program(body)) <==> StatementChain(tokens, 0, body)
  {
    StatementsAreChain(tokens, [], 0, body);
    assert [] + body == body;
  }

  /** The lexer's successful output is always a valid parser input. */
  lemma TokenizedIsWellEnded(c: Candidates, sourcecode: string, filename: Option<string>)
    requires ValidCandidates(c)
    ensures TokenizeWith(c, sourcecode, filename).Success? ==> WellEnded(TokenizeWith(c, sourcecode, filename).value)
  {
    TokenizeBalanced(c, sourcecode, filename);
  }

  /** A NUMBER token's text, which the lexer makes integer text, always
      converts, and to the value its digits spell in base 16 or 10. */
  lemma NumberTextConverts(t: string)
    requires IntegerText(t)
    ensures NumericValue(t).Some?
    ensures StartsWith(t, "0x") ==> NumericValue(t).value == DigitsValue(t[2..], 16)
    ensures !StartsWith(t, "0x") ==> NumericValue(t).value == DigitsValue(t, 10)
  {
    if |t| > 2 && t[..2] == "0x" {
      assert StartsWith(t, "0x");
    } else if StartsWith(t, "0x") {
      assert IsDigit(t[1]);
    }
  }

  // ---------------------------------------------------------------------------
  // Binary levels

  /** The left fold of the operands with the operators between them. */
  function FoldLeft(left: Node, rights: seq<Node>, ops: seq<string>): (r: Node)
    requires |rights| == |ops|
    ensures |rights| > 0 ==> r.Binary? && r.right == rights[|rights| - 1] && r.operator == ops[|ops| - 1]
    decreases |rights|
  {
    if |rights| == 0 then left else FoldLeft(Binary(left, rights[0], ops[0]), rights[1..], ops[1..])
  }

  /** From `pos` the tokens are `op_1 operand_1 ... op_n operand_n` with every
      `op_i` of `level` and every `operand_i` what `ParseOperand` returns
      there, and at `end` no operator of the level follows. */
  predicate LoopChain(tokens: seq<Token>, level: nat, pos: nat, rights: seq<Node>, ops: seq<string>, end: nat)
    requires level <= TopLevel
    decreases |rights|
  {
    Inside(tokens, pos) && |rights| == |ops| &&
    if |rights| == 0 then pos == end && !LevelOperator(level, tokens[pos].kind)
    else
      LevelOperator(level, tokens[pos].kind) && tokens[pos].kind == Fixed(ops[0]) &&
      var o := ParseOperand(tokens, level, pos + 1);
      o.Success? && o.value.value == rights[0] && LoopChain(tokens, level, o.value.pos, rights[1..], ops[1..], end)
  }

  lemma {:induction false} LoopFolds(tokens: seq<Token>, level: nat, left: Node, pos: nat, rights: seq<Node>, ops: seq<string>, end: nat)
    requires level <= TopLevel && LoopChain(tokens, level, pos, rights, ops, end)
    ensures BinaryLoop(tokens, level, left, pos) == Success(Parsed(FoldLeft(left, rights, ops), end))
    decreases |rights|
  {
    if |rights| > 0 {
      var o := ParseOperand(tokens, level, pos + 1);
      LoopFolds(tokens, level, Binary(left, rights[0], ops[0]), o.value.pos, rights[1..], ops[1..], end);
    }
  }

  lemma {:induction false} LoopIsChain(tokens: seq<Token>, level: nat, left: Node, pos: nat)
    requires Inside(tokens, pos) && level <= TopLevel
    requires BinaryLoop(tokens, level, left, pos).Success?
    ensures exists rights, ops :: LoopChain(tokens, level, pos, rights, ops, BinaryLoop(tokens, level, left, pos).value.pos)
                                  && BinaryLoop(tokens, level, left, pos).value.value == FoldLeft(left, rights, ops)
    decreases |tokens| - pos
  {
    var end := BinaryLoop(tokens, level, left, pos).value.pos;
    if LevelOperator(level, tokens[pos].kind) {
      var o := ParseOperand(tokens, level, pos + 1);
      var op := tokens[pos].kind.text;
      var next := Binary(left, o.value.value, op);
      LoopIsChain(tokens, level, next, o.value.pos);
      var rights, ops :| LoopChain(tokens, level, o.value.pos, rights, ops, end)
                         && BinaryLoop(tokens, level, next, o.value.pos).value.value == FoldLeft(next, rights, ops);
      assert ([o.value.value] + rights)[1..] == rights && ([op] + ops)[1..] == ops;
      assert LoopChain(tokens, level, pos, [o.value.value] + rights, [op] + ops, end);
    } else {
      assert LoopChain(tokens, level, pos, [], [], end);
    }
  }

  /** Every binary level, from `or` to `**`, is left-associative: its result is
      exactly the left fold of its operands, and conversely every such chain of
      operands parses as its left fold. */
  lemma BinaryIsLeftFold(tokens: seq<Token>, level: nat, pos: nat, rights: seq<Node>, ops: seq<string>, end: nat)
    requires Inside(tokens, pos) && level <= TopLevel
    requires ParseOperand(tokens, level, pos).Success?
    ensures var first := ParseOperand(tokens, level, pos).value;
            LoopChain(tokens, level, first.pos, rights, ops, end)
            ==> ParseBinary(tokens, level, pos) == Success(Parsed(FoldLeft(first.value, rights, ops), end))
    ensures var first := ParseOperand(tokens, level, pos).value;
            ParseBinary(tokens, level, pos).Success?
            ==> exists rights', ops' :: LoopChain(tokens, level, first.pos, rights', ops', ParseBinary(tokens, level, pos).value.pos)
                                        && ParseBinary(tokens, level, pos).value.value == FoldLeft(first.value, rights', ops')
  {
    var first := ParseOperand(tokens, level, pos).value;
    if LoopChain(tokens, level, first.pos, rights, ops, end) {
      LoopFolds(tokens, level, first.value, first.pos, rights, ops, end);
    }
    if ParseBinary(tokens, level, pos).Success? {
      LoopIsChain(tokens, level, first.value, first.pos);
    }
  }

  /** No operator of `level` or of any higher (tighter) level. */
  predicate NoOperatorFrom(level: nat, k: Kind) {
    forall j :: level <= j <= TopLevel ==> !LevelOperator(j, k)
  }

  lemma {:induction false} BinaryStops(tokens: seq<Token>, level: nat, pos: nat)
    requires Inside(tokens, pos) && level <= TopLevel
    requires ParseBinary(tokens, level, pos).Success?
    ensures NoOperatorFrom(level, tokens[ParseBinary(tokens, level, pos).value.pos].kind)
    decreases |tokens| - pos, 2 * (TopLevel - level) + 1
  {
    var left := ParseOperand(tokens, level, pos).value;
    if level < TopLevel {
      BinaryStops(tokens, level + 1, pos);
    }
    LoopStops(tokens, level, left.value, left.pos);
  }

  lemma {:induction false} LoopStops(tokens: seq<Token>, level: nat, left: Node, pos: nat)
    requires Inside(tokens, pos) && level <= TopLevel
    requires BinaryLoop(tokens, level, left, pos).Success?
    requires NoOperatorFrom(level + 1, tokens[pos].kind)
    ensures NoOperatorFrom(level, tokens[BinaryLoop(tokens, level, left, pos).value.pos].kind)
    decreases |tokens| - pos, 2 * (TopLevel - level)
  {
    if LevelOperator(level, tokens[pos].kind) {
      var right := ParseOperand(tokens, level, pos + 1).value;
      if level < TopLevel {
        BinaryStops(tokens, level + 1, pos + 1);
      }
      LoopStops(tokens, level, Binary(left, right.value, tokens[pos].kind.text), right.pos);
    }
  }

  /** Precedence: an expression of some level runs on until a token that is no
      operator of that or any tighter level, so a looser operator can only
      follow it, never be absorbed by it. */
  lemma OperandAbsorbsTighter(tokens: seq<Token>, level: nat, pos: nat)
    requires Inside(tokens, pos) && level <= TopLevel
    requires ParseBinary(tokens, level, pos).Success?
    ensures forall j :: level <= j <= TopLevel ==> !LevelOperator(j, tokens[ParseBinary(tokens, level, pos).value.pos].kind)
  {
    BinaryStops(tokens, level, pos);
  }

  /** A prefix expression followed by no binary operator of `level` or above is
      the whole expression at that level. */
  lemma {:induction false} PrefixAtLevel(tokens: seq<Token>, level: nat, pos: nat, e: Node, end: nat)
    requires Inside(tokens, pos) && level <= TopLevel
    requires ParsePrefix(tokens, pos) == Success(Parsed(e, end))
    requires NoOperatorFrom(level, tokens[end].kind)
    ensures ParseBinary(tokens, level, pos) == Success(Parsed(e, end))
    decreases TopLevel - level
  {
    if level < TopLevel {
      PrefixAtLevel(tokens, level + 1, pos, e, end);
    }
  }

  // ---------------------------------------------------------------------------
  // Assignment

  /** Without an assignment operator after it, the object or binary expression
      is returned unchanged. */
  lemma NoAssignmentOperator(tokens: seq<Token>, pos: nat)
    requires Inside(tokens, pos)
    requires ParseObject(tokens, pos).Success?
    requires !AssignmentOperator(tokens[ParseObject(tokens, pos).value.pos].kind)
    ensures ParseExpression(tokens, pos) == ParseObject(tokens, pos)
  {
  }

  /** `a = b += c` nests to the right: `a = (b += c)`. */
  lemma AssignmentRightAssociative(tokens: seq<Token>, p0: nat, a: Node, p1: nat, b: Node, p2: nat, c: Node, p3: nat)
    requires Inside(tokens, p0)
    requires ParseObject(tokens, p0) == Success(Parsed(a, p1)) && AssignmentOperator(tokens[p1].kind)
    requires ParseObject(tokens, p1 + 1) == Success(Parsed(b, p2)) && AssignmentOperator(tokens[p2].kind)
    requires ParseExpression(tokens, p2 + 1) == Success(Parsed(c, p3))
    ensures ParseExpression(tokens, p0)
         == Success(Parsed(Assignment(a, Assignment(b, c, tokens[p2].kind.text), tokens[p1].kind.text), p3))
  {
    assert ParseExpression(tokens, p1 + 1) == Success(Parsed(Assignment(b, c, tokens[p2].kind.text), p3));
  }

  // ---------------------------------------------------------------------------
  // Prefix and postfix operators

  /** A prefix operator takes a postfix expression, which must start a primary:
      `- -x`, `not ~x` or `- ++x` are rejected. */
  lemma PrefixNeedsPrimary(tokens: seq<Token>, pos: nat)
    requires Inside(tokens, pos)
    requires PrefixOperator(tokens[pos].kind) || IncrementOperator(tokens[pos].kind)
    requires !PrimaryStart(tokens[pos + 1].kind)
    ensures ParsePrefix(tokens, pos).Failure?
  {
  }

  /** `++`/`--` before anything but an identifier is an error at the token after
      the operand. */
  lemma PrefixIncrementNeedsIdentifier(tokens: seq<Token>, pos: nat, e: Node, end: nat)
    requires Inside(tokens, pos) && IncrementOperator(tokens[pos].kind)
    requires ParsePostfix(tokens, pos + 1) == Success(Parsed(e, end))
    ensures ParsePrefix(tokens, pos)
         == if e.Identifier? then Success(Parsed(UnaryIdentifierBefore(e.symbol, tokens[pos].kind.text), end))
            else Failure(ParseError(IncrementNeedsIdentifier, tokens[end].symbols))
  {
  }

  /** `++`/`--` after anything but an identifier is an error at the operator. */
  lemma PostfixIncrementNeedsIdentifier(tokens: seq<Token>, pos: nat, e: Node, end: nat)
    requires Inside(tokens, pos)
    requires ParseCallMember(tokens, pos) == Success(Parsed(e, end)) && IncrementOperator(tokens[end].kind)
    ensures ParsePostfix(tokens, pos)
         == if e.Identifier? then Success(Parsed(UnaryIdentifierAfter(e.symbol, tokens[end].kind.text), end + 1))
            else Failure(ParseError(IncrementNeedsIdentifier, tokens[end].symbols))
  {
  }

  // ---------------------------------------------------------------------------
  // Calls and member access

  /** `f(...)(...)` nests the first call inside the second. */
  lemma CallsNest(tokens: seq<Token>, caller: Node, p0: nat, a1: seq<Node>, p1: nat, a2: seq<Node>, p2: nat)
    requires Inside(tokens, p0)
    requires ParseCallArguments(tokens, p0) == Success(Parsed(a1, p1)) && tokens[p1].kind == Fixed("(")
    requires ParseCallArguments(tokens, p1) == Success(Parsed(a2, p2)) && tokens[p2].kind != Fixed("(")
    ensures ParseCall(tokens, caller, p0) == Success(Parsed(Call(Call(caller, a1), a2), p2))
  {
  }

  /** `()` is the empty argument list. */
  lemma EmptyArguments(tokens: seq<Token>, pos: nat)
    requires Inside(tokens, pos) && tokens[pos].kind == Fixed("(") && tokens[pos + 1].kind == Fixed(")")
    ensures ParseCallArguments(tokens, pos) == Success(Parsed([], pos + 2))
  {
  }

  /** `.` must be followed by something that parses as an identifier, which
      becomes a non-computed member. */
  lemma DotMember(tokens: seq<Token>, obj: Node, pos: nat, child: Node, end: nat)
    requires Inside(tokens, pos) && tokens[pos].kind == Fixed(".")
    requires ParsePrimary(tokens, pos + 1) == Success(Parsed(child, end))
    ensures MemberLoop(tokens, obj, pos)
         == if child.Identifier? then MemberLoop(tokens, Member(obj, child, false), end)
            else Failure(ParseError(DotNeedsIdentifier, tokens[end].symbols))
  {
  }

  /** `[e]` is a computed member and needs its closing `]`. */
  lemma IndexMember(tokens: seq<Token>, obj: Node, pos: nat, child: Node, end: nat)
    requires Inside(tokens, pos) && tokens[pos].kind == Fixed("[")
    requires ParseExpression(tokens, pos + 1) == Success(Parsed(child, end))
    ensures MemberLoop(tokens, obj, pos)
         == if tokens[end].kind == Fixed("]") then MemberLoop(tokens, Member(obj, child, true), end + 1)
            else Failure(ParseError(Expected(Fixed("]")), tokens[end].symbols))
  {
  }

  // ---------------------------------------------------------------------------
  // Declarations and return

  /** `var T x` without `=` declares with no initializer. */
  lemma VarWithoutInitializer(tokens: seq<Token>, pos: nat)
    requires Inside(tokens, pos) && tokens[pos].kind == Fixed("var")
    requires tokens[pos + 1].kind == BuiltinType && tokens[pos + 2].kind == Kind.Identifier
    requires tokens[pos + 3].kind != Fixed("=")
    ensures ParseVarDeclaration(tokens, pos)
         == Success(Parsed(VarDeclaration(false, Type(ValueText(tokens[pos + 1].value), true), ValueText(tokens[pos + 2].value), None), pos + 3))
  {
  }

  /** `const T x` must go on with `=`. */
  lemma ConstNeedsInitializer(tokens: seq<Token>, pos: nat)
    requires Inside(tokens, pos) && tokens[pos].kind == Fixed("const")
    requires tokens[pos + 1].kind == BuiltinType && tokens[pos + 2].kind == Kind.Identifier
    requires tokens[pos + 3].kind != Fixed("=")
    ensures ParseVarDeclaration(tokens, pos) == Failure(ParseError(Expected(Fixed("=")), tokens[pos + 3].symbols))
  {
  }

  // ---------------------------------------------------------------------------
  // Worked precedence examples

  /** A token after which a postfix expression goes on. */
  predicate Continues(k: Kind) {
    k == Fixed(".") || k == Fixed("[") || k == Fixed("(") || IncrementOperator(k)
  }

  /** A NUMBER token not followed by member access, a call or `++`/`--` is a
      prefix expression on its own. */
  lemma NumberIsPrefix(tokens: seq<Token>, pos: nat)
    requires Inside(tokens, pos) && tokens[pos].kind == Number
    requires NumericValue(ValueText(tokens[pos].value)).Some?
    requires !Continues(tokens[pos + 1].kind)
    ensures ParsePrefix(tokens, pos) == Success(Parsed(NumberAt(tokens, pos), pos + 1))
  {
    var lit := NumberAt(tokens, pos);
    assert ParsePrimary(tokens, pos) == Success(Parsed(lit, pos + 1));
    assert MemberLoop(tokens, lit, pos + 1) == Success(Parsed(lit, pos + 1));
    assert ParseCallMember(tokens, pos) == Success(Parsed(lit, pos + 1));
    assert ParsePostfix(tokens, pos) == Success(Parsed(lit, pos + 1));
  }

  /** The literal a NUMBER token whose text converts stands for. */
  function NumberAt(tokens: seq<Token>, pos: nat): Node
    requires pos < |tokens| && NumericValue(ValueText(tokens[pos].value)).Some?
  {
    NumericLiteral(NumericValue(ValueText(tokens[pos].value)).value, ValueText(tokens[pos].value))
  }

  /** Such a number followed by no operator tighter than `level` is an operand of `level`. */
  lemma NumberIsOperand(tokens: seq<Token>, level: nat, pos: nat)
    requires Inside(tokens, pos) && level <= TopLevel && tokens[pos].kind == Number
    requires NumericValue(ValueText(tokens[pos].value)).Some?
    requires !Continues(tokens[pos + 1].kind) && NoOperatorFrom(level + 1, tokens[pos + 1].kind)
    ensures ParseOperand(tokens, level, pos) == Success(Parsed(NumberAt(tokens, pos), pos + 1))
  {
    NumberIsPrefix(tokens, pos);
    if level < TopLevel {
      PrefixAtLevel(tokens, level + 1, pos, NumberAt(tokens, pos), pos + 1);
    }
  }

  /** An expression of level `k` followed by no operator of a looser level is
      also the expression of every looser level. */
  lemma {:induction false} LooserLevelsPass(tokens: seq<Token>, level: nat, k: nat, pos: nat, e: Node, end: nat)
    requires Inside(tokens, pos) && level <= k <= TopLevel
    requires ParseBinary(tokens, k, pos) == Success(Parsed(e, end))
    requires NoOperatorFrom(level, tokens[end].kind)
    ensures ParseBinary(tokens, level, pos) == Success(Parsed(e, end))
    decreases k - level
  {
    if level < k {
      LooserLevelsPass(tokens, level + 1, k, pos, e, end);
    }
  }

  /** A binary expression not followed by an assignment operator, and not
      opening with `{`, is the whole expression. */
  lemma BinaryIsExpression(tokens: seq<Token>, pos: nat, e: Node, end: nat)
    requires Inside(tokens, pos) && tokens[pos].kind != Fixed("{")
    requires ParseBinary(tokens, 0, pos) == Success(Parsed(e, end))
    requires !AssignmentOperator(tokens[end].kind)
    ensures ParseExpression(tokens, pos) == Success(Parsed(e, end))
  {
  }

  lemma EofIsNoOperator(level: nat)
    ensures NoOperatorFrom(level, EOF)
  {
  }

  lemma FoldTwo(a: Node, b: Node, c: Node, op1: string, op2: string)
    ensures FoldLeft(a, [b] + [c], [op1] + [op2]) == Binary(Binary(a, b, op1), c, op2)
  {
    assert ([b] + [c])[1..] == [c] && ([op1] + [op2])[1..] == [op2];
    assert FoldLeft(Binary(a, b, op1), [c], [op2]) == Binary(Binary(a, b, op1), c, op2);
  }

  /** The tokens `n op1 n op2 n EOF` with three convertible numbers. */
  predicate ThreeNumbers(t: seq<Token>) {
    |t| == 6 && t[5].kind == EOF
    && t[0].kind == Number && t[2].kind == Number && t[4].kind == Number
    && NumericValue(ValueText(t[0].value)).Some? && NumericValue(ValueText(t[2].value)).Some?
    && NumericValue(ValueText(t[4].value)).Some?
    && t[1].kind.Fixed? && t[3].kind.Fixed?
    && !Continues(t[1].kind) && !Continues(t[3].kind)
  }

  /** The empty chain: no operator of the level at `pos`. */
  lemma ChainEnd(tokens: seq<Token>, level: nat, pos: nat)
    requires Inside(tokens, pos) && level <= TopLevel && !LevelOperator(level, tokens[pos].kind)
    ensures LoopChain(tokens, level, pos, [], [], pos)
  {
  }

  /** One more link in front of a chain. */
  lemma ChainStep(tokens: seq<Token>, level: nat, pos: nat, right: Node, next: nat,
                  rights: seq<Node>, ops: seq<string>, end: nat)
    requires Inside(tokens, pos) && level <= TopLevel && tokens[pos].kind.Fixed?
    requires LevelOperator(level, tokens[pos].kind)
    requires ParseOperand(tokens, level, pos + 1) == Success(Parsed(right, next))
    requires LoopChain(tokens, level, next, rights, ops, end)
    ensures LoopChain(tokens, level, pos, [right] + rights, [tokens[pos].kind.text] + ops, end)
  {
    assert ([right] + rights)[1..] == rights;
    assert ([tokens[pos].kind.text] + ops)[1..] == ops;
  }

  /** A first operand followed by a chain folds to the left. */
  lemma OperandThenChain(tokens: seq<Token>, level: nat, pos: nat, first: Node, next: nat,
                         rights: seq<Node>, ops: seq<string>, end: nat)
    requires Inside(tokens, pos) && level <= TopLevel
    requires ParseOperand(tokens, level, pos) == Success(Parsed(first, next))
    requires LoopChain(tokens, level, next, rights, ops, end)
    ensures ParseBinary(tokens, level, pos) == Success(Parsed(FoldLeft(first, rights, ops), end))
  {
    LoopFolds(tokens, level, first, next, rights, ops, end);
  }

  /** `a op b` at the operator's own level, with nothing of the level after `b`. */
  lemma OneOperation(tokens: seq<Token>, level: nat, pos: nat, a: Node, p1: nat, b: Node, end: nat)
    requires Inside(tokens, pos) && level <= TopLevel
    requires ParseOperand(tokens, level, pos) == Success(Parsed(a, p1))
    requires Inside(tokens, p1) && tokens[p1].kind.Fixed? && LevelOperator(level, tokens[p1].kind)
    requires ParseOperand(tokens, level, p1 + 1) == Success(Parsed(b, end))
    requires Inside(tokens, end) && !LevelOperator(level, tokens[end].kind)
    ensures ParseBinary(tokens, level, pos) == Success(Parsed(Binary(a, b, tokens[p1].kind.text), end))
  {
    ChainEnd(tokens, level, end);
    ChainStep(tokens, level, p1, b, end, [], [], end);
    OperandThenChain(tokens, level, pos, a, p1, [b], [tokens[p1].kind.text], end);
  }

  /** `a op1 b op2 c` with `op2` of a tighter level than `op1`: `a op1 (b op2 c)`. */
  lemma TighterOnTheRight(t: seq<Token>, i: nat, j: nat)
    requires ThreeNumbers(t) && i < j <= TopLevel
    requires LevelOperator(i, t[1].kind) && NoOperatorFrom(i + 1, t[1].kind)
    requires LevelOperator(j, t[3].kind) && NoOperatorFrom(j + 1, t[3].kind)
    ensures ParseExpression(t, 0)
         == Success(Parsed(Binary(NumberAt(t, 0), Binary(NumberAt(t, 2), NumberAt(t, 4), t[3].kind.text), t[1].kind.text), 5))
  {
    EofIsNoOperator(0);
    var bc := Binary(NumberAt(t, 2), NumberAt(t, 4), t[3].kind.text);
    var e := Binary(NumberAt(t, 0), bc, t[1].kind.text);
    NumberIsOperand(t, i, 0);
    TightOperand(t, i, j);
    OneOperation(t, i, 0, NumberAt(t, 0), 1, bc, 5);
    LooserLevelsPass(t, 0, i, 0, e, 5);
    BinaryIsExpression(t, 0, e, 5);
  }

  /** The right operand `b op2 c` of the looser level. */
  lemma TightOperand(t: seq<Token>, i: nat, j: nat)
    requires ThreeNumbers(t) && i < j <= TopLevel
    requires LevelOperator(j, t[3].kind) && NoOperatorFrom(j + 1, t[3].kind)
    ensures ParseOperand(t, i, 2) == Success(Parsed(Binary(NumberAt(t, 2), NumberAt(t, 4), t[3].kind.text), 5))
  {
    var bc := Binary(NumberAt(t, 2), NumberAt(t, 4), t[3].kind.text);
    EofIsNoOperator(i + 1);
    EofIsNoOperator(j + 1);
    NumberIsOperand(t, j, 2);
    NumberIsOperand(t, j, 4);
    OneOperation(t, j, 2, NumberAt(t, 2), 3, NumberAt(t, 4), 5);
    LooserLevelsPass(t, i + 1, j, 2, bc, 5);
  }

  /** `a op1 b op2 c` with both operators of one level: `(a op1 b) op2 c`. */
  lemma SameLevelFoldsLeft(t: seq<Token>, i: nat)
    requires ThreeNumbers(t) && i <= TopLevel
    requires LevelOperator(i, t[1].kind) && NoOperatorFrom(i + 1, t[1].kind)
    requires LevelOperator(i, t[3].kind) && NoOperatorFrom(i + 1, t[3].kind)
    ensures ParseExpression(t, 0)
         == Success(Parsed(Binary(Binary(NumberAt(t, 0), NumberAt(t, 2), t[1].kind.text), NumberAt(t, 4), t[3].kind.text), 5))
  {
    var e := Binary(Binary(NumberAt(t, 0), NumberAt(t, 2), t[1].kind.text), NumberAt(t, 4), t[3].kind.text);
    SameLevelBinary(t, i);
    EofIsNoOperator(0);
    LooserLevelsPass(t, 0, i, 0, e, 5);
    BinaryIsExpression(t, 0, e, 5);
  }

  lemma SameLevelBinary(t: seq<Token>, i: nat)
    requires ThreeNumbers(t) && i <= TopLevel
    requires LevelOperator(i, t[1].kind) && NoOperatorFrom(i + 1, t[1].kind)
    requires LevelOperator(i, t[3].kind) && NoOperatorFrom(i + 1, t[3].kind)
    ensures ParseBinary(t, i, 0)
         == Success(Parsed(Binary(Binary(NumberAt(t, 0), NumberAt(t, 2), t[1].kind.text), NumberAt(t, 4), t[3].kind.text), 5))
  {
    var a, b, c := NumberAt(t, 0), NumberAt(t, 2), NumberAt(t, 4);
    var op1, op2 := t[1].kind.text, t[3].kind.text;
    NumberIsOperand(t, i, 0);
    SameLevelChain(t, i);
    OperandThenChain(t, i, 0, a, 1, [b] + [c], [op1] + [op2], 5);
    FoldTwo(a, b, c, op1, op2);
  }

  lemma SameLevelChain(t: seq<Token>, i: nat)
    requires ThreeNumbers(t) && i <= TopLevel
    requires LevelOperator(i, t[1].kind) && NoOperatorFrom(i + 1, t[1].kind)
    requires LevelOperator(i, t[3].kind) && NoOperatorFrom(i + 1, t[3].kind)
    ensures LoopChain(t, i, 1, [NumberAt(t, 2)] + [NumberAt(t, 4)], [t[1].kind.text] + [t[3].kind.text], 5)
  {
    LastLink(t, i);
    MiddleLink(t, i, [NumberAt(t, 4)], [t[3].kind.text]);
  }

  /** The first link `op1 b` in front of the rest of the chain. */
  lemma MiddleLink(t: seq<Token>, i: nat, rights: seq<Node>, ops: seq<string>)
    requires ThreeNumbers(t) && i <= TopLevel
    requires LevelOperator(i, t[1].kind) && NoOperatorFrom(i + 1, t[3].kind)
    requires LoopChain(t, i, 3, rights, ops, 5)
    ensures LoopChain(t, i, 1, [NumberAt(t, 2)] + rights, [t[1].kind.text] + ops, 5)
  {
    NumberLink(t, i, 1, rights, ops, 5);
  }

  /** An operator of `level` and a number in front of a chain. */
  lemma NumberLink(t: seq<Token>, level: nat, pos: nat, rights: seq<Node>, ops: seq<string>, end: nat)
    requires Inside(t, pos + 2) && level <= TopLevel
    requires t[pos].kind.Fixed? && LevelOperator(level, t[pos].kind)
    requires t[pos + 1].kind == Number && NumericValue(ValueText(t[pos + 1].value)).Some?
    requires !Continues(t[pos + 2].kind) && NoOperatorFrom(level + 1, t[pos + 2].kind)
    requires LoopChain(t, level, pos + 2, rights, ops, end)
    ensures LoopChain(t, level, pos, [NumberAt(t, pos + 1)] + rights, [t[pos].kind.text] + ops, end)
  {
    NumberIsOperand(t, level, pos + 1);
    ChainStep(t, level, pos, NumberAt(t, pos + 1), pos + 2, rights, ops, end);
  }

  /** The last link `op2 c` of the chain. */
  lemma LastLink(t: seq<Token>, i: nat)
    requires ThreeNumbers(t) && i <= TopLevel
    requires LevelOperator(i, t[3].kind)
    ensures LoopChain(t, i, 3, [NumberAt(t, 4)], [t[3].kind.text], 5)
  {
    NumberThenEnd(t, i, 3);
  }

  /** An operator of `level` followed by a number at the end of the input. */
  lemma NumberThenEnd(t: seq<Token>, level: nat, pos: nat)
    requires WellEnded(t) && pos + 2 == |t| - 1 && level <= TopLevel
    requires t[pos].kind.Fixed? && LevelOperator(level, t[pos].kind)
    requires t[pos + 1].kind == Number && NumericValue(ValueText(t[pos + 1].value)).Some?
    ensures LoopChain(t, level, pos, [NumberAt(t, pos + 1)], [t[pos].kind.text], pos + 2)
  {
    EofIsNoOperator(level + 1);
    NumberIsOperand(t, level, pos + 1);
    ChainEnd(t, level, pos + 2);
    ChainStep(t, level, pos, NumberAt(t, pos + 1), pos + 2, [], [], pos + 2);
  }

  const Here: Symbols := Symbols(None, 1, 0, "")

  function Op(text: string): Token {
    Token(Here, Fixed(text), NoValue)
  }

  function Num(text: string): Token {
    Token(Here, Number, Text(text))
  }

  const End: Token := Token(Here, EOF, NoValue)

  lemma SmallNumerals()
    ensures NumericValue("2") == Some(2) && NumericValue("3") == Some(3) && NumericValue("4") == Some(4)
    ensures NumericValue("6") == Some(6)
  {
    assert "2"[..0] == "" && "3"[..0] == "" && "4"[..0] == "" && "6"[..0] == "";
  }

  /** `3 + 4 * 2` parses as `3 + (4 * 2)`. */
  lemma ProductBindsTighter()
    ensures ParseExpression([Num("3"), Op("+"), Num("4"), Op("*"), Num("2"), End], 0)
         == Success(Parsed(Binary(NumericLiteral(3, "3"), Binary(NumericLiteral(4, "4"), NumericLiteral(2, "2"), "*"), "+"), 5))
  {
    SmallNumerals();
    TighterOnTheRight([Num("3"), Op("+"), Num("4"), Op("*"), Num("2"), End], 8, 9);
  }

  /** `6 | 2 > 4` parses as `6 | (2 > 4)`: comparisons bind tighter than `|`. */
  lemma ComparisonBindsTighterThanBitOr()
    ensures ParseExpression([Num("6"), Op("|"), Num("2"), Op(">"), Num("4"), End], 0)
         == Success(Parsed(Binary(NumericLiteral(6, "6"), Binary(NumericLiteral(2, "2"), NumericLiteral(4, "4"), ">"), "|"), 5))
  {
    SmallNumerals();
    TighterOnTheRight([Num("6"), Op("|"), Num("2"), Op(">"), Num("4"), End], 2, 6);
  }

  /** `4 - 3 - 2` parses as `(4 - 3) - 2`. */
  lemma SubtractionLeftAssociative()
    ensures ParseExpression([Num("4"), Op("-"), Num("3"), Op("-"), Num("2"), End], 0)
         == Success(Parsed(Binary(Binary(NumericLiteral(4, "4"), NumericLiteral(3, "3"), "-"), NumericLiteral(2, "2"), "-"), 5))
  {
    SmallNumerals();
    SameLevelFoldsLeft([Num("4"), Op("-"), Num("3"), Op("-"), Num("2"), End], 8);
  }

  /** `4 ** 3 ** 2` parses as `(4 ** 3) ** 2`, unlike Python. */
  lemma PowerLeftAssociative()
    ensures ParseExpression([Num("4"), Op("**"), Num("3"), Op("**"), Num("2"), End], 0)
         == Success(Parsed(Binary(Binary(NumericLiteral(4, "4"), NumericLiteral(3, "3"), "**"), NumericLiteral(2, "2"), "**"), 5))
  {
    SmallNumerals();
    SameLevelFoldsLeft([Num("4"), Op("**"), Num("3"), Op("**"), Num("2"), End], 10);
  }
}

=== FILE: program_properties.dfy ===
/** The two passes of `interpret_program`: running a program is running its
    statements that are not calls, in order, and then its calls, in order. */
module ProgramProperties {
  import opened Wrappers
  import opened Ast
  import opened Values
  import opened Environment
  import opened Interpreter
  import InterpreterProperties

  /** The statements of `s` that are not calls, in order. */
  function NonCalls(s: seq<Node>): (r: seq<Node>)
    ensures |r| <= |s|
    ensures forall j :: 0 <= j < |r| ==> !r[j].Call?
  {
    if |s| == 0 then []
    else if s[0].Call? then NonCalls(s[1..])
    else [s[0]] + NonCalls(s[1..])
  }

  /** The calls among the statements of `s`, in order. */
  function Calls(s: seq<Node>): (r: seq<Node>)
    ensures |r| <= |s|
    ensures forall j :: 0 <= j < |r| ==> r[j].Call?
  {
    if |s| == 0 then []
    else if s[0].Call? then [s[0]] + Calls(s[1..])
    else Calls(s[1..])
  }

  /** Together the two passes run every statement exactly once. */
  lemma {:induction false} PassesPartition(s: seq<Node>)
    ensures multiset(NonCalls(s)) + multiset(Calls(s)) == multiset(s)
  {
    if |s| > 0 {
      PassesPartition(s[1..]);
      assert s == [s[0]] + s[1..];
    }
  }

  /** Running the statements from index `i` is running the suffix from 0. */
  lemma {:induction false} SequenceShift(t: seq<Node>, i: nat, env: Env, last: Value, fuel: nat)
    requires |env| > 0 && i <= |t|
    ensures RunSequence(t, i, env, last, fuel) == RunSequence(t[i..], 0, env, last, fuel)
    decreases |t| - i
  {
    if i < |t| {
      var x := Eval(t[i], env, fuel);
      assert t[i..][0] == t[i];
      if x.Success? {
        SequenceShift(t, i + 1, x.value.env, x.value.value, fuel);
        SequenceShift(t[i..], 1, x.value.env, x.value.value, fuel);
        assert t[i..][1..] == t[i + 1..];
      }
    }
  }

  /** The first statement runs first, then the rest from where it left off. */
  lemma SequenceCons(x: Node, s: seq<Node>, env: Env, last: Value, fuel: nat)
    requires |env| > 0
    ensures RunSequence([x] + s, 0, env, last, fuel)
            == var e := Eval(x, env, fuel);
               if e.Failure? then Failure(e.error) else RunSequence(s, 0, e.value.env, e.value.value, fuel)
  {
    var e := Eval(x, env, fuel);
    assert ([x] + s)[0] == x;
    if e.Success? {
      SequenceShift([x] + s, 1, e.value.env, e.value.value, fuel);
      assert ([x] + s)[1..] == s;
    }
  }

  /** Running `a + b` is running `a`, then `b` from where `a` left off. */
  lemma {:induction false} SequenceAppend(a: seq<Node>, b: seq<Node>, env: Env, last: Value, fuel: nat)
    requires |env| > 0
    ensures RunSequence(a + b, 0, env, last, fuel)
            == var r := RunSequence(a, 0, env, last, fuel);
               if r.Failure? then Failure(r.error) else RunSequence(b, 0, r.value.env, r.value.value, fuel)
    decreases |a|
  {
    if |a| == 0 {
      assert a + b == b;
    } else {
      assert a + b == [a[0]] + (a[1..] + b);
      assert a == [a[0]] + a[1..];
      SequenceCons(a[0], a[1..] + b, env, last, fuel);
      SequenceCons(a[0], a[1..], env, last, fuel);
      var e := Eval(a[0], env, fuel);
      if e.Success? {
        SequenceAppend(a[1..], b, e.value.env, e.value.value, fuel);
      }
    }
  }

  /** The pass that runs `stmts` in order from `env` and hands back `calls` to
      run afterwards. */
  function Deferring(stmts: seq<Node>, env: Env, last: Value, calls: seq<Node>, fuel: nat): Result<Pass, Fault>
    requires |env| > 0
  {
    var r := RunSequence(stmts, 0, env, last, fuel);
    if r.Failure? then Failure(r.error) else Success(Pass(r.value.value, r.value.env, calls))
  }

  /** The first pass runs the non-call statements in order and collects the
      calls behind the ones already deferred. */
  lemma {:induction false} FirstPassRuns(body: seq<Node>, i: nat, env: Env, last: Value, deferred: seq<Node>, fuel: nat)
    requires |env| > 0 && i <= |body|
    ensures FirstPass(body, i, env, last, deferred, fuel)
            == Deferring(NonCalls(body[i..]), env, last, deferred + Calls(body[i..]), fuel)
    decreases |body| - i, 1
  {
    if i == |body| {
      assert body[i..] == [];
      assert deferred + [] == deferred;
    } else if body[i].Call? {
      FirstPassDefers(body, i, env, last, deferred, fuel);
    } else {
      FirstPassRunsOne(body, i, env, last, deferred, fuel);
    }
  }

  /** A call at `i` joins the deferred ones. */
  lemma {:induction false} FirstPassDefers(body: seq<Node>, i: nat, env: Env, last: Value, deferred: seq<Node>, fuel: nat)
    requires |env| > 0 && i < |body| && body[i].Call?
    ensures FirstPass(body, i, env, last, deferred, fuel)
            == Deferring(NonCalls(body[i..]), env, last, deferred + Calls(body[i..]), fuel)
    decreases |body| - i, 0
  {
    var more := deferred + [body[i]];
    assert FirstPass(body, i, env, last, deferred, fuel) == FirstPass(body, i + 1, env, last, more, fuel);
    FirstPassRuns(body, i + 1, env, last, more, fuel);
    assert NonCalls(body[i..]) == NonCalls(body[i + 1..]) by { SplitAt(body, i); }
    assert more + Calls(body[i + 1..]) == deferred + Calls(body[i..]) by { SplitAt(body, i); }
  }

  /** `body[i..]` splits into its first statement and the rest. */
  lemma SplitAt(body: seq<Node>, i: nat)
    requires i < |body|
    ensures NonCalls(body[i..]) == (if body[i].Call? then [] else [body[i]]) + NonCalls(body[i + 1..])
    ensures Calls(body[i..]) == (if body[i].Call? then [body[i]] else []) + Calls(body[i + 1..])
  {
    assert body[i..][0] == body[i] && body[i..][1..] == body[i + 1..];
  }

  /** Any other statement at `i` runs now. */
  lemma {:induction false} FirstPassRunsOne(body: seq<Node>, i: nat, env: Env, last: Value, deferred: seq<Node>, fuel: nat)
    requires |env| > 0 && i < |body| && !body[i].Call?
    ensures FirstPass(body, i, env, last, deferred, fuel)
            == Deferring(NonCalls(body[i..]), env, last, deferred + Calls(body[i..]), fuel)
    decreases |body| - i, 0
  {
    var rest := body[i + 1..];
    SplitAt(body, i);
    assert NonCalls(body[i..]) == [body[i]] + NonCalls(rest);
    assert Calls(body[i..]) == Calls(rest);
    SequenceCons(body[i], NonCalls(rest), env, last, fuel);
    var x := Eval(body[i], env, fuel);
    if x.Success? {
      FirstPassRuns(body, i + 1, x.value.env, x.value.value, deferred, fuel);
    }
  }

  /** Top-level calls are deferred: a program runs like the sequence of its
      other statements followed by its calls. */
  lemma CallsRunLast(body: seq<Node>, env: Env, fuel: nat)
    requires |env| > 0
    ensures RunProgram(body, env, fuel) == RunSequence(NonCalls(body) + Calls(body), 0, env, NoneValue, fuel)
  {
    FirstPassRuns(body, 0, env, NoneValue, [], fuel);
    assert body[0..] == body;
    assert [] + Calls(body) == Calls(body);
    SequenceAppend(NonCalls(body), Calls(body), env, NoneValue, fuel);
  }

  /** So a function can be called above its declaration: `f(); fn f() { return k }`
      evaluates to `k`. */
  lemma CallBeforeDeclaration(f: string, k: int, raw: string, env: Env, fuel: nat)
    requires |env| > 0 && fuel > 1 && f !in env[0].vars
    ensures var fn := FunctionDeclaration([], None, f, [Return(Some(NumericLiteral(k, raw)))]);
            var r := RunProgram([Call(Node.Identifier(f), []), fn], env, fuel);
            r.Success? && r.value.value == NumberValue(k)
  {
    var ret := [Return(Some(NumericLiteral(k, raw)))];
    var fn := FunctionDeclaration([], None, f, ret);
    var call := Call(Node.Identifier(f), []);
    var body := [call, fn];
    CallsRunLast(body, env, fuel);
    assert body[1..] == [fn] && body[1..][1..] == [];
    assert NonCalls(body) == [fn];
    assert Calls(body) == [call];
    assert NonCalls(body) + Calls(body) == [fn] + [call];
    var value := FunctionValue(f, [], ret);
    var env' := Declare(env, f, value, true).value;
    DeclareThenLookup(env, f, value, true);
    assert Eval(fn, env, fuel) == Success(Done(value, env'));
    SequenceCons(fn, [call], env, NoneValue, fuel);
    SequenceCons(call, [], env', value, fuel);
    assert Eval(Node.Identifier(f), env', fuel - 1) == Success(Done(value, env'));
    assert ret == [Return(Some(NumericLiteral(k, raw)))] + [];
    InterpreterProperties.CallReturnsFirst(f, k, raw, [], env', fuel - 1);
  }
}

=== FILE: strings.dfy ===
/** String helpers standing in for the Python `str` methods the source relies on:
    `startswith`, `endswith`, the `<` ordering used by `list.sort`, character
    classes, repetition and integer/digit-string conversion. */
module Strings {
  import opened Wrappers

  predicate StartsWith(s: string, prefix: string) {
    |prefix| <= |s| && s[..|prefix|] == prefix
  }

  predicate EndsWith(s: string, suffix: string) {
    |suffix| <= |s| && s[|s| - |suffix|..] == suffix
  }

  predicate IsProperPrefix(p: string, s: string) {
    |p| < |s| && s[..|p|] == p
  }

  /** Python's `<` on strings: lexicographic by code point, a proper prefix first. */
  predicate LexLess(a: string, b: string)
    decreases |a|
  {
    if |a| == 0 then |b| > 0
    else if |b| == 0 then false
    else if a[0] != b[0] then a[0] < b[0]
    else LexLess(a[1..], b[1..])
  }

  lemma {:induction false} LexLessTransitive(a: string, b: string, c: string)
    requires LexLess(a, b) && LexLess(b, c)
    ensures LexLess(a, c)
    decreases |a|
  {
    if |a| == 0 {
    } else if a[0] == b[0] && b[0] == c[0] {
      LexLessTransitive(a[1..], b[1..], c[1..]);
    }
  }

  lemma {:induction false} ProperPrefixIsLess(p: string, s: string)
    requires IsProperPrefix(p, s)
    ensures LexLess(p, s)
    decreases |p|
  {
    if |p| > 0 {
      assert p[0] == s[0];
      assert s[1..][..|p| - 1] == p[1..];
      ProperPrefixIsLess(p[1..], s[1..]);
    }
  }

  lemma {:induction false} LexLessIrreflexive(a: string)
    ensures !LexLess(a, a)
    decreases |a|
  {
    if |a| > 0 {
      LexLessIrreflexive(a[1..]);
    }
  }

  /** Python's string order is total. */
  lemma {:induction false} LexLessTotal(a: string, b: string)
    ensures LexLess(a, b) || LexLess(b, a) || a == b
    decreases |a|
  {
    if |a| > 0 && |b| > 0 && a[0] == b[0] {
      LexLessTotal(a[1..], b[1..]);
      if a[1..] == b[1..] {
        assert a == [a[0]] + a[1..] && b == [b[0]] + b[1..];
      }
    }
  }

  /** Two prefixes of the same string: one is a prefix of the other. */
  lemma PrefixesAreComparable(a: string, b: string, s: string)
    requires StartsWith(s, a) && StartsWith(s, b) && |a| <= |b|
    ensures StartsWith(b, a)
  {
    assert b[..|a|] == s[..|b|][..|a|] == s[..|a|];
  }

  predicate IsDigit(c: char) {
    '0' <= c <= '9'
  }

  predicate IsHexDigit(c: char) {
    IsDigit(c) || 'a' <= c <= 'f' || 'A' <= c <= 'F'
  }

  predicate IsAsciiLetter(c: char) {
    'a' <= c <= 'z' || 'A' <= c <= 'Z'
  }

  /** `str.isalnum` restricted to ASCII. */
  predicate IsAlnum(c: char) {
    IsAsciiLetter(c) || IsDigit(c)
  }

  function HexDigitValue(c: char): (d: nat)
    requires IsHexDigit(c)
    ensures d < 16
  {
    if IsDigit(c) then c as int - '0' as int
    else if 'a' <= c <= 'f' then c as int - 'a' as int + 10
    else c as int - 'A' as int + 10
  }

  function DigitChar(d: nat): (c: char)
    requires d < 16
    ensures IsHexDigit(c) && HexDigitValue(c) == d
  {
    if d < 10 then ('0' as int + d) as char else ('a' as int + d - 10) as char
  }

  predicate AllDigits(s: string, base: nat)
    requires base == 10 || base == 16
  {
    forall i :: 0 <= i < |s| ==> if base == 10 then IsDigit(s[i]) else IsHexDigit(s[i])
  }

  /** The value of a digit string in `base`, most significant digit first
      (Python's `int(s, base)` on a plain digit string). */
  function DigitsValue(s: string, base: nat): (v: nat)
    requires base == 10 || base == 16
    requires AllDigits(s, base)
    decreases |s|
  {
    if |s| == 0 then 0
    else DigitsValue(s[..|s| - 1], base) * base + HexDigitValue(s[|s| - 1])
  }

  /** The shortest digit string of `n` in `base` (`str(n)` and `hex(n)[2:]`). */
  function NatToDigits(n: nat, base: nat): (s: string)
    requires base == 10 || base == 16
    ensures |s| > 0 && AllDigits(s, base)
    decreases n
  {
    if n < base then [DigitChar(n)]
    else NatToDigits(n / base, base) + [DigitChar(n % base)]
  }

  lemma {:induction false} DigitsRoundTrip(n: nat, base: nat)
    requires base == 10 || base == 16
    ensures DigitsValue(NatToDigits(n, base), base) == n
    decreases n
  {
    var s := NatToDigits(n, base);
    if n < base {
      assert s[..0] == [];
    } else {
      DigitsRoundTrip(n / base, base);
      assert s[..|s| - 1] == NatToDigits(n / base, base);
    }
  }

  /** `"%d" % i` */
  function IntToDecimal(i: int): (s: string)
    ensures |s| > 0
  {
    if i < 0 then "-" + NatToDigits(-i, 10) else NatToDigits(i, 10)
  }

  /** Reads back what `IntToDecimal` writes. */
  function DecimalToInt(s: string): Option<int>
  {
    if |s| > 0 && s[0] == '-' && |s| > 1 && AllDigits(s[1..], 10) then Some(-(DigitsValue(s[1..], 10) as int))
    else if |s| > 0 && AllDigits(s, 10) then Some(DigitsValue(s, 10))
    else None
  }

  lemma DecimalRoundTrip(i: int)
    ensures DecimalToInt(IntToDecimal(i)) == Some(i)
  {
    if i < 0 {
      var d := NatToDigits(-i, 10);
      assert ("-" + d)[1..] == d;
      DigitsRoundTrip(-i, 10);
    } else {
      var d := NatToDigits(i, 10);
      assert d[0] != '-';
      DigitsRoundTrip(i, 10);
    }
  }

  /** `c * n` for a one-character string `c`. */
  function Repeat(c: char, n: int): (s: string)
    ensures |s| == if n < 0 then 0 else n
    ensures forall i :: 0 <= i < |s| ==> s[i] == c
    decreases n
  {
    if n <= 0 then [] else [c] + Repeat(c, n - 1)
  }
}

=== FILE: tokens.dfy ===
/** Token kinds, the fixed token texts of flolang/lexer.py, and the order in
    which `tokenize` tries them. */
module Tokens {
  import opened Wrappers
  import opened Strings
  import opened Diagnostics

  /** A token's `type`: one of the integer codes, or the text of a symbolic
      operator or keyword (the source uses the string itself as the type). */
  datatype Kind =
    | EOF
    | Identifier
    | Number
    | Float
    | Str
    | BuiltinType
    | BlockStart
    | BlockEnd
    | Fixed(text: string)

  /** A token's `value`: absent, the matched text, or the integer 1 that marks a
      `return` ending its line. */
  datatype TokenValue = NoValue | Text(text: string) | LineEnd

  datatype Token = Token(symbols: Symbols, kind: Kind, value: TokenValue)

  /** Multi-character operators (`string_tokens`). `!=` is defined as NOTCOMPARE
      but is not in this list. */
  const StringTokens: seq<string> :=
    ["==", "//", ">=", "<=", "**", "++", "--", "+=", "-=", "*=", "/=", "%=", "&=", "^=", "|="]

  /** Single-character operators, plus `**`, `>>` and `<<` (`small_tokens`). */
  const SmallTokens: seq<string> :=
    [".", ":", ",", "(", ")", "[", "]", "{", "}", "+", "-", "*", "/", "%", "**", "=", ">", "<",
     ">>", "<<", "|", "&", "~", "^", "?"]

  const KeywordTokens: seq<string> :=
    ["and", "or", "not", "fn", "class", "enum", "import", "from", "if", "else", "while", "for",
     "return", "None", "var", "const", "pass", "in", "is"]

  /** Builtin type names (`variable_tokens`), lexed as BUILTINTYPE. */
  const VariableTokens: seq<string> :=
    ["int", "obj", "str", "bool", "i8", "u8", "i16", "u16", "i32", "u32", "i64", "u64", "f32",
     "f64", "char"]

  /** `b` comes no later than `a` in Python's string order. */
  predicate AtMost(a: string, b: string) {
    LexLess(a, b) || a == b
  }

  predicate Ascending(l: seq<string>) {
    forall i, j :: 0 <= i < j < |l| ==> AtMost(l[i], l[j])
  }

  predicate Descending(l: seq<string>) {
    forall i, j :: 0 <= i < j < |l| ==> AtMost(l[j], l[i])
  }

  /** Inserts `x` into an ascending list before the first element not below it. */
  function Insert(x: string, l: seq<string>): (r: seq<string>)
    ensures multiset(r) == multiset(l) + multiset{x}
    ensures Ascending(l) ==> Ascending(r)
  {
    if |l| == 0 then [x]
    else if AtMost(x, l[0]) then
      InsertFront(x, l);
      [x] + l
    else
      var rest := Insert(x, l[1..]);
      assert l == [l[0]] + l[1..];
      InsertBehind(x, l, rest);
      [l[0]] + rest
  }

  lemma InsertFront(x: string, l: seq<string>)
    requires |l| > 0 && AtMost(x, l[0])
    ensures Ascending(l) ==> Ascending([x] + l)
  {
    if Ascending(l) {
      var r := [x] + l;
      forall i, j | 0 <= i < j < |r| ensures AtMost(r[i], r[j]) {
        if i == 0 && j > 1 && LexLess(x, l[0]) && LexLess(l[0], l[j - 1]) {
          LexLessTransitive(x, l[0], l[j - 1]);
        }
      }
    }
  }

  lemma InsertBehind(x: string, l: seq<string>, rest: seq<string>)
    requires |l| > 0 && !AtMost(x, l[0])
    requires multiset(rest) == multiset(l[1..]) + multiset{x}
    requires Ascending(l[1..]) ==> Ascending(rest)
    ensures Ascending(l) ==> Ascending([l[0]] + rest)
  {
    if Ascending(l) {
      assert Ascending(l[1..]);
      LexLessTotal(x, l[0]);
      forall k | 0 <= k < |rest| ensures AtMost(l[0], rest[k]) {
        assert rest[k] in multiset(rest);
        if rest[k] != x {
          assert rest[k] in multiset(l[1..]);
          var m :| 0 <= m < |l[1..]| && l[1..][m] == rest[k];
          assert l[m + 1] == rest[k];
        }
      }
      var r := [l[0]] + rest;
      forall i, j | 0 <= i < j < |r| ensures AtMost(r[i], r[j]) {
        if i > 0 {
          assert r[i] == rest[i - 1] && r[j] == rest[j - 1];
        }
      }
    }
  }

  function Reverse(l: seq<string>): (r: seq<string>)
    ensures |r| == |l| && forall i :: 0 <= i < |l| ==> r[i] == l[|l| - 1 - i]
    ensures multiset(r) == multiset(l)
  {
    if |l| == 0 then []
    else
      assert l == [l[0]] + l[1..];
      Reverse(l[1..]) + [l[0]]
  }

  lemma InsertNext(l: seq<string>, i: nat, sorted: seq<string>)
    requires i < |l| && multiset(sorted) == multiset(l[..i])
    ensures multiset(Insert(l[i], sorted)) == multiset(l[..i + 1])
  {
    assert l[..i + 1] == l[..i] + [l[i]];
  }

  /** `l.sort()` followed by `l.reverse()`: the candidate order `tokenize` builds. */
  method SortedReversed(l: seq<string>) returns (r: seq<string>)
    ensures multiset(r) == multiset(l)
    ensures Descending(r)
  {
    var sorted: seq<string> := [];
    var i := 0;
    while i < |l|
      invariant 0 <= i <= |l|
      invariant Ascending(sorted)
      invariant multiset(sorted) == multiset(l[..i])
    {
      InsertNext(l, i, sorted);
      sorted := Insert(l[i], sorted);
      i := i + 1;
    }
    assert l[..|l|] == l;
    r := Reverse(sorted);
  }

  lemma SameElements(l: seq<string>, m: seq<string>)
    requires multiset(l) == multiset(m)
    ensures forall s :: s in l <==> s in m
  {
    forall s ensures s in l <==> s in m {
      assert s in l <==> s in multiset(l);
      assert s in m <==> s in multiset(m);
    }
  }

  predicate AllAlnum(s: string) {
    forall i :: 0 <= i < |s| ==> IsAlnum(s[i])
  }

  /** The characters the symbolic tokens are made of. */
  predicate IsOperatorChar(c: char) {
    c == '.' || c == ':' || c == ',' || c == '(' || c == ')' || c == '[' || c == ']' || c == '{' || c == '}'
    || c == '+' || c == '-' || c == '*' || c == '/' || c == '%' || c == '=' || c == '<' || c == '>'
    || c == '|' || c == '&' || c == '~' || c == '^' || c == '?'
  }

  /** A candidate word: non-empty and, when `alnum` is set, made of letters and
      digits, otherwise opening with an operator character. */
  predicate GoodWord(s: string, alnum: bool) {
    |s| > 0 && (alnum ==> AllAlnum(s)) && (!alnum ==> IsOperatorChar(s[0]))
  }

  /** Word facts about the two source lists carry over to any rearrangement of them. */
  lemma RearrangedMembers(r: seq<string>, a: seq<string>, b: seq<string>, alnum: bool)
    requires multiset(r) == multiset(a + b)
    requires forall i | 0 <= i < |a| :: GoodWord(a[i], alnum)
    requires forall i | 0 <= i < |b| :: GoodWord(b[i], alnum)
    ensures forall s | s in r :: GoodWord(s, alnum)
  {
    SameElements(r, a + b);
    forall s | s in a + b ensures GoodWord(s, alnum) {
      if s in a {
        var i :| 0 <= i < |a| && a[i] == s;
      } else {
        var i :| 0 <= i < |b| && b[i] == s;
      }
    }
  }

  lemma StringTokensGood()
    ensures forall i | 0 <= i < |StringTokens| :: GoodWord(StringTokens[i], false)
  {
  }

  lemma SmallTokensGood()
    ensures forall i | 0 <= i < |SmallTokens| :: GoodWord(SmallTokens[i], false)
  {
  }

  lemma KeywordTokensGood()
    ensures forall i | 0 <= i < |KeywordTokens| :: GoodWord(KeywordTokens[i], true)
  {
  }

  lemma VariableTokensGood()
    ensures forall i | 0 <= i < |VariableTokens| :: GoodWord(VariableTokens[i], true)
  {
  }

  /** No word of `l` is empty. */
  predicate NonEmptyWords(l: seq<string>) {
    forall s | s in l :: |s| > 0
  }

  /** Every word of `l` opens with an operator character. */
  predicate OperatorWords(l: seq<string>) {
    forall s | s in l :: |s| > 0 && IsOperatorChar(s[0])
  }

  /** Every word of `l` consists of letters and digits. */
  predicate AlnumWords(l: seq<string>) {
    forall s | s in l :: AllAlnum(s)
  }

  /** A rearrangement of the symbolic lists has no empty word, so every
      symbolic match consumes input, and no word opens with a letter, a digit,
      an underscore or a quote. */
  lemma SymbolicCandidatesNonEmpty(r: seq<string>)
    requires multiset(r) == multiset(StringTokens + SmallTokens)
    ensures NonEmptyWords(r) && OperatorWords(r)
  {
    StringTokensGood();
    SmallTokensGood();
    RearrangedMembers(r, StringTokens, SmallTokens, false);
  }

  /** In a rearrangement of the keyword and type lists every word is non-empty
      and made of letters and digits only. */
  lemma AlphanumericCandidatesAlnum(r: seq<string>)
    requires multiset(r) == multiset(KeywordTokens + VariableTokens)
    ensures NonEmptyWords(r) && AlnumWords(r)
  {
    KeywordTokensGood();
    VariableTokensGood();
    RearrangedMembers(r, KeywordTokens, VariableTokens, true);
  }
}

=== FILE: values.dfy ===
/** Runtime values of flolang/interpreter.py and the Python operators the
    interpreter applies to their `.value` payloads: unbounded integers with
    floor division, two's-complement bitwise operators and shifts, booleans
    that count as 0 and 1, and strings ordered by code point. */
module Values {
  import opened Wrappers
  import opened Strings
  import opened Ast

  /** A `RuntimeValue`. `FunctionValue` is a `RuntimeFunction` holding the parts
      of its declaration the interpreter reads; `Signal` is the `(ret, last)`
      pair a block returns, with `None` as `carried` where Python has `None`. */
  datatype Value =
    | NoneValue
    | BooleanValue(b: bool)
    | NumberValue(n: int)
    | StringValue(s: string)
    | FunctionValue(name: string, parameters: seq<Parameter>, body: seq<Node>)
    | Signal(code: nat, carried: Option<Value>)

  /** The Python object a value's `.value` attribute holds. */
  datatype Payload = PNone | PBool(b: bool) | PInt(i: int) | PStr(s: string)

  /** The exceptions the interpreter raises, by cause. */
  datatype Fault =
    | AlreadyDefined(name: string)
    | IsConstant(name: string)
    | Undefined(name: string)
    | TypeMismatch           // Python `TypeError` from an operator
    | NoValueAttribute       // `.value` read on a function or a block's pair
    | NegativeShift          // `ValueError: negative shift count`
    | ZeroDivision
    | FloatNotModelled       // the result would be a Python float
    | Unmodelled             // string concatenation, repetition or `%` formatting
    | InvalidOperator(op: string)
    | NotAssignable
    | TypeNotImplemented(typeName: string)
    | NotEnoughParameters
    | MissingArgument
    | BreakInFunction
    | NotCallable
    | ReachedUnreachable
    | CannotInterpret
    | NotABlock              // a block position holding a node without a statement list
    | OutOfFuel

  /** Reads `.value`. */
  function PayloadOf(v: Value): (r: Result<Payload, Fault>)
    ensures r.Failure? <==> v.FunctionValue? || v.Signal?
    ensures r.Failure? ==> r.error == NoValueAttribute
    ensures v.NumberValue? ==> r == Success(PInt(v.n))
    ensures v.BooleanValue? ==> r == Success(PBool(v.b))
  {
    match v
    case NoneValue => Success(PNone)
    case BooleanValue(b) => Success(PBool(b))
    case NumberValue(n) => Success(PInt(n))
    case StringValue(s) => Success(PStr(s))
    case FunctionValue(_, _, _) => Failure(NoValueAttribute)
    case Signal(_, _) => Failure(NoValueAttribute)
  }

  /** `bool` is a subclass of `int` in Python. */
  predicate IntLike(p: Payload) {
    p.PBool? || p.PInt?
  }

  function AsInt(p: Payload): int
    requires IntLike(p)
  {
    if p.PBool? then (if p.b then 1 else 0) else p.i
  }

  /** Python truthiness of a payload. */
  predicate Truthy(p: Payload) {
    match p
    case PNone => false
    case PBool(b) => b
    case PInt(i) => i != 0
    case PStr(s) => |s| > 0
  }

  lemma TruthyIsNonZero(p: Payload)
    requires IntLike(p)
    ensures Truthy(p) <==> AsInt(p) != 0
  {
  }

  /** Python `==` between payloads: `True == 1`, strings by content, `None`
      only equal to itself. */
  predicate PayloadEq(a: Payload, b: Payload) {
    if IntLike(a) && IntLike(b) then AsInt(a) == AsInt(b)
    else if a.PStr? && b.PStr? then a.s == b.s
    else a.PNone? && b.PNone?
  }

  lemma PayloadEqIsEquivalence(a: Payload, b: Payload, c: Payload)
    ensures PayloadEq(a, a)
    ensures PayloadEq(a, b) ==> PayloadEq(b, a)
    ensures PayloadEq(a, b) && PayloadEq(b, c) ==> PayloadEq(a, c)
  {
  }

  // ---------------------------------------------------------------------------
  // Integer operators

  function Abs(a: int): nat {
    if a < 0 then -a else a
  }

  /** Python `//`: the quotient rounded towards negative infinity. */
  function FloorDiv(a: int, b: int): int
    requires b != 0
  {
    if b > 0 || a % b == 0 then a / b else a / b - 1
  }

  /** Python `%`: the remainder that goes with `//`, with the sign of the divisor. */
  function FloorMod(a: int, b: int): (m: int)
    requires b != 0
    ensures a == b * FloorDiv(a, b) + m
    ensures b > 0 ==> 0 <= m < b
    ensures b < 0 ==> b < m <= 0
  {
    a - b * FloorDiv(a, b)
  }

  /** Quotient and remainder with these bounds are unique, so `//` and `%` are
      the floor quotient and remainder. */
  lemma FloorDivUnique(a: int, b: int, q: int, m: int)
    requires b != 0 && a == b * q + m
    requires b > 0 ==> 0 <= m < b
    requires b < 0 ==> b < m <= 0
    ensures q == FloorDiv(a, b) && m == FloorMod(a, b)
  {
    var q0, m0 := FloorDiv(a, b), FloorMod(a, b);
    assert b * (q - q0) == m0 - m;
    if q > q0 {
      ProductAtLeast(b, q - q0);
    } else if q < q0 {
      ProductAtLeast(b, q0 - q);
    }
  }

  lemma ProductAtLeast(b: int, k: int)
    requires b != 0 && k >= 1
    ensures Abs(b * k) >= Abs(b)
  {
    if b > 0 {
      assert b * k == b + b * (k - 1);
    } else {
      assert b * k == b + b * (k - 1);
    }
  }

  /** Integer `**` with a non-negative exponent. */
  function Pow(a: int, n: nat): int
    decreases n
  {
    if n == 0 then 1 else a * Pow(a, n - 1)
  }

  lemma {:induction false} PowAdd(a: int, m: nat, n: nat)
    ensures Pow(a, m + n) == Pow(a, m) * Pow(a, n)
    decreases m
  {
    if m > 0 {
      PowAdd(a, m - 1, n);
      assert Pow(a, m + n) == a * Pow(a, m - 1 + n);
    }
  }

  lemma {:induction false} PowPositive(a: int, n: nat)
    requires a > 0
    ensures Pow(a, n) > 0
    decreases n
  {
    if n > 0 {
      PowPositive(a, n - 1);
    }
  }

  /** `a << n`. */
  function ShiftLeft(a: int, n: nat): (r: int)
    ensures r == a * Pow(2, n)
  {
    PowPositive(2, n);
    a * Pow(2, n)
  }

  /** `a >> n`: an arithmetic shift, rounding towards negative infinity. */
  function ShiftRight(a: int, n: nat): (r: int)
    ensures Pow(2, n) > 0 && r == FloorDiv(a, Pow(2, n))
  {
    PowPositive(2, n);
    FloorDiv(a, Pow(2, n))
  }

  /** Shifting left and back right returns the number. */
  lemma ShiftRoundTrip(a: int, n: nat)
    ensures ShiftRight(ShiftLeft(a, n), n) == a
  {
    PowPositive(2, n);
    FloorDivUnique(a * Pow(2, n), Pow(2, n), a, 0);
  }

  /** Shifting a non-negative number right never grows it. */
  lemma ShiftRightShrinks(a: int, n: nat)
    requires a >= 0
    ensures 0 <= ShiftRight(a, n) <= a
  {
    PowPositive(2, n);
    QuotientBounded(a, Pow(2, n));
  }

  lemma QuotientBounded(a: int, p: int)
    requires a >= 0 && p > 0
    ensures 0 <= FloorDiv(a, p) <= a
  {
    var q, m := FloorDiv(a, p), FloorMod(a, p);
    assert a == p * q + m && 0 <= m < p;
    if q > 0 {
      ProductAtLeast(q, p);
      assert q * p == p * q;
    }
  }

  lemma HalfShrinks(a: int)
    ensures Abs(a / 2) <= Abs(a)
    ensures a != 0 && a != -1 ==> Abs(a / 2) < Abs(a)
  {
  }

  /** `a & b` on two's-complement integers of unbounded width. */
  function BitAnd(a: int, b: int): (r: int)
    decreases Abs(a) + Abs(b)
  {
    if a == 0 || b == 0 then 0
    else if a == -1 then b
    else if b == -1 then a
    else
      HalfShrinks(a);
      HalfShrinks(b);
      2 * BitAnd(a / 2, b / 2) + (if a % 2 == 1 && b % 2 == 1 then 1 else 0)
  }

  /** `a | b`. */
  function BitOr(a: int, b: int): (r: int)
    decreases Abs(a) + Abs(b)
  {
    if a == 0 then b
    else if b == 0 then a
    else if a == -1 || b == -1 then -1
    else
      HalfShrinks(a);
      HalfShrinks(b);
      2 * BitOr(a / 2, b / 2) + (if a % 2 == 1 || b % 2 == 1 then 1 else 0)
  }

  /** `a ^ b`. */
  function BitXor(a: int, b: int): (r: int)
    decreases Abs(a) + Abs(b)
  {
    if a == 0 then b
    else if b == 0 then a
    else if a == -1 then -b - 1
    else if b == -1 then -a - 1
    else
      HalfShrinks(a);
      HalfShrinks(b);
      2 * BitXor(a / 2, b / 2) + (if a % 2 != b % 2 then 1 else 0)
  }

  /** `~a`. */
  function Invert(a: int): (r: int)
    ensures r + a == -1
  {
    -a - 1
  }

  /** Adding the two bitwise results gives the sum: the carries are exactly the
      common bits. */
  lemma {:induction false} OrPlusAnd(a: int, b: int)
    ensures BitOr(a, b) + BitAnd(a, b) == a + b
    decreases Abs(a) + Abs(b)
  {
    if a != 0 && b != 0 && a != -1 && b != -1 {
      HalfShrinks(a);
      HalfShrinks(b);
      OrPlusAnd(a / 2, b / 2);
    }
  }

  /** Exclusive or is the bits of `|` that are not in `&`. */
  lemma {:induction false} XorIsOrMinusAnd(a: int, b: int)
    ensures BitXor(a, b) == BitOr(a, b) - BitAnd(a, b)
    decreases Abs(a) + Abs(b)
  {
    if a != 0 && b != 0 && a != -1 && b != -1 {
      HalfShrinks(a);
      HalfShrinks(b);
      XorIsOrMinusAnd(a / 2, b / 2);
    }
  }

  lemma {:induction false} XorSelf(a: int)
    ensures BitXor(a, a) == 0
    decreases Abs(a)
  {
    if a != 0 && a != -1 {
      HalfShrinks(a);
      XorSelf(a / 2);
    }
  }

  lemma {:induction false} AndSelf(a: int)
    ensures BitAnd(a, a) == a && BitOr(a, a) == a
    decreases Abs(a)
  {
    if a != 0 && a != -1 {
      HalfShrinks(a);
      AndSelf(a / 2);
    }
  }

  /** `a ^ -1 == ~a`: exclusive or with all ones flips every bit. */
  lemma XorAllOnes(a: int)
    ensures BitXor(a, -1) == Invert(a)
  {
  }

  /** The bits of `a & b` are among those of a non-negative `a`. */
  lemma {:induction false} AndBounded(a: int, b: int)
    requires a >= 0
    ensures 0 <= BitAnd(a, b) <= a
    decreases Abs(a) + Abs(b)
  {
    if a != 0 && b != 0 && b != -1 {
      HalfShrinks(a);
      HalfShrinks(b);
      AndBounded(a / 2, b / 2);
    }
  }

  // ---------------------------------------------------------------------------
  // Operators on values

  predicate ComparisonOperator(op: string) {
    op == ">=" || op == "<=" || op == ">" || op == "<"
  }

  /** `>=`, `<=`, `>` and `<` between numbers, or between strings; any other pair
      raises `TypeError`. */
  function Compare(op: string, a: Payload, b: Payload): (r: Result<bool, Fault>)
    requires ComparisonOperator(op)
    ensures r.Success? <==> (IntLike(a) && IntLike(b)) || (a.PStr? && b.PStr?)
    ensures r.Failure? ==> r.error == TypeMismatch
    ensures IntLike(a) && IntLike(b) && op == "<" ==> r == Success(AsInt(a) < AsInt(b))
    ensures a.PStr? && b.PStr? && op == "<" ==> r == Success(LexLess(a.s, b.s))
  {
    if IntLike(a) && IntLike(b) then
      var x, y := AsInt(a), AsInt(b);
      Success(if op == ">=" then x >= y else if op == "<=" then x <= y else if op == ">" then x > y else x < y)
    else if a.PStr? && b.PStr? then
      var x, y := a.s, b.s;
      Success(if op == ">=" then !LexLess(x, y) else if op == "<=" then !LexLess(y, x)
              else if op == ">" then LexLess(y, x) else LexLess(x, y))
    else Failure(TypeMismatch)
  }

  /** An arithmetic operator applied to two integers, failing where Python
      raises or would produce a float. */
  function IntOperation(op: string, x: int, y: int): (r: Result<int, Fault>)
  {
    if op == "|" then Success(BitOr(x, y))
    else if op == "^" then Success(BitXor(x, y))
    else if op == "&" then Success(BitAnd(x, y))
    else if op == ">>" then (if y < 0 then Failure(NegativeShift) else Success(ShiftRight(x, y)))
    else if op == "<<" then (if y < 0 then Failure(NegativeShift) else Success(ShiftLeft(x, y)))
    else if op == "+" then Success(x + y)
    else if op == "-" then Success(x - y)
    else if op == "*" then Success(x * y)
    else if op == "/" then (if y == 0 then Failure(ZeroDivision) else Failure(FloatNotModelled))
    else if op == "%" then (if y == 0 then Failure(ZeroDivision) else Success(FloorMod(x, y)))
    else if op == "//" then (if y == 0 then Failure(ZeroDivision) else Success(FloorDiv(x, y)))
    else if op == "**" then
      (if y >= 0 then Success(Pow(x, y)) else if x == 0 then Failure(ZeroDivision) else Failure(FloatNotModelled))
    else Failure(InvalidOperator(op))
  }

  /** The operators `interpret_binary_expression` turns into a `NumberValue`. */
  predicate ArithmeticOperator(op: string) {
    op == "|" || op == "^" || op == "&" || op == ">>" || op == "<<" || op == "+" || op == "-"
    || op == "*" || op == "/" || op == "%" || op == "//" || op == "**"
  }

  /** An arithmetic operator on non-integer payloads: strings concatenate,
      repeat and format (not modelled), everything else is a `TypeError`. */
  function OtherOperation(op: string, a: Payload, b: Payload): (r: Fault)
    requires ArithmeticOperator(op) && !(IntLike(a) && IntLike(b))
  {
    if op == "+" && a.PStr? && b.PStr? then Unmodelled
    else if op == "*" && ((a.PStr? && IntLike(b)) || (IntLike(a) && b.PStr?)) then Unmodelled
    else if op == "%" && a.PStr? then Unmodelled
    else TypeMismatch
  }

  /** `interpret_binary_expression` once both operands are evaluated: `.value`
      of the left operand, then of the right one unless `or`/`and` is already
      decided by the left, then the operator. `or` and `and` yield the truth of
      the Python expression. */
  function ApplyBinary(op: string, left: Value, right: Value): (r: Result<Value, Fault>)
    ensures left.FunctionValue? || left.Signal? ==> r == Failure(NoValueAttribute)
    ensures (right.FunctionValue? || right.Signal?) && !Decided(op, PayloadOf(left))
            ==> r == Failure(NoValueAttribute)
    ensures Decided(op, PayloadOf(left)) ==> r == Success(BooleanValue(op == "or"))
    ensures r.Success? ==> r.value.BooleanValue? || r.value.NumberValue?
    ensures r.Success? && ArithmeticOperator(op) ==> r.value.NumberValue?
    ensures r.Success? && !ArithmeticOperator(op) ==> r.value.BooleanValue?
  {
    var a :- PayloadOf(left);
    if op == "or" && Truthy(a) then Success(BooleanValue(true))
    else if op == "and" && !Truthy(a) then Success(BooleanValue(false))
    else
      var b :- PayloadOf(right);
      if op == "or" || op == "and" then Success(BooleanValue(Truthy(b)))
      else if op == "==" then Success(BooleanValue(PayloadEq(a, b)))
      else if op == "!=" then Success(BooleanValue(!PayloadEq(a, b)))
      else if ComparisonOperator(op) then
        var c :- Compare(op, a, b);
        Success(BooleanValue(c))
      else if ArithmeticOperator(op) then
        if IntLike(a) && IntLike(b) then
          var n :- IntOperation(op, AsInt(a), AsInt(b));
          Success(NumberValue(n))
        else Failure(OtherOperation(op, a, b))
      else Failure(InvalidOperator(op))
  }

  /** The left payload alone decides `or` (true) or `and` (false), so Python
      never reads the right one. */
  predicate Decided(op: string, a: Result<Payload, Fault>) {
    a.Success? && ((op == "or" && Truthy(a.value)) || (op == "and" && !Truthy(a.value)))
  }

  /** `interpret_unary_before_expression` once the operand is evaluated: `+`
      hands the value back without reading `.value`. */
  function ApplyUnary(op: string, v: Value): (r: Result<Value, Fault>)
    ensures op == "+" ==> r == Success(v)
    ensures op == "not" && r.Success? ==> r.value.BooleanValue?
    ensures (op == "~" || op == "-") && r.Success? ==> r.value.NumberValue?
    ensures op != "+" && (v.FunctionValue? || v.Signal?) ==> r.Failure?
  {
    if op == "+" then Success(v)
    else
      var p :- PayloadOf(v);
      if op == "not" then Success(BooleanValue(!Truthy(p)))
      else if op == "~" then (if IntLike(p) then Success(NumberValue(Invert(AsInt(p)))) else Failure(TypeMismatch))
      else if op == "-" then (if IntLike(p) then Success(NumberValue(-AsInt(p))) else Failure(TypeMismatch))
      else Failure(InvalidOperator(op))
  }

  /** The binary operator behind a compound assignment operator. */
  function CompoundBase(op: string): (r: Option<string>)
    ensures r.Some? ==> ArithmeticOperator(r.value) && op == r.value + "="
  {
    if op == "+=" then Some("+")
    else if op == "-=" then Some("-")
    else if op == "*=" then Some("*")
    else if op == "/=" then Some("/")
    else if op == "%=" then Some("%")
    else if op == "&=" then Some("&")
    else if op == "^=" then Some("^")
    else if op == "|=" then Some("|")
    else None
  }

  /** `NumberValue(variable.value + delta)` of the increment operators. */
  function Step(v: Value, delta: int): (r: Result<Value, Fault>)
    ensures r.Success? <==> PayloadOf(v).Success? && IntLike(PayloadOf(v).value)
    ensures r.Success? ==> r.value == NumberValue(AsInt(PayloadOf(v).value) + delta)
  {
    var p :- PayloadOf(v);
    if IntLike(p) then Success(NumberValue(AsInt(p) + delta))
    else Failure(TypeMismatch)
  }

  /** `++` is `+ 1` and `--` is `- 1`, failing exactly as the binary operators do. */
  lemma StepIsAddition(v: Value)
    ensures Step(v, 1) == ApplyBinary("+", v, NumberValue(1))
    ensures Step(v, -1) == ApplyBinary("-", v, NumberValue(1))
  {
  }

  /** Integer results of the arithmetic operators. */
  lemma IntegerArithmetic(x: int, y: int)
    ensures ApplyBinary("+", NumberValue(x), NumberValue(y)) == Success(NumberValue(x + y))
    ensures ApplyBinary("*", NumberValue(x), NumberValue(y)) == Success(NumberValue(x * y))
  {
  }

  /** `//` and `%` are the floor quotient and remainder, and fail on a zero divisor. */
  lemma IntegerDivision(x: int, y: int)
    ensures y != 0 ==> ApplyBinary("//", NumberValue(x), NumberValue(y)) == Success(NumberValue(FloorDiv(x, y)))
    ensures y != 0 ==> ApplyBinary("%", NumberValue(x), NumberValue(y)) == Success(NumberValue(FloorMod(x, y)))
    ensures y == 0 ==> ApplyBinary("//", NumberValue(x), NumberValue(y)) == Failure(ZeroDivision)
    ensures y == 0 ==> ApplyBinary("%", NumberValue(x), NumberValue(y)) == Failure(ZeroDivision)
  {
  }

  /** Comparisons give booleans; a negative shift count fails. */
  lemma IntegerComparisons(x: int, y: int)
    ensures ApplyBinary("<", NumberValue(x), NumberValue(y)) == Success(BooleanValue(x < y))
    ensures ApplyBinary("==", NumberValue(x), NumberValue(y)) == Success(BooleanValue(x == y))
    ensures y < 0 ==> ApplyBinary(">>", NumberValue(x), NumberValue(y)) == Failure(NegativeShift)
  {
  }

  /** `or` and `and` read the right payload only when the left one leaves the
      answer open: a true left decides `or` and a false left decides `and`,
      whatever the right operand is; otherwise the answer is the truth of the
      right payload, and an operand without one fails. */
  lemma {:induction false} ShortCircuitOnValues(left: Value, right: Value)
    requires PayloadOf(left).Success?
    ensures var a := PayloadOf(left).value;
            ApplyBinary("or", left, right)
              == if Truthy(a) then Success(BooleanValue(true))
                 else if PayloadOf(right).Failure? then Failure(NoValueAttribute)
                 else Success(BooleanValue(Truthy(PayloadOf(right).value)))
    ensures var a := PayloadOf(left).value;
            ApplyBinary("and", left, right)
              == if !Truthy(a) then Success(BooleanValue(false))
                 else if PayloadOf(right).Failure? then Failure(NoValueAttribute)
                 else Success(BooleanValue(Truthy(PayloadOf(right).value)))
  {
  }

  /** `1 or f` and `0 and f` succeed with a function `f`; `0 or f`, `1 and f`
      and `f or 1` fail, since they read `f.value`. */
  lemma FunctionOperands()
    ensures ApplyBinary("or", NumberValue(1), FunctionValue("f", [], [])) == Success(BooleanValue(true))
    ensures ApplyBinary("and", NumberValue(0), FunctionValue("f", [], [])) == Success(BooleanValue(false))
    ensures ApplyBinary("or", NumberValue(0), FunctionValue("f", [], [])) == Failure(NoValueAttribute)
    ensures ApplyBinary("and", NumberValue(1), FunctionValue("f", [], [])) == Failure(NoValueAttribute)
    ensures ApplyBinary("or", FunctionValue("f", [], []), NumberValue(1)) == Failure(NoValueAttribute)
  {
  }

  /** `~~x == x` and `~x == -x - 1` on numbers. */
  lemma InvertTwice(x: int)
    ensures ApplyUnary("~", NumberValue(x)) == Success(NumberValue(-x - 1))
    ensures ApplyUnary("~", ApplyUnary("~", NumberValue(x)).value) == Success(NumberValue(x))
  {
  }
}

=== FILE: wrappers.dfy ===
/** Failure-compatible helper datatypes shared by every stage of the pipeline. */
module Wrappers {

  /** An optional value; stands for Python's `None` where a value may be absent. */
  datatype Option<+T> = None | Some(value: T) {

    predicate IsFailure() {
      None?
    }

    function PropagateFailure<U>(): Option<U>
      requires None?
    {
      None
    }

    function Extract(): T
      requires Some?
    {
      value
    }

    function GetOr(default: T): T {
      match this
      case Some(v) => v
      case None => default
    }
  }

  /** Either a computed value or the exception the source raises instead. */
  datatype Result<+R, +E> = Success(value: R) | Failure(error: E) {

    predicate IsFailure() {
      Failure?
    }

    function PropagateFailure<U>(): Result<U, E>
      requires Failure?
    {
      Failure(error)
    }

    function Extract(): R
      requires Success?
    {
      value
    }
  }
}
